=== FILE: README.md ===
# Availability scheduling engine — a Dafny model

This project models the scheduling core of a group-meeting planner written in
TypeScript (Next.js with Prisma):

- an organizer creates a FIXED or POLL meeting and invites people by e-mail;
- participants (signed-in users or guests) answer with availability rows;
- the organizer reads the heatmap, then confirms or cancels the meeting and can
  download a calendar file.

What is modelled:

- **The database** (`Store`): an immutable record of tables (users, meetings,
  participants, time slots, availability rows) with the key and uniqueness
  constraints of the schema as the invariant `Valid`. New ids and guest tokens
  come from a counter in the record (`nextId`), which stands in for the
  database's generated defaults.
- **The server actions**, each as one pure state transition over that record:
  - `submitAvailability` (`AvailabilityAction`), a replace-not-merge transaction;
  - `confirmMeeting`, `cancelMeeting` and `sendReminder` (`MeetingActions`);
  - `joinAsGuest` (`GuestAction`);
  - the meeting-creation `POST` route (`CreateMeetingRoute`): its schema, its
    error replies, the daily time-slot loop and the invitee upserts.
- **The zod schemas** (`Validators`), as predicates with their issue lists.
- **The calendar export** (`Ics`):
  - TEXT escaping per section 3.3.11 of RFC 5545;
  - the basic DATE-TIME form of section 3.3.5 of RFC 5545;
  - the CRLF-separated content lines of section 3.1 of RFC 5545.
- **The display components' logic:**
  - the dense slot grid (`DisplayGrid`);
  - the availability heatmap's coverage count, ratio and colour bucket (`Heatmap`);
  - the drag-to-select grid (`Grid`);
  - the time-zone helpers and picker (`Timezone`, `TimezoneSelector`);
  - the new-meeting form (`CreateMeetingForm`);
  - the meetings page's merge and tabs (`MeetingsList`);
  - the meeting card (`MeetingCard`);
  - the share page (`MeetingShareView`);
  - the participant chips (`ParticipantList`);
  - the creator's detail page (`MeetingDetail`);
  - the settings form (`SettingsForm`).

Each `*_properties.dfy` module holds the lemmas that relate several calls
(round trips, idempotence, invariants kept). `Wrappers`, `Seqs`, `Strings` and
`Tables` are shared helpers: option and result types, filtering, text
operations and unique keys.

Conventions:

- **Instants** are integer milliseconds since the epoch.
- **Parameters for what the model cannot compute:**
  - JavaScript's `new Date(text)` is a function parameter `toInstant`;
  - `toISOString` is a parameter `iso`;
  - zod's e-mail and date-time checks are a `Formats` record of predicates.
- **A floating-point ratio** becomes a fraction compared by cross-multiplication.
- **Behaviour kept as the code has it:**
  - confirming and cancelling do not look at the meeting's current status;
  - cancelling keeps a confirmed time;
  - an availability row may end before it starts;
  - `src/lib/validators.ts` has a meeting schema that differs from the route's own schema, and both are modelled;
  - an availability submission with neither a participant id nor a guest token runs an unfiltered query and answers for the first participant of the table.

## Model

| member | source | states |
|---|---|---|
| AvailabilityAction.Resolve | src/actions/availability.ts:15-21 | A given id wins over the token. The lookup finds a participant carrying that id (or, without an id, that token), and a miss means no participant carries it. With neither, the unfiltered query yields the first participant, if there is one. |
| AvailabilityAction.NewRows | src/actions/availability.ts:28-38 | One inserted row per submitted row, in order, with fresh consecutive ids. Each row belongs to the participant, carries the participant's user id and has the submitted instants and flag. |
| AvailabilityAction.Apply | src/actions/availability.ts:26-47 | The transaction uses one fresh id per submitted row and leaves users, meetings and time slots untouched. |
| AvailabilityAction.Submit | src/actions/availability.ts:7-23 | The payload is checked before the lookup. The call fails with "invalid payload" exactly when the schema rejects, and with "participant not found" exactly when the payload is valid but the lookup misses. A success is the transaction for the resolved participant: that participant's rows replaced and their response recorded. |
| AvailabilityProperties.ApplyReplaces | src/actions/availability.ts:27-38 | Afterwards the participant's rows are exactly the submitted rows in submission order. The old rows are gone, not merged. |
| AvailabilityProperties.ApplyKeepsOthers | src/actions/availability.ts:27 | The delete is scoped to the participant: every other participant's rows are unchanged. |
| AvailabilityProperties.ApplyMarksResponded | src/actions/availability.ts:39-46 | The participant becomes RESPONDED, with the submitted time zone and the response time. Every other participant row is unchanged. |
| AvailabilityProperties.ApplyKeepsValid | src/actions/availability.ts:26-47 | The transaction keeps every key and uniqueness constraint. |
| AvailabilityProperties.SubmitKeepsValid | src/actions/availability.ts:7-51 | A successful submission keeps every key and uniqueness constraint. |
| AvailabilityProperties.UnfilteredSubmitAnswersForFirst | src/actions/availability.ts:15-23 | With neither id nor token, a valid payload and at least one participant, the call succeeds. It replaces the rows of the first participant of the table and marks that participant RESPONDED. |
| AvailabilityProperties.ApplyKeepsResolve | src/actions/availability.ts:39-46 | The update touches neither ids nor guest tokens, so the same lookup finds the same participant after the transaction. |
| AvailabilityProperties.ApplyAgainKeepsParticipants | src/actions/availability.ts:39-46 | Recording the same response a second time leaves the participant table unchanged. |
| AvailabilityProperties.SubmitTwiceIsSubmitOnce | src/actions/availability.ts:26-47 | Submitting the same payload again, at any later clock reading, succeeds and finds the same participant. In the participant table only that participant's response time moves to the new reading, so at the same reading the table is unchanged. That participant's rows differ from the first result only in their generated ids, and other participants' rows are untouched. |
| AvailabilityProperties.ReapplyParticipants | src/actions/availability.ts:39-46 | A second transaction on the row the first left moves only that participant's response time to the new reading. At the same reading the participant table is unchanged. |
| AvailabilityProperties.ReapplyRows | src/actions/availability.ts:27-38 | A second transaction on the row the first left gives that participant rows with the same contents, and leaves every other participant's rows as they were. |
| MeetingActions.Authorize | src/actions/meeting.ts:9-13 | "Unauthorized" exactly when there is no session. When meeting ids are unique, success exactly when a meeting with that id was created by the signed-in user. The status is never consulted. |
| MeetingActions.Confirm | src/actions/meeting.ts:8-21 | Fails exactly when the guard fails, with the guard's error (for a time text that denotes an instant; see "Left out"). On success only the meetings table changes, and it keeps its length. |
| MeetingActions.Cancel | src/actions/meeting.ts:30-40 | Fails exactly when the guard fails, with the guard's error. On success only the meetings table changes, and it keeps its length. |
| MeetingActions.PendingOf | src/actions/meeting.ts:51-53 | Holds exactly the participants of that meeting whose status is PENDING. |
| MeetingActions.SendReminder | src/actions/meeting.ts:46-57 | Needs only a session, not the creator. It answers the number of PENDING participants of the meeting, which never exceeds the participant table. |
| MeetingProperties.ConfirmEffect | src/actions/meeting.ts:15-21 | The meeting with the id becomes CONFIRMED at the chosen instant and keeps all its other fields. Every other meeting is unchanged. |
| MeetingProperties.CancelEffect | src/actions/meeting.ts:37-40 | The meeting with the id becomes CANCELLED and nothing else changes, so a confirmed time survives. |
| MeetingProperties.StatusActionsKeepValid | src/actions/meeting.ts:8-40 | Confirming and cancelling keep every key and uniqueness constraint. |
| MeetingProperties.StatusIsNeverChecked | src/actions/meeting.ts:12-21 | The creator can confirm a cancelled meeting. Cancelling a confirmed meeting keeps its confirmed time. |
| MeetingProperties.ConfirmTwice | src/actions/meeting.ts:15-21 | Confirming again at the same time returns the same database. |
| MeetingProperties.SubmissionLeavesReminderList | src/actions/meeting.ts:51-53 | After an availability submission, the reminder list of any meeting is the old list without the submitting participant. |
| MeetingProperties.SubmissionReminderCount | src/actions/meeting.ts:51-57 | A submission by a pending participant of the meeting lowers its reminder count. A submission by anyone else leaves the list as it was. |
| GuestAction.StoredEmail | src/actions/guest.ts:23 | An absent or empty e-mail is stored as null; any other e-mail is stored as given. |
| GuestAction.JoinAsGuest | src/actions/guest.ts:7-30 | Fails with InvalidGuest exactly when the guest schema rejects. It fails with NoSuchMeeting, the foreign-key error of the insert, only when no meeting has the id. With a non-empty e-mail already joined for the meeting, it changes nothing and returns that participant's token. Otherwise, for an existing meeting, it appends exactly one PENDING guest with the name, the stored e-mail, time zone "UTC" and a fresh id and token, and returns that id and token. Nothing else changes. |
| GuestProperties.GuestJoinKeepsValid | src/actions/guest.ts:10-27 | A successful join keeps every constraint, including "one participant per meeting and guest e-mail". |
| GuestProperties.JoinTwiceSameEmail | src/actions/guest.ts:10-16 | A second join with the same non-empty e-mail creates nobody and returns the first join's token. |
| GuestProperties.JoinWithoutEmailNeverMerges | src/actions/guest.ts:19-27 | Two joins without an e-mail create two participants with different ids and tokens, even under the same name. |
| Store.FindMeeting | src/actions/meeting.ts:12 | Finds a meeting with that id, or reports that none has it. |
| Store.FindUserByEmail | src/app/api/meetings/route.ts:95 | Finds a user with that e-mail, or reports that none has it. |
| Store.EnrolKeepsValid | src/app/api/meetings/route.ts:83-90 | A new participant keeps the constraints whenever its meeting has no participant for the same user or the same guest e-mail. |
| Validators.SignupIssues | src/lib/validators.ts:3-15 | No issues exactly when the signup is valid. The confirmPassword issue appears exactly when the passwords differ, and the password issue exactly when it is shorter than 8. |
| Validators.ParseSignup | src/lib/validators.ts:3-15 | Succeeds exactly on a valid signup. The time zone defaults to "UTC", and a failure carries at least one issue. |
| Validators.GuestJoinIssues | src/lib/validators.ts:47-50 | No issues exactly when the name has 1 to 100 characters and the e-mail is absent, empty or valid. An e-mail issue is only ever raised for a non-empty e-mail. |
| Validators.SubmitAcceptsReversedRow | src/lib/validators.ts:52-61 | A row whose end precedes its start passes the availability schema. |
| Validators.MeetingFormDurationAndType | src/lib/validators.ts:22-27 | This schema accepts a fractional duration such as 22.5, rejects 10 and rejects a missing type. |
| Validators.FixedResponseMessageLimit | src/lib/validators.ts:63-67 | An absent message is fine, and a present one passes exactly when it has at most 500 characters. |
| CreateMeetingRoute.ParseRoute | src/app/api/meetings/route.ts:7-18 | Succeeds exactly on valid input, and then the duration is a whole number from 5 to 480. The type is FIXED only when FIXED was sent (POLL is the default), invitees default to none, the open-link flag defaults to true, and the other fields pass through. |
| CreateMeetingRoute.DailySlots | src/app/api/meetings/route.ts:66-76 | None when the end precedes the start, otherwise one per day up to and including the end. Slot k starts k days after the start and lasts the given hours. |
| CreateMeetingRoute.AddSlots | src/app/api/meetings/route.ts:77-79 | Appends one slot per time pair, in order, with fresh ids. Nothing else changes. |
| CreateMeetingRoute.AddInvitee | src/app/api/meetings/route.ts:93-120 | Afterwards the invitee is represented: by their user row when the e-mail belongs to a user, otherwise by a guest row. Only PENDING rows of this meeting are appended, and an invitee already represented leaves the database as it was. |
| CreateMeetingRoute.AddInvitees | src/app/api/meetings/route.ts:93-120 | Afterwards every invitee is represented. Only PENDING rows of this meeting are appended. |
| CreateMeetingRoute.CreateMeeting | src/app/api/meetings/route.ts:44-126 | The transaction appends exactly the new meeting to the meetings table and leaves users and availability rows alone. The id counter moves past the meeting's id. |
| CreateMeetingRoute.Post | src/app/api/meetings/route.ts:20-126 | 401 exactly without a session, 400 exactly when the body is not JSON, 422 exactly when the schema rejects. A 201 carries a fresh meeting id and the database after the creation transaction for the signed-in user and the parsed body. |
| RouteProperties.PostCreatesMeeting | src/app/api/meetings/route.ts:20-126 | From a valid database, a 201 reply's database is valid and holds one more meeting. That meeting answers to the returned id, belongs to the signed-in user and is PENDING. Users and availability rows are untouched. |
| RouteProperties.DailySlotsSpanRange | src/app/api/meetings/route.ts:66-76 | The first slot starts at the range start, every start lies within the range, and the last start is less than a day before the end. |
| RouteProperties.DailySlotsDisjoint | src/app/api/meetings/route.ts:69-75 | With durations up to 480 minutes, every slot is non-empty and ends no later than the next one starts. |
| RouteProperties.CreateMeetingTables | src/app/api/meetings/route.ts:44-120 | One new PENDING meeting of the creator, with no confirmed time. There are time slots only for polls, each for the new meeting. The creator follows as a non-guest RESPONDED participant, then only PENDING invitee rows. Users and availability are untouched. |
| RouteProperties.DuplicateInviteeIsIgnored | src/app/api/meetings/route.ts:93-120 | Inviting the same e-mail twice is the same as inviting it once. |
| RouteProperties.AddInviteeKeepsValid | src/app/api/meetings/route.ts:93-120 | One upsert keeps every constraint. |
| RouteProperties.AddInviteesKeepValid | src/app/api/meetings/route.ts:93-120 | The invitee loop keeps every constraint. |
| RouteProperties.AddMeetingKeepsValid | src/app/api/meetings/route.ts:45-58 | Adding a meeting with a fresh id keeps every constraint. |
| RouteProperties.AddSlotsKeepsValid | src/app/api/meetings/route.ts:77-79 | Adding the time slots keeps every constraint. |
| RouteProperties.WithSlotsKeepsValid | src/app/api/meetings/route.ts:44-80 | The meeting and its slots keep every constraint, leave the participant table as it was, and the creator has no participant row in the new meeting yet. |
| RouteProperties.PreparedKeepsValid | src/app/api/meetings/route.ts:44-90 | The meeting, its slots and the creator's participant row keep every constraint. |
| RouteProperties.CreateMeetingKeepsValid | src/app/api/meetings/route.ts:44-120 | The whole creation transaction keeps every constraint. |
| RouteProperties.OrganizerStaysResponded | src/app/api/meetings/route.ts:83-120 | The creator's row stays RESPONDED even when the creator is among the invitees, and every invitee is represented. |
| Ics.Escape | src/lib/ics.ts:14-19 | The output grows by one character per special character and holds no line feed. Text without special characters is unchanged. |
| Ics.UnescapeEscape | src/lib/ics.ts:14-19 | Unescaping the escaped text gives back the original. |
| Ics.DropSeparators | src/lib/ics.ts:11 | Keeps only characters of the input that are neither `-` nor `:`. |
| Ics.FirstMillis | src/lib/ics.ts:11 | Finds the leftmost `.ddd` at or after the position, or reports that there is none. |
| Ics.FormatIcsDate | src/lib/ics.ts:10-12 | Every output character comes from the input and is neither `-` nor `:`. |
| Ics.StripSeparators | src/lib/ics.ts:11 | On any `toISOString` text, dropping the separators gives the fields run together with `T`, `.` and `Z`. |
| Ics.FormatIsoText | src/lib/ics.ts:10-12 | Any `toISOString` text becomes the basic UTC form `YYYYMMDDTHHMMSSZ`. |
| Ics.FormatExample | src/lib/ics.ts:10-12 | "2024-01-01T09:00:00.000Z" becomes "20240101T090000Z". |
| Ics.OptionalLine | src/lib/ics.ts:38-43 | A DESCRIPTION or LOCATION line, escaped, exactly when the field is present and non-empty. |
| Ics.HeadLines | src/lib/ics.ts:22-36 | Ten lines: the calendar and event openers, DTSTART at the start, DTEND at the start plus the duration in minutes, and the escaped SUMMARY. |
| Ics.TailLines | src/lib/ics.ts:45-50 | The organizer line, with an escaped name and an unescaped e-mail, then DTSTAMP with the clock reading in basic UTC form, then the two closers. |
| Ics.IcsLines | src/lib/ics.ts:21-50 | The document opens with BEGIN:VCALENDAR and BEGIN:VEVENT and closes with END:VEVENT and END:VCALENDAR. DESCRIPTION and LOCATION appear exactly when present, in that order, after SUMMARY. The line count follows. |
| Ics.CrlfJoin | src/lib/ics.ts:52 | Joining with CRLF is joining with LF the lines that carry a CR at their end. |
| Ics.LinesHaveNoLineFeed | src/lib/ics.ts:25-50 | No line holds a line feed, given the UID, the e-mail and the ISO texts hold none. |
| Ics.GenerateIcs | src/lib/ics.ts:21-53 | The document opens with the `BEGIN:VCALENDAR` line and its CRLF. |
| Ics.DocumentLines | src/lib/ics.ts:52 | Splitting the document at line feeds gives back each content line with its CR, so every line ends in CRLF except the last. |
| Timezone.CityName | src/lib/timezone.ts:60-63 | The text after the last `/`, with `_` turned into spaces. It holds neither `/` nor `_`. |
| Timezone.CityOfSegment | src/lib/timezone.ts:60-63 | For `prefix/segment`, the city is the segment with spaces for underscores. |
| Timezone.CityWithoutSlash | src/lib/timezone.ts:60-63 | A zone without `/` is its own city, with spaces for underscores. |
| Timezone.NewYorkExample | src/lib/timezone.ts:56-57 | "America/New_York" gives "New York". |
| Timezone.HoChiMinhExample | src/lib/timezone.ts:58 | "Asia/Ho_Chi_Minh" gives "Ho Chi Minh". |
| Timezone.BuenosAiresExample | src/lib/timezone.ts:80 | "America/Argentina/Buenos_Aires" gives "Buenos Aires". |
| Timezone.RegionOptions | src/lib/timezone.ts:131-140 | One option per zone of the region, in order, each tagged with the region. Each carries the zone's city, offset, abbreviation and the label "city (offset)". |
| Timezone.Options | src/lib/timezone.ts:130-141 | The options list the zones group after group, each option describing its zone. |
| Timezone.AllTimezoneOptions | src/lib/timezone.ts:120-144 | The options list the zones of all groups in group order. Each option has the zone's city, its offset and abbreviation, and the label `city (offset)`. |
| Timezone.AllOptionsLayout | src/lib/timezone.ts:68-115 | Forty options: 13 Americas, then 13 Europe & Africa, then 14 Asia & Pacific, each with its region. |
| Timezone.OptionValuesDistinct | src/lib/timezone.ts:68-114 | No zone is listed twice. |
| TimezoneSelector.Filtered | src/components/timezone/TimezoneSelector.tsx:43-50 | No list while the search is empty. Otherwise an order-keeping sub-list holding exactly the options whose city, zone or offset contains the query, ignoring case. |
| TimezoneSelector.SearchIgnoresCase | src/components/timezone/TimezoneSelector.tsx:44-49 | Queries equal up to case find the same options. |
| TimezoneSelector.SearchLowercased | src/components/timezone/TimezoneSelector.tsx:44-49 | Lower-casing the query changes nothing. |
| TimezoneSelector.Select | src/components/timezone/TimezoneSelector.tsx:99-103 | A pick sets the zone, closes the popover and clears the search. |
| TimezoneSelector.SelectResets | src/components/timezone/TimezoneSelector.tsx:99-103 | After a pick the picker is back in the grouped view, and the picked zone is in use. |
| DisplayGrid.SlotStarts | src/components/meetings/AvailabilityHeatmap.tsx:55-83 | The ceiling of range over step many starts when the range is non-empty, none otherwise. They are spaced one step apart from the range start, all before the end, and the last slot reaches the end. |
| Heatmap.AnyCovers | src/components/meetings/AvailabilityHeatmap.tsx:65-70 | True exactly when some available row covers the whole slot. |
| Heatmap.Split | src/components/meetings/AvailabilityHeatmap.tsx:64-72 | Every participant lands on exactly one side, in participant order. The available side holds exactly the participants with a covering row. |
| Heatmap.AvailableSideCount | src/components/meetings/AvailabilityHeatmap.tsx:77 | The available count is the number of participants with a covering row. |
| Heatmap.CellAt | src/components/meetings/AvailabilityHeatmap.tsx:60-80 | The count equals the available names, and count plus unavailable names is the participant count. The count is the number of covering participants. |
| Heatmap.Build | src/components/meetings/AvailabilityHeatmap.tsx:46-85 | One cell per display slot, each slot start before the range end. Each cell is the coverage cell of its slot. |
| Heatmap.Ratio | src/components/meetings/AvailabilityHeatmap.tsx:147 | The fraction available over all participants, with a positive denominator; zero when there are no participants. |
| Heatmap.ColorBucket | src/components/meetings/AvailabilityHeatmap.tsx:27-33 | Five buckets split at 0, 1/4, 1/2 and 3/4: the lightest exactly for a zero ratio, the second for a ratio up to a quarter, up to the third for a ratio up to a half, up to the fourth for a ratio up to three quarters, and the darkest above three quarters. |
| HeatmapProperties.SplitDependsOnCoverage | src/components/meetings/AvailabilityHeatmap.tsx:64-72 | Two participant lists that agree on who covers a slot split alike. |
| HeatmapProperties.CountedIffCovering | src/components/meetings/AvailabilityHeatmap.tsx:64-71 | A participant is counted available exactly when one of their rows covers the slot, and is unavailable otherwise. |
| HeatmapProperties.UnavailableRowsIgnored | src/components/meetings/AvailabilityHeatmap.tsx:67 | Adding rows marked unavailable never changes any cell. |
| HeatmapProperties.CellDependsOnCoverage | src/components/meetings/AvailabilityHeatmap.tsx:64-80 | Same names and same coverage give the same cell. |
| HeatmapProperties.AddingRowNeverLowersCount | src/components/meetings/AvailabilityHeatmap.tsx:64-70 | Adding a row to any participant never lowers a slot's count. |
| HeatmapProperties.FullyAvailableMeansEveryone | src/components/meetings/AvailabilityHeatmap.tsx:147-148 | A slot is highlighted exactly when there are participants and every one of them has a covering row. Its ratio is then one and its colour the darkest. |
| HeatmapProperties.RatioAtMostOne | src/components/meetings/AvailabilityHeatmap.tsx:147 | The ratio never exceeds one. |
| HeatmapProperties.ColorMonotone | src/components/meetings/AvailabilityHeatmap.tsx:27-33 | A smaller or equal ratio never gets a darker bucket. |
| HeatmapProperties.PartialOverlapScenario | src/components/meetings/AvailabilityHeatmap.tsx:65-70 | Take rows 09:00-10:00 and 09:30-10:30. The slot 09:30-10:00 counts both participants; the slot 09:00-09:30 counts only the first, because partial overlap does not count. |
| Grid.AllSlots | src/components/meetings/AvailabilityGrid.tsx:45-61 | The slots start at the range start and each lasts the slot size. They are contiguous, every one starts before the end, and the last reaches it. |
| Grid.Add | src/components/meetings/AvailabilityGrid.tsx:96 | Set insertion: the key joins at the end unless it is already present. |
| Grid.Delete | src/components/meetings/AvailabilityGrid.tsx:98 | Set deletion: exactly that key leaves, and the others keep their order. |
| Grid.InitialSelection | src/components/meetings/AvailabilityGrid.tsx:33-39 | Exactly the start instants of the existing rows marked available. |
| Grid.SubmitRows | src/components/meetings/AvailabilityGrid.tsx:120-131 | One available row per selected key, from the key to the key plus the slot size, in selection order. |
| Grid.SubmitEnabled | src/components/meetings/AvailabilityGrid.tsx:212-215 | Enabled exactly on an editable grid that is not submitting and has a non-empty selection. |
| Grid.ToggleSlot | src/components/meetings/AvailabilityGrid.tsx:92-102 | The key is in the selection afterwards exactly in select mode. All other keys are unchanged. |
| Grid.PointerDown | src/components/meetings/AvailabilityGrid.tsx:104-109 | On an editable grid: starts a drag, flips the pressed key, and picks deselect mode exactly when the key was selected. Otherwise nothing happens. |
| Grid.PointerEnter | src/components/meetings/AvailabilityGrid.tsx:111-114 | Applies the drag's mode to the key only while dragging on an editable grid. All other keys are unchanged. |
| Grid.PointerUp | src/components/meetings/AvailabilityGrid.tsx:116-118 | Ends the drag and keeps the selection. |
| GridProperties.SubmitThenLoad | src/components/meetings/AvailabilityGrid.tsx:120-131 | Loading the submitted rows as existing availability gives back the same selection in the same order. |
| GridProperties.DragSelects | src/components/meetings/AvailabilityGrid.tsx:111-114 | A select-mode drag adds every key it passes over and removes none. |
| GridProperties.DragDeselects | src/components/meetings/AvailabilityGrid.tsx:111-114 | A deselect-mode drag removes every key it passes over and adds none. |
| GridProperties.ReadOnlyDragIsInert | src/components/meetings/AvailabilityGrid.tsx:104-114 | On a read-only grid, nothing the pointer does changes the state. |
| GridProperties.PressAndDrag | src/components/meetings/AvailabilityGrid.tsx:104-114 | Pressing an unselected key and dragging selects it and every key passed. Pressing a selected key and dragging deselects them. |
| CreateMeetingForm.GoNext | src/components/meetings/CreateMeetingForm.tsx:70-73 | One step forward, never past step 3. |
| CreateMeetingForm.GoBack | src/components/meetings/CreateMeetingForm.tsx:75-78 | One step back, never before step 1. |
| CreateMeetingForm.NavigationInverse | src/components/meetings/CreateMeetingForm.tsx:70-78 | Back undoes Next wherever Next moved, and the other way round. |
| CreateMeetingForm.Normalize | src/components/meetings/CreateMeetingForm.tsx:81 | The normalized text is trimmed and lower-case. |
| CreateMeetingForm.AddInvitee | src/components/meetings/CreateMeetingForm.tsx:80-89 | Empty or `@`-less text changes nothing. A listed e-mail only clears the box. Anything else is appended and the box cleared. |
| CreateMeetingForm.RemoveInvitee | src/components/meetings/CreateMeetingForm.tsx:91-93 | Exactly that e-mail leaves; the others keep their order. |
| CreateMeetingForm.AddInviteeKeepsWellFormed | src/components/meetings/CreateMeetingForm.tsx:80-89 | The list stays duplicate-free, with every entry trimmed, lower-case and containing `@`. |
| CreateMeetingForm.RemoveInviteeKeepsWellFormed | src/components/meetings/CreateMeetingForm.tsx:91-93 | Removing keeps the list well formed. |
| CreateMeetingForm.RemoveUndoesAdd | src/components/meetings/CreateMeetingForm.tsx:80-93 | Removing an e-mail just added restores the list. |
| CreateMeetingForm.BackDisabled | src/components/meetings/CreateMeetingForm.tsx:421 | From step 1 on, Back is disabled exactly when going back would not change the step. |
| CreateMeetingForm.NextDisabled | src/components/meetings/CreateMeetingForm.tsx:443 | Next is disabled exactly on step 1 with a title made only of white space (or empty). |
| CreateMeetingForm.CreateDisabled | src/components/meetings/CreateMeetingForm.tsx:452 | Create is disabled exactly while submitting or while the title is only white space (or empty). |
| CreateMeetingForm.CreateEnabledHasTitle | src/components/meetings/CreateMeetingForm.tsx:452 | An enabled Create button implies a title with a non-space character. |
| CreateMeetingForm.ParseInt | src/components/meetings/CreateMeetingForm.tsx:104 | NaN exactly when the text does not start with a digit; an all-digit text gives its value. |
| CreateMeetingForm.OrUndefined | src/components/meetings/CreateMeetingForm.tsx:102-103 | An empty text is left out, and any other is sent as typed. |
| CreateMeetingForm.RequestBody | src/components/meetings/CreateMeetingForm.tsx:100-115 | The proposed time is sent exactly for a FIXED meeting with both date and time. Each range end is sent exactly for a POLL meeting with that end filled in. The duration is the number `parseInt` reads from the menu value, or absent when it reads none. The other fields are carried over. |
| CreateMeetingForm.DurationOptionsParse | src/components/meetings/CreateMeetingForm.tsx:23-30 | Every menu duration parses to a number from 15 to 120. |
| CreateMeetingForm.BodyDurationOk | src/components/meetings/CreateMeetingForm.tsx:103 | A duration picked from the menu is sent as a whole number of minutes from 5 to 480. |
| CreateMeetingForm.BodyOptionalsOk | src/components/meetings/CreateMeetingForm.tsx:104-115 | The sent type is FIXED or POLL. The time fields pass the date-time check when the ISO texts do, and the invitees pass the e-mail check when each invitee does. |
| CreateMeetingForm.FormBodyValid | src/components/meetings/CreateMeetingForm.tsx:100-115 | With Create enabled and the fields within the route's limits, the posted body passes the route's schema. |
| CreateMeetingForm.FormBodyAccepted | src/components/meetings/CreateMeetingForm.tsx:100-115 | Under the same conditions, the route reads back the form's type, invitees and open-link flag. Time fields arrive only for the matching type. |
| MeetingsList.SortNewestFirst | src/components/meetings/MeetingsListClient.tsx:50-52 | A permutation of the input, newest first. |
| MeetingsList.SortKeepsTies | src/components/meetings/MeetingsListClient.tsx:50-52 | The sort is stable: meetings of equal age keep their order. |
| MeetingsList.AllMeetings | src/components/meetings/MeetingsListClient.tsx:50-52 | A permutation of created followed by invited, with no de-duplication, newest first. |
| MeetingsList.AllMeetingsTies | src/components/meetings/MeetingsListClient.tsx:50-52 | Among meetings of equal age, created ones come first, each list in its own order. |
| MeetingsList.Shown | src/components/meetings/MeetingsListClient.tsx:54 | The All tab shows the merged list; the other two tabs show their own list. |
| MeetingsList.TabCountsMatch | src/components/meetings/MeetingsListClient.tsx:56-60 | Each tab's count is the number of meetings it shows, and All is the sum of the other two. |
| MeetingCard.MeetingStatusVariant | src/components/meetings/MeetingCard.tsx:43-47 | Confirmed badge exactly for CONFIRMED, unavailable exactly for CANCELLED, pending for anything else. |
| MeetingCard.MeetingStatusLabel | src/components/meetings/MeetingCard.tsx:49-53 | One of the three labels. |
| MeetingCard.LabelMatchesVariant | src/components/meetings/MeetingCard.tsx:43-53 | The label and the badge always agree. |
| MeetingCard.StoredStatusesDistinguished | src/components/meetings/MeetingCard.tsx:43-53 | The three stored statuses get three different badges and labels. |
| MeetingCard.FormatDuration | src/components/meetings/MeetingCard.tsx:55-60 | The text ends in `h` exactly for a whole number of hours of at least one, and in `m` otherwise. |
| MeetingCard.ReadFormatted | src/components/meetings/MeetingCard.tsx:55-60 | Every duration text reads back as the minutes it came from (`{m}m`, `{h}h` or `{h}h {m}m`). |
| MeetingCard.FormatDurationInjective | src/components/meetings/MeetingCard.tsx:55-60 | Different durations never print alike. |
| MeetingCard.FormatDurationExamples | src/components/meetings/MeetingCard.tsx:55-60 | 45 gives "45m", 90 gives "1h 30m" and 120 gives "2h". |
| MeetingCard.CardDisplayTime | src/components/meetings/MeetingCard.tsx:63 | The confirmed time whenever it is present, otherwise the proposed one. |
| MeetingCard.ParticipantCountText | src/components/meetings/MeetingCard.tsx:85 | Ends in "s" exactly when the count is not one. |
| MeetingCard.ParticipantCountReads | src/components/meetings/MeetingCard.tsx:85 | The text starts with the count's digits followed by a space. |
| MeetingShareView.ShareFormatDuration | src/components/meetings/MeetingShareView.tsx:61-66 | Agrees with the card's duration text on every whole number of minutes, and reads back as those minutes. |
| MeetingShareView.ShareDisplayTime | src/components/meetings/MeetingShareView.tsx:106 | The confirmed time when it is non-empty, otherwise the proposed one. |
| MeetingShareView.DisplayTimesAgree | src/components/meetings/MeetingShareView.tsx:106 | The page and the card show the same time unless the confirmed time is empty text. Then they differ whenever the proposed time is not also empty. |
| MeetingShareView.IsLoggedInParticipant | src/components/meetings/MeetingShareView.tsx:86-88 | True exactly when signed in and some participant carries the user's id. |
| MeetingShareView.IsAlreadyParticipant | src/components/meetings/MeetingShareView.tsx:90 | A held guest token always counts, and so does a signed-in participant. Without a token, only a signed-in participant does. |
| MeetingShareView.Restore | src/components/meetings/MeetingShareView.tsx:76-83 | The stored token is kept. The guest found is one carrying that token, and one is found whenever some participant carries it. |
| MeetingShareView.HandleJoined | src/components/meetings/MeetingShareView.tsx:93-97 | The new token is kept. The guest changes only to a participant with the returned id or token. |
| MeetingShareView.JoinThenRestore | src/components/meetings/MeetingShareView.tsx:76-97 | After a guest joins, a reload with the stored token finds the new participant. The join handler runs with the list rendered before the join: it keeps the new token but finds no participant. |
| MeetingShareView.Panel | src/components/meetings/MeetingShareView.tsx:198-238 | No panel for the creator. Welcome-back exactly for a known guest, with their name. The join prompt exactly for a visitor who is not yet a participant. |
| MeetingShareView.StoredTokenNoPrompt | src/components/meetings/MeetingShareView.tsx:198-238 | A visitor with a stored token is never invited to join again. |
| MeetingShareView.ResponseButtonsShown | src/components/meetings/MeetingShareView.tsx:247-266 | Shown exactly for a FIXED meeting with a time to answer, to a participant, before confirmation. |
| MeetingShareView.StatusBadge | src/components/meetings/MeetingShareView.tsx:120-128 | The card's colouring; the text is the status with every character lower-cased. |
| ParticipantList.ParticipantName | src/components/meetings/ParticipantList.tsx:27-30 | The user's full name, else a non-empty guest name, else "Unknown"; never empty. |
| ParticipantList.FirstLetters | src/components/meetings/ParticipantList.tsx:24 | The first character of every non-empty piece, in order. |
| ParticipantList.Initials | src/components/meetings/ParticipantList.tsx:23-25 | At most two characters: the upper-cased first letters of the first words. |
| ParticipantList.UserInitials | src/components/meetings/ParticipantList.tsx:23-30 | A user with one-word first and last names gets the initials of both. |
| ParticipantList.InitialsExample | src/components/meetings/ParticipantList.tsx:23-30 | "Ada Lovelace" gives "AL". |
| ParticipantList.ParticipantVariant | src/components/meetings/ParticipantList.tsx:38-46 | The precedence is creator, then guest, then responded (RESPONDED or AVAILABLE), then unavailable, then pending. |
| ParticipantList.VariantIgnoresStatus | src/components/meetings/ParticipantList.tsx:38-46 | The creator and guests keep their badge whatever they answer. |
| ParticipantList.BadgeText | src/components/meetings/ParticipantList.tsx:68 | "Creator", "Guest", or the lower-cased status. |
| ParticipantList.BadgeTextTellsStatus | src/components/meetings/ParticipantList.tsx:68 | Registered non-creator participants with different statuses get different texts. |
| ParticipantList.AvatarOf | src/components/meetings/ParticipantList.tsx:64 | A crown exactly for the creator, otherwise the participant's initials (at most two). |
| MeetingDetail.RespondedCount | src/components/meetings/MeetingDetail.tsx:76 | At most the participant count, and zero exactly when no participant is RESPONDED or AVAILABLE. |
| MeetingDetail.PendingCount | src/components/meetings/MeetingDetail.tsx:77 | At most the participant count, and zero exactly when no participant is PENDING. |
| MeetingDetail.CountsDisjoint | src/components/meetings/MeetingDetail.tsx:76-77 | The responded and pending counts never add up to more than the participants. They fill the list exactly when nobody answered UNAVAILABLE. |
| MeetingDetail.PendingCountIsReminderCount | src/components/meetings/MeetingDetail.tsx:77 | The pending count shown is the number a reminder reports. |
| MeetingDetail.RowVariant | src/components/meetings/MeetingDetail.tsx:149 | The table row uses the chips' precedence. |
| MeetingDetail.RowBadgeMatchesCounts | src/components/meetings/MeetingDetail.tsx:149 | A registered row counts as responded or pending exactly when its badge says so. |
| MeetingDetail.ReplaceFirst | src/components/meetings/MeetingDetail.tsx:165 | Only the first occurrence is replaced; everything else is unchanged. |
| MeetingDetail.RowBadgeText | src/components/meetings/MeetingDetail.tsx:165 | The same text as the chips, since no stored status has an underscore. |
| MeetingDetail.RowAvatar | src/components/meetings/MeetingDetail.tsx:158 | A crown exactly for the creator. Otherwise the text is the name's first character upper-cased, or empty for an empty name. |
| MeetingDetail.RowAvatarStartsInitials | src/components/meetings/MeetingDetail.tsx:158 | That letter is the first of the chip's initials. |
| MeetingDetail.HandleConfirm | src/components/meetings/MeetingDetail.tsx:38-51 | Nothing is sent without a chosen time. Otherwise the action fails exactly when the guard does, and on success the meeting is CONFIRMED at that time. |
| MeetingDetail.ConfirmDisabled | src/components/meetings/MeetingDetail.tsx:261 | Disabled without a time and while loading. |
| MeetingDetail.EnabledConfirmSends | src/components/meetings/MeetingDetail.tsx:261 | An enabled Confirm button always reaches the server action. |
| MeetingDetail.ActionsShown | src/components/meetings/MeetingDetail.tsx:193 | Shown exactly to the creator of a PENDING meeting. |
| MeetingDetail.IcsLinkShownAsWritten | src/components/meetings/MeetingDetail.tsx:221 | The link as written never renders. |
| MeetingDetail.IcsLinkShown | src/components/meetings/MeetingDetail.tsx:221-230 | The corrected link renders exactly for the creator of a CONFIRMED meeting, which never coincides with the action buttons. |
| MeetingDetail.ConfirmedMeetingOffersIcs | src/components/meetings/MeetingDetail.tsx:193-230 | Right after the creator confirms, the corrected page offers the file and the page as written does not. |
| SettingsForm.CheckPassword | src/components/settings/SettingsForm.tsx:71-84 | Checks run in order: empty fields first, then a new password shorter than 8, then a mismatch. The password is sent exactly when all three pass. |
| SettingsForm.SentPasswordMeetsSignupRules | src/components/settings/SettingsForm.tsx:77-84 | A password the form sends also passes the signup schema's password checks. |
| SettingsForm.SubmitPassword | src/components/settings/SettingsForm.tsx:71-98 | The fields are cleared only when the checks pass and the server accepts. |
| SettingsForm.SecondSubmitStops | src/components/settings/SettingsForm.tsx:85-91 | After a successful change, pressing again stops at the empty-field check. |
| SettingsForm.SaveProfile | src/components/settings/SettingsForm.tsx:54-62 | Rejected exactly when some field is only white space; otherwise the text is sent as typed. |
| SettingsForm.PaddingDoesNotMatter | src/components/settings/SettingsForm.tsx:56 | Surrounding spaces neither rescue an empty field nor reject a filled one. |
| SettingsForm.ShowTimezone | src/components/settings/SettingsForm.tsx:38-40 | "Auto-detected" exactly when the zone in use is the stored one. The city has no `/`. |
| SettingsForm.SavedTimezoneIsAutoDetected | src/components/settings/SettingsForm.tsx:40 | A saved zone shows as auto-detected; any other shows as manually set. |

## Left out

- MeetingActions.Confirm: `new Date(confirmedTime)` on a text that is not a date gives an Invalid Date, and the update then throws and leaves the meeting unchanged. This is not modelled: `toInstant` is total, so such a text is confirmed like any other. The page's only caller sends `toISOString()` output (src/components/meetings/MeetingDetail.tsx:254).
- CreateMeetingRoute.ParseRoute: the request body is taken as already typed (`RouteInput`). A field of the wrong JSON type, such as a numeric title or a duration sent as text, also gets a 422 from the route; that is not modelled.
- Time-zone conversion and formatting are not modelled: `localToUTC`, `utcToLocal`, `formatInTimezone`, `getTimezoneOffset`, `getTimezoneAbbreviation` and the live clock are wrappers over the time-zone database and `Intl`. Offsets and abbreviations are function parameters of the option list.
- The grouping of grid and heatmap slots by local day, and the hour labels (src/components/meetings/AvailabilityGrid.tsx:64-90, src/components/meetings/AvailabilityHeatmap.tsx:88-115), need the time-zone database and are not modelled.
- CreateMeetingRoute.DailySlots: a day is a fixed 86,400,000 ms and an hour 3,600,000 ms. This is what `setDate`/`setHours` do on a server running in UTC; daylight-saving shifts on other servers are not modelled.
- Prisma, transactions, `revalidatePath`, sessions and HTTP responses are not modelled. Each action is one pure transition over the database record; a session is an optional user id.
- Generated ids and guest tokens come from the counter `nextId`; the real generators are not modelled.
- zod's e-mail and date-time formats, and `new Date(text)`, are parameters; their definitions are not modelled.
- String lengths count characters, not UTF-16 code units. Lower- and upper-casing cover ASCII only. Trimming removes ASCII white space plus U+00A0 and U+FEFF; JavaScript's other Unicode spaces are not trimmed.
- CreateMeetingForm.ParseInt: leading signs and white space, which `parseInt` skips, are not modelled; the form only sends menu values.
- The calendar UID and DTSTAMP depend on the clock and a random number; they are parameters. No line folding is done by the source, and none is modelled.
- The meetings `GET` handler (src/app/api/meetings/route.ts:131-148), the calendar download route and the page components only load and pass data, and are not modelled.
- Credentials are not modelled: signup, login, password hashing and the settings server actions. `changePassword`'s verdict is a parameter of SettingsForm.SubmitPassword.
- E-mail sending and reminder delivery are not modelled; a reminder is its count.
- The guest-token key in browser storage is an optional token. An empty stored string is treated as no token, as the truthiness test does.
- Copying the share link, toasts, dialogs' open state, animation and styling are not modelled.
- Grid.AllSlots, Heatmap.Build, DisplayGrid.SlotStarts: the slot size is a parameter. The components default it to 30 minutes (src/components/meetings/AvailabilityGrid.tsx:26, src/components/meetings/AvailabilityHeatmap.tsx:38). A slot size of zero makes the source loop forever, so a positive slot size is required.
- Heatmap.ColorBucket returns a bucket index from 0 to 4 instead of the RGBA colour string.

## Findings

| source | as written | input that shows it | evidently intended | confidence | as-written member | corrected member |
|---|---|---|---|---|---|---|
| src/components/meetings/MeetingDetail.tsx:221 | The "Download .ics" link is rendered only when the status is CONFIRMED, inside the block rendered only when the status is PENDING (line 193), so it never renders. | The creator views a meeting they just confirmed: status "CONFIRMED", creator true. | The creator of a confirmed meeting can download the calendar file. | not executed | MeetingDetail.IcsLinkShownAsWritten | MeetingDetail.IcsLinkShown |

=== FILE: availability_action.dfy ===
/** `submitAvailability`: validate the payload, find the participant by id or
    else by guest token, and in one transaction replace all of the
    participant's availability rows with the submitted ones and mark the
    participant as responded. */
module AvailabilityAction {
  import opened Wrappers
  import opened Seqs
  import opened Tables
  import opened DisplayGrid
  import opened Validators
  import opened Store

  datatype SubmitError = InvalidPayload | ParticipantNotFound

  function HasId(id: nat): Participant -> bool {
    (p: Participant) => p.id == id
  }

  function HasToken(token: nat): Participant -> bool {
    (p: Participant) => p.guestToken == token
  }

  /** The participant lookup: by id when one is given (the token is then
      ignored), otherwise by guest token. With neither, the query has no
      filter at all and yields the first participant of the table. An empty
      id or token text is `None`. */
  function Resolve(db: Db, participantId: Option<nat>, guestToken: Option<nat>): (r: Option<nat>)
    ensures r.Some? ==> r.value < |db.participants|
    ensures r.Some? && participantId.Some? ==> db.participants[r.value].id == participantId.value
    ensures r.Some? && participantId.None? && guestToken.Some? ==>
      db.participants[r.value].guestToken == guestToken.value
    ensures r.None? && participantId.Some? ==>
      forall i :: 0 <= i < |db.participants| ==> db.participants[i].id != participantId.value
    ensures r.None? && participantId.None? && guestToken.Some? ==>
      forall i :: 0 <= i < |db.participants| ==> db.participants[i].guestToken != guestToken.value
    ensures participantId.None? && guestToken.None? ==> (r.Some? <==> |db.participants| > 0)
    ensures participantId.None? && guestToken.None? && r.Some? ==> r.value == 0
  {
    if participantId.Some? then FindFirst(db.participants, HasId(participantId.value))
    else if guestToken.Some? then FindFirst(db.participants, HasToken(guestToken.value))
    else if |db.participants| > 0 then Some(0)
    else None
  }

  /** The rows to insert, numbered from `firstId`: each belongs to the
      participant and carries the participant's user id. */
  function NewRows(p: Participant, rows: seq<AvailabilityInput>, toInstant: string -> Instant, firstId: nat): (r: seq<Availability>)
    ensures |r| == |rows|
    ensures forall k :: 0 <= k < |r| ==>
      r[k] == Availability(firstId + k, p.id, p.userId,
                           toInstant(rows[k].startTime), toInstant(rows[k].endTime), rows[k].isAvailable)
  {
    seq(|rows|, k requires 0 <= k < |rows| =>
      Availability(firstId + k, p.id, p.userId,
                   toInstant(rows[k].startTime), toInstant(rows[k].endTime), rows[k].isAvailable))
  }

  /** The participant after responding. */
  function MarkResponded(tz: string, now: Instant): Participant -> Participant {
    (p: Participant) => p.(status := Responded, timezone := Some(tz), respondedAt := Some(now))
  }

  /** The transaction for the resolved participant `p`: delete its rows,
      insert the new ones, update the participant. */
  function Apply(db: Db, p: Participant, input: SubmitInput, toInstant: string -> Instant, now: Instant): (r: Db)
    ensures r.nextId == db.nextId + |input.availabilities|
    ensures r.users == db.users && r.meetings == db.meetings && r.timeSlots == db.timeSlots
  {
    var added := NewRows(p, input.availabilities, toInstant, db.nextId);
    db.(
      availabilities := Filter(db.availabilities, NotOwnedBy(p.id)) + added,
      participants := Update(db.participants, HasId(p.id), MarkResponded(input.timezone, now)),
      nextId := db.nextId + |added|)
  }

  /** `submitAvailability`. `toInstant` is `new Date(...)` on the validated
      date-time strings and `now` the transaction's clock reading. */
  function Submit(db: Db, participantId: Option<nat>, guestToken: Option<nat>, input: SubmitInput,
                  fmt: Formats, toInstant: string -> Instant, now: Instant): (r: Result<Db, SubmitError>)
    ensures r == Err(InvalidPayload) <==> !SubmitValid(input, fmt)
    ensures r == Err(ParticipantNotFound) <==>
      SubmitValid(input, fmt) && Resolve(db, participantId, guestToken).None?
    ensures r.Ok? ==> Resolve(db, participantId, guestToken).Some?
    ensures r.Ok? ==> r.value == Apply(db, db.participants[Resolve(db, participantId, guestToken).value], input, toInstant, now)
  {
    if !SubmitValid(input, fmt) then Err(InvalidPayload)
    else
      var k := Resolve(db, participantId, guestToken);
      if k.None? then Err(ParticipantNotFound)
      else Ok(Apply(db, db.participants[k.value], input, toInstant, now))
  }
}

=== FILE: availability_properties.dfy ===
/** Properties of `submitAvailability`: replace rather than merge, other
    participants untouched, the response recorded, the key constraints kept,
    and a repeated submission changing nothing but the row ids. */
module AvailabilityProperties {
  import opened Wrappers
  import opened Seqs
  import opened Tables
  import opened DisplayGrid
  import opened Validators
  import opened Store
  import opened AvailabilityAction

  /** After the transaction the participant's rows are exactly the submitted
      ones, in submission order: the old rows are gone, not merged. */
  lemma ApplyReplaces(db: Db, p: Participant, input: SubmitInput, toInstant: string -> Instant, now: Instant)
    ensures RowsOf(Apply(db, p, input, toInstant, now), p.id) ==
      NewRows(p, input.availabilities, toInstant, db.nextId)
  {
    var kept := Filter(db.availabilities, NotOwnedBy(p.id));
    var added := NewRows(p, input.availabilities, toInstant, db.nextId);
    FilterConcat(kept, added, OwnedBy(p.id));
    FilterNone(kept, OwnedBy(p.id));
    FilterAll(added, OwnedBy(p.id));
  }

  /** The rows of every other participant are left as they were. */
  lemma ApplyKeepsOthers(db: Db, p: Participant, input: SubmitInput, toInstant: string -> Instant, now: Instant, q: nat)
    requires q != p.id
    ensures RowsOf(Apply(db, p, input, toInstant, now), q) == RowsOf(db, q)
  {
    var kept := Filter(db.availabilities, NotOwnedBy(p.id));
    var added := NewRows(p, input.availabilities, toInstant, db.nextId);
    FilterConcat(kept, added, OwnedBy(q));
    FilterFilter(db.availabilities, NotOwnedBy(p.id), OwnedBy(q));
    FilterNone(added, OwnedBy(q));
  }

  /** The participant's status becomes RESPONDED with the submitted time zone
      and the response time; every other participant row is unchanged. */
  lemma ApplyMarksResponded(db: Db, p: Participant, input: SubmitInput, toInstant: string -> Instant, now: Instant)
    ensures var ps := Apply(db, p, input, toInstant, now).participants;
      |ps| == |db.participants| &&
      forall i :: 0 <= i < |ps| ==>
        if db.participants[i].id == p.id then
          ps[i] == db.participants[i].(status := Responded, timezone := Some(input.timezone), respondedAt := Some(now))
        else ps[i] == db.participants[i]
  {
  }

  /** The transaction keeps every key constraint of the database. */
  lemma ApplyKeepsValid(db: Db, p: Participant, input: SubmitInput, toInstant: string -> Instant, now: Instant)
    requires Valid(db)
    ensures Valid(Apply(db, p, input, toInstant, now))
  {
    var r := Apply(db, p, input, toInstant, now);
    var kept := Filter(db.availabilities, NotOwnedBy(p.id));
    var added := NewRows(p, input.availabilities, toInstant, db.nextId);
    var sel, f := HasId(p.id), MarkResponded(input.timezone, now);
    UpdateUniqueKeys(db.participants, sel, f, ParticipantKey);
    UpdateUniqueKeys(db.participants, sel, f, TokenKey);
    UpdateUniqueKeys(db.participants, sel, f, MeetingUserKey);
    UpdateUniqueKeys(db.participants, sel, f, MeetingEmailKey);
    FilterUniqueKeys(db.availabilities, NotOwnedBy(p.id), AvailabilityKey);
    assert forall i :: 0 <= i < |kept| ==> kept[i].id < db.nextId by {
      forall i | 0 <= i < |kept| ensures kept[i].id < db.nextId {
        assert kept[i] in db.availabilities;
      }
    }
    AppendUniqueKeys(kept, added, AvailabilityKey);
    assert r.availabilities == kept + added;
    assert AllBelow(r) by {
      forall i | 0 <= i < |r.availabilities| ensures r.availabilities[i].id < r.nextId {
        if i < |kept| {
          assert r.availabilities[i] == kept[i];
        } else {
          assert r.availabilities[i] == added[i - |kept|];
        }
      }
    }
  }

  /** `Submit` keeps every key constraint of the database. */
  lemma SubmitKeepsValid(db: Db, participantId: Option<nat>, guestToken: Option<nat>, input: SubmitInput,
                         fmt: Formats, toInstant: string -> Instant, now: Instant)
    requires Valid(db)
    ensures var r := Submit(db, participantId, guestToken, input, fmt, toInstant, now);
      r.Ok? ==> Valid(r.value)
  {
    var k := Resolve(db, participantId, guestToken);
    if SubmitValid(input, fmt) && k.Some? {
      ApplyKeepsValid(db, db.participants[k.value], input, toInstant, now);
    }
  }

  /** A call with neither an id nor a token still succeeds on a valid
      payload whenever the table has a participant, and it answers for the
      first participant of the table. */
  lemma UnfilteredSubmitAnswersForFirst(db: Db, input: SubmitInput, fmt: Formats,
                                        toInstant: string -> Instant, now: Instant)
    requires SubmitValid(input, fmt) && |db.participants| > 0
    ensures var r := Submit(db, None, None, input, fmt, toInstant, now);
      && r.Ok?
      && RowsOf(r.value, db.participants[0].id) ==
           NewRows(db.participants[0], input.availabilities, toInstant, db.nextId)
      && r.value.participants[0].status == Responded
  {
    var p := db.participants[0];
    ApplyReplaces(db, p, input, toInstant, now);
    ApplyMarksResponded(db, p, input, toInstant, now);
  }

  /** A row without its generated id. */
  function Content(a: Availability): Availability {
    a.(id := 0)
  }

  function Contents(rows: seq<Availability>): (r: seq<Availability>)
    ensures |r| == |rows| && forall i :: 0 <= i < |rows| ==> r[i] == Content(rows[i])
  {
    seq(|rows|, i requires 0 <= i < |rows| => Content(rows[i]))
  }

  /** The transaction changes no id and no token, so the lookup finds the
      same row afterwards. */
  lemma ApplyKeepsResolve(db: Db, p: Participant, input: SubmitInput, toInstant: string -> Instant, now: Instant,
                          participantId: Option<nat>, guestToken: Option<nat>)
    ensures Resolve(Apply(db, p, input, toInstant, now), participantId, guestToken) ==
      Resolve(db, participantId, guestToken)
  {
    var after := Apply(db, p, input, toInstant, now);
    ApplyMarksResponded(db, p, input, toInstant, now);
    if participantId.Some? {
      FindFirstAgree(db.participants, HasId(participantId.value), after.participants, HasId(participantId.value));
    } else if guestToken.Some? {
      FindFirstAgree(db.participants, HasToken(guestToken.value), after.participants, HasToken(guestToken.value));
    }
  }

  /** Marking a participant responded a second time, with the same time zone
      and time, leaves the participant table as it is. */
  lemma ApplyAgainKeepsParticipants(db: Db, p: Participant, input: SubmitInput, toInstant: string -> Instant, now: Instant)
    ensures var once := Apply(db, p, input, toInstant, now);
      forall p1: Participant :: p1.id == p.id ==> Apply(once, p1, input, toInstant, now).participants == once.participants
  {
    var once := Apply(db, p, input, toInstant, now);
    ApplyMarksResponded(db, p, input, toInstant, now);
    forall p1: Participant | p1.id == p.id
      ensures Apply(once, p1, input, toInstant, now).participants == once.participants
    {
      ApplyMarksResponded(once, p1, input, toInstant, now);
    }
  }

  /** Resubmitting the same payload for the same participant, at a later
      clock reading, finds the same participant. In the participant table
      only that participant's response time moves to the new reading, so at
      the same reading the table is as the first submission left it. The
      participant's rows differ from the first submission's only in their
      generated ids, and all other participants' rows stay as they were. */
  lemma SubmitTwiceIsSubmitOnce(db: Db, participantId: Option<nat>, guestToken: Option<nat>, input: SubmitInput,
                                fmt: Formats, toInstant: string -> Instant, now1: Instant, now2: Instant)
    requires Submit(db, participantId, guestToken, input, fmt, toInstant, now1).Ok?
    ensures var once := Submit(db, participantId, guestToken, input, fmt, toInstant, now1).value;
      var twice := Submit(once, participantId, guestToken, input, fmt, toInstant, now2);
      var pid := db.participants[Resolve(db, participantId, guestToken).value].id;
      && twice.Ok?
      && |twice.value.participants| == |once.participants|
      && (forall i :: 0 <= i < |once.participants| ==>
            twice.value.participants[i] ==
              if once.participants[i].id == pid then once.participants[i].(respondedAt := Some(now2))
              else once.participants[i])
      && (now1 == now2 ==> twice.value.participants == once.participants)
      && Contents(RowsOf(twice.value, pid)) == Contents(RowsOf(once, pid))
      && (forall q :: q != pid ==> RowsOf(twice.value, q) == RowsOf(once, q))
  {
    var k := Resolve(db, participantId, guestToken).value;
    var p := db.participants[k];
    var once := Apply(db, p, input, toInstant, now1);
    ApplyKeepsResolve(db, p, input, toInstant, now1, participantId, guestToken);
    ReapplyParticipants(db, k, input, toInstant, now1, now2);
    ReapplyRows(db, k, input, toInstant, now1, now2);
  }

  /** The second transaction, on the row the first one left, moves only
      that participant's response time. */
  lemma ReapplyParticipants(db: Db, k: nat, input: SubmitInput, toInstant: string -> Instant,
                            now1: Instant, now2: Instant)
    requires k < |db.participants|
    ensures var p := db.participants[k];
      var once := Apply(db, p, input, toInstant, now1);
      var twice := Apply(once, once.participants[k], input, toInstant, now2);
      && |twice.participants| == |once.participants|
      && once.participants[k].id == p.id
      && (forall i :: 0 <= i < |once.participants| ==>
            twice.participants[i] ==
              if once.participants[i].id == p.id then once.participants[i].(respondedAt := Some(now2))
              else once.participants[i])
      && (now1 == now2 ==> twice.participants == once.participants)
  {
    var p := db.participants[k];
    var once := Apply(db, p, input, toInstant, now1);
    ApplyMarksResponded(db, p, input, toInstant, now1);
    var p1 := once.participants[k];
    ApplyMarksResponded(once, p1, input, toInstant, now2);
    if now1 == now2 {
      ApplyAgainKeepsParticipants(db, p, input, toInstant, now1);
    }
  }

  /** The second transaction, on the row the first one left, gives that
      participant the same row contents and leaves everyone else's rows. */
  lemma ReapplyRows(db: Db, k: nat, input: SubmitInput, toInstant: string -> Instant,
                    now1: Instant, now2: Instant)
    requires k < |db.participants|
    ensures var p := db.participants[k];
      var once := Apply(db, p, input, toInstant, now1);
      var twice := Apply(once, once.participants[k], input, toInstant, now2);
      && Contents(RowsOf(twice, p.id)) == Contents(RowsOf(once, p.id))
      && (forall q :: q != p.id ==> RowsOf(twice, q) == RowsOf(once, q))
  {
    var p := db.participants[k];
    var once := Apply(db, p, input, toInstant, now1);
    ApplyMarksResponded(db, p, input, toInstant, now1);
    var p1 := once.participants[k];
    assert p1.id == p.id && p1.userId == p.userId;
    var twice := Apply(once, p1, input, toInstant, now2);
    ApplyReplaces(db, p, input, toInstant, now1);
    ApplyReplaces(once, p1, input, toInstant, now2);
    forall q | q != p.id ensures RowsOf(twice, q) == RowsOf(once, q) {
      ApplyKeepsOthers(once, p1, input, toInstant, now2, q);
    }
  }
}

=== FILE: create_meeting_form.dfy ===
/** The three-step "new meeting" form: step navigation, the invitee list
    editor, the button gating, and the request body it posts to the meeting
    route. */
module CreateMeetingForm {
  import opened Wrappers
  import opened Seqs
  import opened Strings
  import opened Validators
  import opened Store
  import opened CreateMeetingRoute

  // ---------------------------------------------------------------------
  // Steps

  /** `goNext`: one step forward, but never past step 3. */
  function GoNext(step: int): (r: int)
    ensures 1 <= step <= 3 ==> 1 <= r <= 3
    ensures step < 3 ==> r == step + 1
    ensures step >= 3 ==> r == 3
  {
    if step + 1 < 3 then step + 1 else 3
  }

  /** `goBack`: one step back, but never before step 1. */
  function GoBack(step: int): (r: int)
    ensures 1 <= step <= 3 ==> 1 <= r <= 3
    ensures step > 1 ==> r == step - 1
    ensures step <= 1 ==> r == 1
  {
    if step - 1 > 1 then step - 1 else 1
  }

  /** Back undoes Next wherever Next moved, and Next undoes Back wherever
      Back moved. */
  lemma NavigationInverse(step: int)
    requires 1 <= step <= 3
    ensures step < 3 ==> GoBack(GoNext(step)) == step
    ensures step > 1 ==> GoNext(GoBack(step)) == step
  {
  }

  // ---------------------------------------------------------------------
  // Invitees

  /** The invitee editor: the list so far and the text box. */
  datatype InviteeEditor = InviteeEditor(invitees: seq<string>, emailInput: string)

  /** The text box, trimmed and lowercased. */
  function Normalize(s: string): (r: string)
    ensures Trim(r) == r && Lower(r) == r
  {
    var t := Trim(s);
    TrimmedAlready(t);
    LowerOfTrimmed(t);
    Lower(t)
  }

  /** What every listed invitee looks like: trimmed, lowercase, with an `@`. */
  predicate CleanEmail(e: string) {
    Trim(e) == e && Lower(e) == e && '@' in e
  }

  /** The list invariant: clean entries, none twice. */
  predicate WellFormed(invitees: seq<string>) {
    Distinct(invitees) && forall k :: 0 <= k < |invitees| ==> CleanEmail(invitees[k])
  }

  /** `addInvitee`. Empty or `@`-less text changes nothing; an e-mail already
      listed only clears the box; anything else is appended and the box is
      cleared. */
  function AddInvitee(ed: InviteeEditor): (r: InviteeEditor)
    ensures var e := Normalize(ed.emailInput);
      && (e == "" || '@' !in e ==> r == ed)
      && (e != "" && '@' in e && e in ed.invitees ==> r == ed.(emailInput := ""))
      && (e != "" && '@' in e && e !in ed.invitees ==> r.invitees == ed.invitees + [e] && r.emailInput == "")
  {
    var e := Normalize(ed.emailInput);
    if e == "" || '@' !in e then ed
    else if e in ed.invitees then ed.(emailInput := "")
    else InviteeEditor(ed.invitees + [e], "")
  }

  /** `removeInvitee`: drop that e-mail, keep the others in order. */
  function RemoveInvitee(ed: InviteeEditor, email: string): (r: InviteeEditor)
    ensures email !in r.invitees
    ensures forall x :: x in r.invitees <==> x in ed.invitees && x != email
    ensures IsSubseq(r.invitees, ed.invitees)
    ensures r.emailInput == ed.emailInput
  {
    ed.(invitees := Filter(ed.invitees, Other(email)))
  }

  function Other(email: string): string -> bool {
    e => e != email
  }

  lemma AddInviteeKeepsWellFormed(ed: InviteeEditor)
    requires WellFormed(ed.invitees)
    ensures WellFormed(AddInvitee(ed).invitees)
  {
    var r := AddInvitee(ed);
    var e := Normalize(ed.emailInput);
    if e != "" && '@' in e && e !in ed.invitees {
      assert r.invitees == ed.invitees + [e];
      forall i, j | 0 <= i < j < |r.invitees| ensures r.invitees[i] != r.invitees[j] {
        if j == |ed.invitees| {
          assert r.invitees[i] in ed.invitees;
        }
      }
    }
  }

  lemma RemoveInviteeKeepsWellFormed(ed: InviteeEditor, email: string)
    requires WellFormed(ed.invitees)
    ensures WellFormed(RemoveInvitee(ed, email).invitees)
  {
    var r := RemoveInvitee(ed, email).invitees;
    FilterDistinct(ed.invitees, Other(email));
    forall k | 0 <= k < |r| ensures CleanEmail(r[k]) {
      assert r[k] in ed.invitees;
    }
  }

  /** Removing an e-mail just added restores the list. */
  lemma RemoveUndoesAdd(ed: InviteeEditor)
    requires WellFormed(ed.invitees)
    requires var e := Normalize(ed.emailInput); e != "" && '@' in e && e !in ed.invitees
    ensures RemoveInvitee(AddInvitee(ed), Normalize(ed.emailInput)).invitees == ed.invitees
  {
    var e := Normalize(ed.emailInput);
    FilterConcat(ed.invitees, [e], Other(e));
    FilterAll(ed.invitees, Other(e));
    assert Filter([e], Other(e)) == [];
  }

  // ---------------------------------------------------------------------
  // Buttons

  /** Back is disabled on the first step. */
  function BackDisabled(step: int): (r: bool)
    ensures 1 <= step ==> (r <==> GoBack(step) == step)
  {
    step == 1
  }

  /** Next (steps 1 and 2) is disabled on step 1 while the title is blank. */
  function NextDisabled(step: int, title: string): (r: bool)
    ensures r <==> step == 1 && forall i :: 0 <= i < |title| ==> IsSpace(title[i])
  {
    step == 1 && Trim(title) == ""
  }

  /** Create (step 3) is disabled while submitting or while the title is
      blank. */
  function CreateDisabled(submitting: bool, title: string): (r: bool)
    ensures r <==> submitting || forall i :: 0 <= i < |title| ==> IsSpace(title[i])
  {
    submitting || Trim(title) == ""
  }

  /** An enabled Create button means a title the route's schema accepts at
      its lower bound. */
  lemma CreateEnabledHasTitle(submitting: bool, title: string)
    requires !CreateDisabled(submitting, title)
    ensures |title| >= 1 && exists i :: 0 <= i < |title| && !IsSpace(title[i])
  {
  }

  // ---------------------------------------------------------------------
  // The request body

  /** The form's fields; `duration` is the text of the chosen option. */
  datatype FormData = FormData(
    title: string,
    description: string,
    location: string,
    duration: string,
    meetingType: MeetingType,
    fixedDate: string,
    fixedTime: string,
    pollStartDate: string,
    pollEndDate: string,
    invitees: seq<string>,
    openLink: bool)

  /** The values of the duration menu. */
  const DurationOptions: seq<string> := ["15", "30", "45", "60", "90", "120"]

  /** The longest prefix of decimal digits. */
  function LeadingDigits(s: string): (r: string)
    ensures AllDigits(r) && r <= s
    ensures |r| < |s| ==> !IsDigit(s[|r|])
    decreases |s|
  {
    if |s| > 0 && IsDigit(s[0]) then [s[0]] + LeadingDigits(s[1..]) else ""
  }

  /** `parseInt(s, 10)` on text without leading sign or white space: the
      value of the leading digits, or `None` for NaN, which `JSON.stringify`
      sends as `null`. */
  function ParseInt(s: string): (r: Option<nat>)
    ensures r.None? <==> |s| == 0 || !IsDigit(s[0])
    ensures AllDigits(s) && |s| > 0 ==> r == Some(ParseDigits(s))
  {
    var d := LeadingDigits(s);
    if |d| == 0 then None
    else
      assert AllDigits(s) ==> d == s;
      Some(ParseDigits(d))
  }

  /** `x || undefined` on a text field: absent when empty. */
  function OrUndefined(s: string): (r: Option<string>)
    ensures r.None? <==> s == ""
    ensures r.Some? ==> r.value == s
  {
    if s == "" then None else Some(s)
  }

  function TypeName(t: MeetingType): string {
    if t == Fixed then "FIXED" else "POLL"
  }

  /** The body `handleSubmit` posts, as the route receives it. `toIso` is
      `new Date(...).toISOString()` in the browser's time zone. The proposed
      time goes only with a FIXED meeting that has both a date and a time;
      each range end only with a POLL meeting, and only when filled in. */
  function RequestBody(fd: FormData, toIso: string -> string): (r: RouteInput)
    ensures r.title == fd.title && r.kind == Some(TypeName(fd.meetingType))
    ensures r.duration.None? <==> ParseInt(fd.duration).None?
    ensures r.duration.Some? ==> r.duration.value == ParseInt(fd.duration).value as real
    ensures r.description == OrUndefined(fd.description) && r.location == OrUndefined(fd.location)
    ensures r.invitees == Some(fd.invitees) && r.openLink == Some(fd.openLink)
    ensures r.proposedTime.Some? <==> fd.meetingType == Fixed && fd.fixedDate != "" && fd.fixedTime != ""
    ensures r.proposedTime.Some? ==> r.proposedTime.value == toIso(fd.fixedDate + "T" + fd.fixedTime)
    ensures r.dateRangeStart.Some? <==> fd.meetingType == Poll && fd.pollStartDate != ""
    ensures r.dateRangeStart.Some? ==> r.dateRangeStart.value == toIso(fd.pollStartDate)
    ensures r.dateRangeEnd.Some? <==> fd.meetingType == Poll && fd.pollEndDate != ""
    ensures r.dateRangeEnd.Some? ==> r.dateRangeEnd.value == toIso(fd.pollEndDate)
  {
    var duration := ParseInt(fd.duration);
    var fixed := fd.meetingType == Fixed && fd.fixedDate != "" && fd.fixedTime != "";
    var poll := fd.meetingType == Poll;
    RouteInput(
      fd.title, OrUndefined(fd.description), OrUndefined(fd.location),
      if duration.Some? then Some(duration.value as real) else None,
      Some(TypeName(fd.meetingType)),
      if fixed then Some(toIso(fd.fixedDate + "T" + fd.fixedTime)) else None,
      if poll && fd.pollStartDate != "" then Some(toIso(fd.pollStartDate)) else None,
      if poll && fd.pollEndDate != "" then Some(toIso(fd.pollEndDate)) else None,
      Some(fd.invitees), Some(fd.openLink))
  }

  lemma DigitsValue(d: string, v: nat)
    requires |d| > 0 && AllDigits(d) && ParseDigits(d) == v
    ensures ParseInt(d) == Some(v)
  {
  }

  lemma DurationOptionsParse(d: string)
    requires d in DurationOptions
    ensures ParseInt(d).Some? && 15 <= ParseInt(d).value <= 120
  {
    assert ParseDigits("1") == 1 && ParseDigits("3") == 3 && ParseDigits("4") == 4;
    assert ParseDigits("6") == 6 && ParseDigits("9") == 9 && ParseDigits("12") == 12;
    if d == "15" { DigitsValue(d, 15); }
    else if d == "30" { DigitsValue(d, 30); }
    else if d == "45" { DigitsValue(d, 45); }
    else if d == "60" { DigitsValue(d, 60); }
    else if d == "90" { DigitsValue(d, 90); }
    else { assert d == "120"; DigitsValue(d, 120); }
  }

  /** A menu duration is sent as a whole number of minutes the route
      accepts. */
  lemma BodyDurationOk(fd: FormData, toIso: string -> string)
    requires fd.duration in DurationOptions
    ensures var b := RequestBody(fd, toIso);
      b.duration.Some? && IsWhole(b.duration.value) && 5.0 <= b.duration.value <= 480.0
  {
    DurationOptionsParse(fd.duration);
    var v := ParseInt(fd.duration).value;
    assert RequestBody(fd, toIso).duration == Some(v as real);
    assert IsWhole(v as real);
  }

  /** The type, the time fields and the invitees pass their checks. */
  lemma BodyOptionalsOk(fd: FormData, toIso: string -> string, fmt: Formats)
    requires forall k :: 0 <= k < |fd.invitees| ==> fmt.isEmail(fd.invitees[k])
    requires forall s :: fmt.isDateTime(toIso(s))
    ensures var b := RequestBody(fd, toIso);
      && OptionalOk(b.kind, IsMeetingType)
      && OptionalOk(b.proposedTime, fmt.isDateTime)
      && OptionalOk(b.dateRangeStart, fmt.isDateTime)
      && OptionalOk(b.dateRangeEnd, fmt.isDateTime)
      && b.invitees.Some? && forall k :: 0 <= k < |b.invitees.value| ==> fmt.isEmail(b.invitees.value[k])
  {
    assert IsMeetingType(TypeName(fd.meetingType));
  }

  /** The body of a form with Create enabled and fields within the route's
      limits passes the route's schema. */
  lemma FormBodyValid(fd: FormData, toIso: string -> string, fmt: Formats, submitting: bool)
    requires !CreateDisabled(submitting, fd.title) && |fd.title| <= 200
    requires fd.duration in DurationOptions
    requires |fd.description| <= 2000 && |fd.location| <= 500
    requires forall k :: 0 <= k < |fd.invitees| ==> fmt.isEmail(fd.invitees[k])
    requires forall s :: fmt.isDateTime(toIso(s))
    ensures RouteValid(RequestBody(fd, toIso), fmt)
  {
    CreateEnabledHasTitle(submitting, fd.title);
    BodyDurationOk(fd, toIso);
    BodyOptionalsOk(fd, toIso, fmt);
  }

  /** What the form sends, the route accepts: with Create enabled, a title
      of at most 200 characters, a menu duration, texts within the route's
      limits, invitees the e-mail check accepts and ISO texts the date-time
      check accepts, the route parses the body into the same meeting type,
      invitees and time fields. */
  lemma FormBodyAccepted(fd: FormData, toIso: string -> string, fmt: Formats, submitting: bool)
    requires !CreateDisabled(submitting, fd.title) && |fd.title| <= 200
    requires fd.duration in DurationOptions
    requires |fd.description| <= 2000 && |fd.location| <= 500
    requires forall k :: 0 <= k < |fd.invitees| ==> fmt.isEmail(fd.invitees[k])
    requires forall s :: fmt.isDateTime(toIso(s))
    ensures var d := ParseRoute(RequestBody(fd, toIso), fmt);
      && d.Some?
      && d.value.kind == fd.meetingType
      && d.value.invitees == fd.invitees
      && d.value.openLink == fd.openLink
      && (d.value.proposedTime.Some? ==> fd.meetingType == Fixed)
      && (d.value.dateRangeStart.Some? || d.value.dateRangeEnd.Some? ==> fd.meetingType == Poll)
  {
    FormBodyValid(fd, toIso, fmt, submitting);
  }
}

=== FILE: create_meeting_route.dfy ===
/** `POST /api/meetings`: check the session, parse and validate the body, then
    in one transaction create the meeting, one time slot per day of a poll's
    date range, the organizer's own participant row, and one participant per
    invitee e-mail (an existing user by user id, anyone else as a guest by
    e-mail), never two for the same identity. */
module CreateMeetingRoute {
  import opened Wrappers
  import opened Seqs
  import opened Tables
  import opened DisplayGrid
  import opened Validators
  import opened Store

  const MsPerHour: nat := 3_600_000
  const MsPerDay: nat := 86_400_000

  /** The route's own request schema, on a body that parsed as JSON.
      `duration` is a JSON number, or `None` when it is `null` or missing;
      `kind`, `invitees` and `openLink` are absent when not sent. */
  datatype RouteInput = RouteInput(
    title: string,
    description: Option<string>,
    location: Option<string>,
    duration: Option<real>,
    kind: Option<string>,
    proposedTime: Option<string>,
    dateRangeStart: Option<string>,
    dateRangeEnd: Option<string>,
    invitees: Option<seq<string>>,
    openLink: Option<bool>)

  /** The parsed body with the defaults filled in. */
  datatype RouteData = RouteData(
    title: string,
    description: Option<string>,
    location: Option<string>,
    duration: nat,
    kind: MeetingType,
    proposedTime: Option<string>,
    dateRangeStart: Option<string>,
    dateRangeEnd: Option<string>,
    invitees: seq<string>,
    openLink: bool)

  predicate IsWhole(x: real) {
    x.Floor as real == x
  }

  /** A whole number of minutes from 5 to 480, an optional type that must be
      FIXED or POLL when present, and e-mail invitees. */
  predicate RouteValid(i: RouteInput, fmt: Formats) {
    && LengthIn(i.title, 1, 200)
    && OptionalOk(i.description, s => |s| <= 2000)
    && OptionalOk(i.location, s => |s| <= 500)
    && i.duration.Some? && IsWhole(i.duration.value) && 5.0 <= i.duration.value <= 480.0
    && OptionalOk(i.kind, IsMeetingType)
    && OptionalOk(i.proposedTime, fmt.isDateTime)
    && OptionalOk(i.dateRangeStart, fmt.isDateTime)
    && OptionalOk(i.dateRangeEnd, fmt.isDateTime)
    && (i.invitees.None? || forall k :: 0 <= k < |i.invitees.value| ==> fmt.isEmail(i.invitees.value[k]))
  }

  /** `safeParse` success: the type defaults to POLL, the invitees to none and
      the open-link flag to true; everything else is passed through. */
  function ParseRoute(i: RouteInput, fmt: Formats): (r: Option<RouteData>)
    ensures r.Some? <==> RouteValid(i, fmt)
    ensures r.Some? ==> 5 <= r.value.duration <= 480 && r.value.duration as real == i.duration.value
    ensures r.Some? ==> (r.value.kind == Fixed <==> i.kind == Some("FIXED"))
    ensures r.Some? ==> r.value.invitees == i.invitees.GetOr([]) && r.value.openLink == i.openLink.GetOr(true)
    ensures r.Some? ==> r.value.title == i.title && r.value.dateRangeStart == i.dateRangeStart &&
                        r.value.dateRangeEnd == i.dateRangeEnd && r.value.proposedTime == i.proposedTime
  {
    if !RouteValid(i, fmt) then None
    else
      Some(RouteData(i.title, i.description, i.location, i.duration.value.Floor,
                     if i.kind == Some("FIXED") then Fixed else Poll,
                     i.proposedTime, i.dateRangeStart, i.dateRangeEnd,
                     i.invitees.GetOr([]), i.openLink.GetOr(true)))
  }

  /** The persisted poll slots: starting at `current`, one per day while the
      start is not after `end`, each `hours` hours long. The server's clock
      is taken to be UTC, so a day is always 24 hours. */
  function DailySlots(current: Instant, end: Instant, hours: nat): (r: seq<(Instant, Instant)>)
    ensures |r| == if current <= end then (end - current) / MsPerDay + 1 else 0
    ensures forall k :: 0 <= k < |r| ==>
      r[k] == (current + k * MsPerDay, current + k * MsPerDay + hours * MsPerHour)
    decreases end - current + MsPerDay
  {
    if current > end then []
    else
      var rest := DailySlots(current + MsPerDay, end, hours);
      if end - current >= MsPerDay then
        DivUnique(end - current, MsPerDay, (end - current - MsPerDay) / MsPerDay + 1, (end - current - MsPerDay) % MsPerDay);
        [(current, current + hours * MsPerHour)] + rest
      else
        DivUnique(end - current, MsPerDay, 0, end - current);
        [(current, current + hours * MsPerHour)] + rest
  }

  /** `timeSlot.createMany`: the slots get consecutive fresh ids. */
  function AddSlots(db: Db, meetingId: nat, times: seq<(Instant, Instant)>): (r: Db)
    ensures |r.timeSlots| == |db.timeSlots| + |times|
    ensures r.timeSlots[..|db.timeSlots|] == db.timeSlots
    ensures forall k :: 0 <= k < |times| ==>
      r.timeSlots[|db.timeSlots| + k] == TimeSlot(db.nextId + k, meetingId, times[k].0, times[k].1)
    ensures r.(timeSlots := db.timeSlots, nextId := db.nextId) == db
    ensures r.nextId == db.nextId + |times|
  {
    var added := seq(|times|, k requires 0 <= k < |times| => TimeSlot(db.nextId + k, meetingId, times[k].0, times[k].1));
    db.(timeSlots := db.timeSlots + added, nextId := db.nextId + |times|)
  }

  /** The participant row of `meetingId` an invitee e-mail is looked up by:
      the user's row when a user has that e-mail, else the guest row with
      that e-mail. */
  predicate InvitedAs(p: Participant, meetingId: nat, email: string, user: Option<User>) {
    if user.Some? then HasUserIn(meetingId, user.value.id)(p) else HasGuestEmail(meetingId, email)(p)
  }

  predicate Represented(db: Db, meetingId: nat, email: string) {
    exists i :: 0 <= i < |db.participants| && InvitedAs(db.participants[i], meetingId, email, FindUserByEmail(db, email))
  }

  /** Nothing but the participant table and the id counter changes, and the
      participant table only grows at the end. */
  predicate OnlyAppendsParticipants(db: Db, r: Db) {
    && r.(participants := db.participants, nextId := db.nextId) == db
    && |db.participants| <= |r.participants|
    && r.participants[..|db.participants|] == db.participants
    && r.nextId >= db.nextId
  }

  /** One invitee: an upsert with an empty update, so an existing row is left
      as it is (status included) and a missing one is created PENDING. */
  function AddInvitee(db: Db, meetingId: nat, email: string): (r: Db)
    ensures OnlyAppendsParticipants(db, r)
    ensures forall i :: |db.participants| <= i < |r.participants| ==>
      r.participants[i].meetingId == meetingId && r.participants[i].status == Pending
    ensures Represented(r, meetingId, email)
    ensures Represented(db, meetingId, email) ==> r == db
  {
    var u := FindUserByEmail(db, email);
    var found :=
      if u.Some? then FindFirst(db.participants, HasUserIn(meetingId, u.value.id))
      else FindFirst(db.participants, HasGuestEmail(meetingId, email));
    if found.Some? then db
    else
      var r := if u.Some? then Enrol(db, meetingId, Some(u.value.id), None, None, false, Pending, None)
               else Enrol(db, meetingId, None, None, Some(email), true, Pending, None);
      assert FindUserByEmail(r, email) == u;
      assert InvitedAs(r.participants[|db.participants|], meetingId, email, u);
      r
  }

  /** The invitee loop, in the order the e-mails were given. */
  function AddInvitees(db: Db, meetingId: nat, emails: seq<string>): (r: Db)
    ensures OnlyAppendsParticipants(db, r)
    ensures forall i :: |db.participants| <= i < |r.participants| ==>
      r.participants[i].meetingId == meetingId && r.participants[i].status == Pending
    ensures forall k :: 0 <= k < |emails| ==> Represented(r, meetingId, emails[k])
    decreases |emails|
  {
    if |emails| == 0 then db
    else
      var next := AddInvitee(db, meetingId, emails[0]);
      var r := AddInvitees(next, meetingId, emails[1..]);
      assert Represented(r, meetingId, emails[0]) by {
        var i :| 0 <= i < |next.participants| &&
          InvitedAs(next.participants[i], meetingId, emails[0], FindUserByEmail(next, emails[0]));
        assert r.participants[i] == next.participants[i];
        assert FindUserByEmail(r, emails[0]) == FindUserByEmail(next, emails[0]);
      }
      assert forall k :: 1 <= k < |emails| ==> emails[k] == emails[1..][k - 1];
      r
  }

  /** The new meeting row: PENDING, not confirmed, owned by `creatorId`,
      with the next fresh id. */
  function NewMeeting(db: Db, creatorId: nat, d: RouteData, toInstant: string -> Instant): Meeting {
    Meeting(db.nextId, d.title, d.description, d.location, d.duration, d.kind, MeetingPending,
            if d.proposedTime.Some? then Some(toInstant(d.proposedTime.value)) else None,
            if d.dateRangeStart.Some? then Some(toInstant(d.dateRangeStart.value)) else None,
            if d.dateRangeEnd.Some? then Some(toInstant(d.dateRangeEnd.value)) else None,
            None, creatorId)
  }

  /** The slots to persist: daily ones for a poll with both range ends, none
      otherwise. Each lasts the duration rounded up to whole hours. */
  function PollSlots(d: RouteData, toInstant: string -> Instant): seq<(Instant, Instant)> {
    if d.kind == Poll && d.dateRangeStart.Some? && d.dateRangeEnd.Some? then
      DailySlots(toInstant(d.dateRangeStart.value), toInstant(d.dateRangeEnd.value), CeilDiv(d.duration, 60))
    else []
  }

  /** The transaction up to the invitee loop: meeting, slots, and the
      organizer's participant row, already RESPONDED. */
  function Prepared(db: Db, creatorId: nat, d: RouteData, toInstant: string -> Instant): Db {
    Enrol(WithSlots(db, creatorId, d, toInstant), db.nextId, Some(creatorId), None, None, false, Responded, None)
  }

  /** The meeting row under the next id, then its slots. */
  function WithSlots(db: Db, creatorId: nat, d: RouteData, toInstant: string -> Instant): Db {
    var meetingId := db.nextId;
    var withMeeting := db.(meetings := db.meetings + [NewMeeting(db, creatorId, d, toInstant)], nextId := meetingId + 1);
    AddSlots(withMeeting, meetingId, PollSlots(d, toInstant))
  }

  /** The whole transaction, for the signed-in `creatorId`. */
  function CreateMeeting(db: Db, creatorId: nat, d: RouteData, toInstant: string -> Instant): (r: Db)
    ensures r.users == db.users && r.availabilities == db.availabilities
    ensures r.meetings == db.meetings + [NewMeeting(db, creatorId, d, toInstant)]
    ensures r.nextId >= db.nextId + 1
  {
    AddInvitees(Prepared(db, creatorId, d, toInstant), db.nextId, d.invitees)
  }

  datatype PostReply =
    | Unauthorized401
    | InvalidJson400
    | ValidationFailed422
    | Created201(db: Db, meetingId: nat)

  /** `POST`: `session` is the signed-in user's id, `body` the JSON body or
      `None` when it did not parse. */
  function Post(db: Db, session: Option<nat>, body: Option<RouteInput>, fmt: Formats,
                toInstant: string -> Instant): (r: PostReply)
    ensures r == Unauthorized401 <==> session.None?
    ensures r == InvalidJson400 <==> session.Some? && body.None?
    ensures r == ValidationFailed422 <==> session.Some? && body.Some? && !RouteValid(body.value, fmt)
    ensures r.Created201? ==> r.meetingId == db.nextId
    ensures r.Created201? ==>
      && session.Some? && body.Some? && ParseRoute(body.value, fmt).Some?
      && r.db == CreateMeeting(db, session.value, ParseRoute(body.value, fmt).value, toInstant)
    ensures r.Created201? && AllBelow(db) ==> r.meetingId !in MeetingIds(db)
  {
    if session.None? then Unauthorized401
    else if body.None? then InvalidJson400
    else
      var d := ParseRoute(body.value, fmt);
      if d.None? then ValidationFailed422
      else Created201(CreateMeeting(db, session.value, d.value, toInstant), db.nextId)
  }

  /** The ids of the meetings in the table. */
  function MeetingIds(db: Db): set<nat> {
    set i | 0 <= i < |db.meetings| :: db.meetings[i].id
  }
}

=== FILE: display_grid.dfy ===
/** The dense display grid shared by the availability heatmap and the
    availability selection grid: the range `[start, end)` cut into slots of a
    fixed number of minutes, recomputed on every read. */
module DisplayGrid {

  /** An instant: milliseconds since the Unix epoch (`Date.getTime()`). */
  type Instant = int

  const MsPerMinute: nat := 60000

  /** An availability row as the display components receive it: the interval
      `[start, end)` and whether the participant marked it available. */
  datatype Row = Row(start: Instant, end: Instant, isAvailable: bool)

  /** Ceiling of `a / b`. */
  function CeilDiv(a: nat, b: nat): nat
    requires b > 0
  {
    (a + b - 1) / b
  }

  lemma {:induction false} MulAtLeast(k: nat, b: nat)
    requires k >= 1
    ensures k * b >= b
    decreases k
  {
    if k > 1 {
      MulAtLeast(k - 1, b);
      assert k * b == (k - 1) * b + b;
    }
  }

  /** Euclidean division is determined by quotient and remainder. */
  lemma DivUnique(a: int, b: int, q: int, r: int)
    requires b > 0 && 0 <= r < b && a == q * b + r
    ensures a / b == q
  {
    var q', r' := a / b, a % b;
    assert a == q' * b + r';
    if q' > q {
      MulAtLeast(q' - q, b);
    } else if q' < q {
      MulAtLeast(q - q', b);
    }
  }

  lemma CeilDivStep(d: nat, step: nat)
    requires step > 0 && d > step
    ensures CeilDiv(d, step) == 1 + CeilDiv(d - step, step)
  {
    var x := d - step + step - 1;
    var q, r := x / step, x % step;
    DivUnique(x + step, step, q + 1, r);
    assert d + step - 1 == x + step;
  }

  lemma CeilDivOne(d: nat, step: nat)
    requires 0 < d <= step
    ensures CeilDiv(d, step) == 1
  {
  }

  /** One more slot in front of slots that start a step later. */
  lemma PrependSlot(start: Instant, step: nat, rest: seq<Instant>)
    requires forall i :: 0 <= i < |rest| ==> rest[i] == start + step + i * step
    ensures forall i :: 0 <= i < 1 + |rest| ==> ([start] + rest)[i] == start + i * step
    ensures start + step + |rest| * step == start + (1 + |rest|) * step
  {
    forall i | 0 <= i < 1 + |rest| ensures ([start] + rest)[i] == start + i * step {
      if i > 0 {
        assert ([start] + rest)[i] == rest[i - 1];
        assert (i - 1) * step + step == i * step;
      }
    }
  }

  /** The slot starts: the cursor begins at `start` and advances by `step`
      milliseconds while it is before `end`. There are ceil((end - start) /
      step) of them when the range is non-empty and none otherwise; the i-th is
      `start + i * step`; every one lies before `end`, and the last slot
      reaches `end`. */
  function SlotStarts(start: Instant, end: Instant, step: nat): (r: seq<Instant>)
    requires step > 0
    ensures |r| == if end > start then CeilDiv(end - start, step) else 0
    ensures forall i :: 0 <= i < |r| ==> r[i] == start + i * step
    ensures forall i :: 0 <= i < |r| ==> r[i] < end
    ensures end > start ==> start + |r| * step >= end
    decreases end - start
  {
    if start < end then
      var rest := SlotStarts(start + step, end, step);
      if start + step < end then
        CeilDivStep(end - start, step);
        PrependSlot(start, step, rest);
        [start] + rest
      else
        CeilDivOne(end - start, step);
        [start] + rest
    else
      []
  }
}

=== FILE: grid.dfy ===
/** The availability selection grid: the slots of the meeting range, the set
    of selected slot starts edited by click-and-drag, and the conversion of
    the selection into availability rows. Slot keys are the slot start
    instants (the ISO string of an instant and the instant determine each
    other). The selection is a JavaScript `Set`, modelled as a duplicate-free
    sequence in insertion order, which is the order `Array.from` yields. */
module Grid {
  import opened DisplayGrid
  import opened Seqs

  /** One grid slot `[utcStart, utcEnd)`. */
  datatype GridSlot = GridSlot(utcStart: Instant, utcEnd: Instant)

  /** `allSlots`: the range cut into slots of `slotSize` minutes. */
  function AllSlots(start: Instant, end: Instant, slotSize: nat): (r: seq<GridSlot>)
    requires slotSize > 0
    ensures |r| == if end > start then CeilDiv(end - start, slotSize * MsPerMinute) else 0
    ensures |r| > 0 ==> r[0].utcStart == start
    ensures forall i :: 0 <= i < |r| ==> r[i].utcEnd == r[i].utcStart + slotSize * MsPerMinute
    ensures forall i :: 0 <= i < |r| ==> r[i].utcStart < end
    ensures forall i :: 0 < i < |r| ==> r[i].utcStart == r[i - 1].utcEnd
    ensures |r| > 0 ==> r[|r| - 1].utcEnd >= end
  {
    var step := slotSize * MsPerMinute;
    var starts := SlotStarts(start, end, step);
    assert forall i :: 0 < i < |starts| ==> starts[i] == starts[i - 1] + step by {
      forall i | 0 < i < |starts| ensures starts[i] == starts[i - 1] + step {
        assert (i - 1) * step + step == i * step;
      }
    }
    seq(|starts|, i requires 0 <= i < |starts| => GridSlot(starts[i], starts[i] + step))
  }

  // ---------------------------------------------------------------------
  // The selection set

  /** A selection: slot keys without repetition, in insertion order. */
  type Selection = s: seq<Instant> | Distinct(s)

  /** `set.add(k)`: a key already present keeps its place. */
  function Add(sel: Selection, k: Instant): (r: Selection)
    ensures forall x :: x in r <==> x in sel || x == k
    ensures k in sel ==> r == sel
    ensures k !in sel ==> r == sel + [k]
  {
    if k in sel then sel
    else
      var r := sel + [k];
      assert forall i :: 0 <= i < |sel| ==> r[i] == sel[i];
      r
  }

  /** `set.delete(k)`: the other keys keep their order. */
  function Delete(sel: Selection, k: Instant): (r: Selection)
    ensures forall x :: x in r <==> x in sel && x != k
    ensures IsSubseq(r, sel)
  {
    FilterDistinct(sel, x => x != k);
    Filter(sel, x => x != k)
  }

  /** `initial`: the start instants of the existing rows marked available,
      added in row order. */
  function InitialSelection(existing: seq<Row>): (r: Selection)
    ensures forall x :: x in r <==>
      exists i :: 0 <= i < |existing| && existing[i].isAvailable && existing[i].start == x
    decreases |existing|
  {
    if |existing| == 0 then []
    else
      var n := |existing| - 1;
      var prev := InitialSelection(existing[..n]);
      assert forall i :: 0 <= i < n ==> existing[..n][i] == existing[i];
      if existing[n].isAvailable then Add(prev, existing[n].start) else prev
  }

  /** `handleSubmit`: one available row `[k, k + slotSize)` per selected key,
      in selection order. */
  function SubmitRows(sel: Selection, slotSize: nat): (r: seq<Row>)
    ensures |r| == |sel|
    ensures forall i :: 0 <= i < |r| ==>
      r[i].start == sel[i] && r[i].end == sel[i] + slotSize * MsPerMinute && r[i].isAvailable
  {
    seq(|sel|, i requires 0 <= i < |sel| => Row(sel[i], sel[i] + slotSize * MsPerMinute, true))
  }

  /** The submit button is shown unless the grid is read-only, and enabled
      when at least one slot is selected and nothing is being submitted. */
  function SubmitEnabled(sel: Selection, readOnly: bool, loading: bool): (r: bool)
    ensures r <==> !readOnly && !loading && |Elements(sel)| > 0
  {
    DistinctCardinality(sel);
    !readOnly && !loading && |sel| > 0
  }

  // ---------------------------------------------------------------------
  // Click and drag

  datatype DragMode = Select | Deselect

  /** The grid's interaction state: the selection, whether the pointer is
      held down, and the mode fixed when it went down. */
  datatype GridState = GridState(selected: Selection, dragging: bool, mode: DragMode)

  /** `toggleSlot`: add the key in select mode, remove it in deselect mode. */
  function ToggleSlot(st: GridState, k: Instant): (r: GridState)
    ensures r.dragging == st.dragging && r.mode == st.mode
    ensures k in r.selected <==> st.mode == Select
    ensures forall x :: x != k ==> (x in r.selected <==> x in st.selected)
  {
    st.(selected := if st.mode == Select then Add(st.selected, k) else Delete(st.selected, k))
  }

  /** `handlePointerDown`: unless read-only, start dragging in the mode that
      flips the pressed key, and flip it. */
  function PointerDown(st: GridState, k: Instant, readOnly: bool): (r: GridState)
    ensures readOnly ==> r == st
    ensures !readOnly ==> r.dragging
    ensures !readOnly ==> (k in r.selected <==> k !in st.selected)
    ensures !readOnly ==> (r.mode == Deselect <==> k in st.selected)
    ensures forall x :: x != k ==> (x in r.selected <==> x in st.selected)
  {
    if readOnly then st
    else
      var mode := if k in st.selected then Deselect else Select;
      ToggleSlot(st.(dragging := true, mode := mode), k)
  }

  /** `handlePointerEnter`: toggle with the current mode while dragging on an
      editable grid; otherwise nothing happens. */
  function PointerEnter(st: GridState, k: Instant, readOnly: bool): (r: GridState)
    ensures !st.dragging || readOnly ==> r == st
    ensures r.dragging == st.dragging && r.mode == st.mode
    ensures st.dragging && !readOnly ==> (k in r.selected <==> st.mode == Select)
    ensures forall x :: x != k ==> (x in r.selected <==> x in st.selected)
  {
    if !st.dragging || readOnly then st else ToggleSlot(st, k)
  }

  /** `handlePointerUp`: stop dragging; the selection is kept. */
  function PointerUp(st: GridState): (r: GridState)
    ensures !r.dragging && r.selected == st.selected && r.mode == st.mode
  {
    st.(dragging := false)
  }

  /** The pointer entering the given keys one after another. */
  function DragOver(st: GridState, keys: seq<Instant>, readOnly: bool): (r: GridState)
    decreases |keys|
  {
    if |keys| == 0 then st
    else DragOver(PointerEnter(st, keys[0], readOnly), keys[1..], readOnly)
  }
}

=== FILE: grid_properties.dfy ===
/** Properties of the selection grid: the submit/load round trip and what a
    drag does to the selection. */
module GridProperties {
  import opened DisplayGrid
  import opened Seqs
  import opened Grid

  /** The submitted rows, fed back as existing availability, give back the
      same selection in the same order. */
  lemma {:induction false} SubmitThenLoad(sel: Selection, slotSize: nat)
    ensures InitialSelection(SubmitRows(sel, slotSize)) == sel
    decreases |sel|
  {
    if |sel| > 0 {
      var n := |sel| - 1;
      var rows := SubmitRows(sel, slotSize);
      var prefix: Selection := sel[..n];
      assert rows[..n] == SubmitRows(prefix, slotSize);
      SubmitThenLoad(prefix, slotSize);
      assert sel[n] !in prefix by {
        forall i | 0 <= i < n ensures prefix[i] != sel[n] {
          assert prefix[i] == sel[i];
        }
      }
      assert prefix + [sel[n]] == sel;
    }
  }

  /** A drag in select mode adds every key it passes over and removes none. */
  lemma {:induction false} DragSelects(st: GridState, keys: seq<Instant>)
    requires st.dragging && st.mode == Select
    ensures var r := DragOver(st, keys, false);
      r.dragging && r.mode == Select &&
      (forall x :: x in r.selected <==> x in st.selected || x in keys)
    decreases |keys|
  {
    if |keys| > 0 {
      var next := PointerEnter(st, keys[0], false);
      DragSelects(next, keys[1..]);
      assert forall x :: x in keys <==> x == keys[0] || x in keys[1..];
    }
  }

  /** A drag in deselect mode removes every key it passes over and adds
      none. */
  lemma {:induction false} DragDeselects(st: GridState, keys: seq<Instant>)
    requires st.dragging && st.mode == Deselect
    ensures var r := DragOver(st, keys, false);
      r.dragging && r.mode == Deselect &&
      (forall x :: x in r.selected <==> x in st.selected && x !in keys)
    decreases |keys|
  {
    if |keys| > 0 {
      var next := PointerEnter(st, keys[0], false);
      DragDeselects(next, keys[1..]);
      assert forall x :: x in keys <==> x == keys[0] || x in keys[1..];
    }
  }

  /** On a read-only grid, nothing the pointer does changes the state. */
  lemma {:induction false} ReadOnlyDragIsInert(st: GridState, k: Instant, keys: seq<Instant>)
    ensures DragOver(PointerDown(st, k, true), keys, true) == st
    decreases |keys|
  {
    if |keys| > 0 {
      ReadOnlyDragIsInert(st, k, keys[1..]);
    }
  }

  /** Pressing an unselected key and dragging over further keys selects the
      pressed key and all of them; pressing a selected key deselects them. */
  lemma PressAndDrag(st: GridState, k: Instant, keys: seq<Instant>)
    ensures var r := DragOver(PointerDown(st, k, false), keys, false);
      (k !in st.selected ==> forall x :: x in r.selected <==> x in st.selected || x == k || x in keys) &&
      (k in st.selected ==> forall x :: x in r.selected <==> x in st.selected && x != k && x !in keys)
  {
    var down := PointerDown(st, k, false);
    if k in st.selected {
      DragDeselects(down, keys);
    } else {
      DragSelects(down, keys);
    }
  }
}

=== FILE: guest_action.dfy ===
/** `joinAsGuest`: a visitor of the share link joins a meeting by name and
    optional e-mail. A non-empty e-mail already used in the meeting returns
    the existing guest token instead of a second participant. */
module GuestAction {
  import opened Wrappers
  import opened Seqs
  import opened Tables
  import opened Validators
  import opened Store

  /** The two successful replies: a new guest, or the token of the
      participant that already joined with the same e-mail. */
  datatype JoinReply =
    | Joined(guestToken: nat, participantId: nat)
    | AlreadyJoined(guestToken: nat)

  /** The action throws: the schema rejected the input, or the insert broke
      the participant's foreign key to its meeting. */
  datatype JoinError = InvalidGuest | NoSuchMeeting

  /** The stored e-mail: an absent or empty e-mail is stored as null. */
  function StoredEmail(email: Option<string>): (r: Option<string>)
    ensures r.None? <==> email.None? || email.value == ""
    ensures r.Some? ==> r == email
  {
    if email.Some? && email.value != "" then email else None
  }

  function JoinAsGuest(db: Db, meetingId: nat, input: GuestJoinInput, fmt: Formats): (r: Result<(Db, JoinReply), JoinError>)
    ensures r == Err(InvalidGuest) <==> !GuestJoinValid(input, fmt)
    ensures r == Err(NoSuchMeeting) ==> FindMeeting(db, meetingId).None?
    ensures r.Ok? && r.value.1.Joined? ==> FindMeeting(db, meetingId).Some?
    ensures r.Ok? && r.value.1.AlreadyJoined? ==>
      && r.value.0 == db
      && StoredEmail(input.email).Some?
      && exists i :: 0 <= i < |db.participants| &&
           db.participants[i].meetingId == meetingId && db.participants[i].guestEmail == input.email &&
           db.participants[i].guestToken == r.value.1.guestToken
    ensures r.Ok? && r.value.1.Joined? ==>
      && (StoredEmail(input.email).Some? ==>
            forall i :: 0 <= i < |db.participants| ==> !HasGuestEmail(meetingId, input.email.value)(db.participants[i]))
      && r.value.0.participants == db.participants +
           [Participant(db.nextId, meetingId, None, Some(input.name), StoredEmail(input.email), db.nextId,
                        true, Pending, Some("UTC"), None)]
      && r.value.1 == Joined(db.nextId, db.nextId)
      && r.value.0.(participants := db.participants, nextId := db.nextId) == db
  {
    if !GuestJoinValid(input, fmt) then Err(InvalidGuest)
    else
      var existing :=
        if StoredEmail(input.email).Some? then FindFirst(db.participants, HasGuestEmail(meetingId, input.email.value))
        else None;
      if existing.Some? then Ok((db, AlreadyJoined(db.participants[existing.value].guestToken)))
      else if FindMeeting(db, meetingId).None? then Err(NoSuchMeeting)
      else
        var after := Enrol(db, meetingId, None, Some(input.name), StoredEmail(input.email), true, Pending, Some("UTC"));
        Ok((after, Joined(db.nextId, db.nextId)))
  }
}

=== FILE: guest_properties.dfy ===
/** Properties of `joinAsGuest`: the key constraints survive, a repeated join
    with the same e-mail is answered with the first join's token, and joins
    without an e-mail are never merged. */
module GuestProperties {
  import opened Wrappers
  import opened Seqs
  import opened Tables
  import opened Validators
  import opened Store
  import opened GuestAction

  lemma GuestJoinKeepsValid(db: Db, meetingId: nat, input: GuestJoinInput, fmt: Formats)
    requires Valid(db)
    ensures var r := JoinAsGuest(db, meetingId, input, fmt); r.Ok? ==> Valid(r.value.0)
  {
    var r := JoinAsGuest(db, meetingId, input, fmt);
    if r.Ok? && r.value.1.Joined? {
      var e := StoredEmail(input.email);
      assert e.Some? ==> forall i :: 0 <= i < |db.participants| ==>
          MeetingEmailKey(db.participants[i]) != Some((meetingId, e.value)) by {
        if e.Some? {
          forall i | 0 <= i < |db.participants|
            ensures MeetingEmailKey(db.participants[i]) != Some((meetingId, e.value))
          {
            assert !HasGuestEmail(meetingId, input.email.value)(db.participants[i]);
          }
        }
      }
      var m := FindMeeting(db, meetingId).value;
      var k :| 0 <= k < |db.meetings| && db.meetings[k] == m;
      EnrolKeepsValid(db, meetingId, None, Some(input.name), e, true, Pending, Some("UTC"));
    }
  }

  /** Joining again with the same non-empty e-mail creates nobody and hands
      back the token of the first join. */
  lemma JoinTwiceSameEmail(db: Db, meetingId: nat, input: GuestJoinInput, fmt: Formats)
    requires JoinAsGuest(db, meetingId, input, fmt).Ok?
    requires input.email.Some? && input.email.value != ""
    ensures var first := JoinAsGuest(db, meetingId, input, fmt).value;
      var second := JoinAsGuest(first.0, meetingId, input, fmt);
      second.Ok? && second.value.0 == first.0 &&
      second.value.1.AlreadyJoined? && second.value.1.guestToken == first.1.guestToken
  {
    var first := JoinAsGuest(db, meetingId, input, fmt).value;
    var sel := HasGuestEmail(meetingId, input.email.value);
    if first.1.Joined? {
      var ps := first.0.participants;
      var n := |db.participants|;
      assert sel(ps[n]);
      assert FindFirst(ps, sel) == Some(n) by {
        forall i | 0 <= i < n ensures !sel(ps[i]) {
          assert ps[i] == db.participants[i];
        }
      }
    } else {
      var k := FindFirst(db.participants, sel);
      assert k.Some?;
    }
  }

  /** Two joins without an e-mail create two participants with different ids
      and tokens, even under the same name. */
  lemma JoinWithoutEmailNeverMerges(db: Db, meetingId: nat, name: string, fmt: Formats)
    requires 1 <= |name| <= 100
    requires FindMeeting(db, meetingId).Some?
    ensures var input := GuestJoinInput(name, None);
      var first := JoinAsGuest(db, meetingId, input, fmt);
      first.Ok? && first.value.1.Joined? &&
      var second := JoinAsGuest(first.value.0, meetingId, input, fmt);
      second.Ok? && second.value.1.Joined? &&
      second.value.1.participantId != first.value.1.participantId &&
      second.value.1.guestToken != first.value.1.guestToken &&
      |second.value.0.participants| == |db.participants| + 2
  {
  }
}

=== FILE: heatmap.dfy ===
/** The availability heatmap: for every display slot, which participants have
    an available row that fully covers it, how many, the ratio to the number
    of participants, the "everyone available" flag and the colour bucket. */
module Heatmap {
  import opened DisplayGrid
  import opened Seqs

  /** A participant as the heatmap receives it: a display name and rows. */
  datatype HeatParticipant = HeatParticipant(name: string, rows: seq<Row>)

  /** One heatmap cell: the slot start, the number of available participants
      and the names on either side, each in participant order. */
  datatype Cell = Cell(
    start: Instant,
    availableCount: nat,
    availableNames: seq<string>,
    unavailableNames: seq<string>)

  /** A non-negative fraction; stands in for the floating-point ratio. */
  datatype Fraction = Fraction(num: nat, den: nat)

  /** A row counts for `[s, e)` only when it is marked available and covers
      the whole interval; a partial overlap does not count. */
  predicate Covers(row: Row, s: Instant, e: Instant) {
    row.isAvailable && row.start <= s && row.end >= e
  }

  /** `rows.some(covers)`: some row of the participant covers `[s, e)`. */
  function AnyCovers(rows: seq<Row>, s: Instant, e: Instant): (r: bool)
    ensures r <==> exists i :: 0 <= i < |rows| && Covers(rows[i], s, e)
    decreases |rows|
  {
    if |rows| == 0 then false
    else if Covers(rows[0], s, e) then true
    else
      var rest := AnyCovers(rows[1..], s, e);
      assert forall i :: 1 <= i < |rows| ==> rows[i] == rows[1..][i - 1];
      rest
  }

  /** The positions of the participants available for `[s, e)`. */
  ghost function CoveringSet(ps: seq<HeatParticipant>, s: Instant, e: Instant): set<nat> {
    set i: nat | i < |ps| && AnyCovers(ps[i].rows, s, e)
  }

  predicate StrictlyIncreasing(s: seq<nat>) {
    forall i, j :: 0 <= i < j < |s| ==> s[i] < s[j]
  }

  /** `a` and `u` split the positions of `ps` by coverage of `[s, e)`: every
      position lands on exactly one side, both sides keep participant order,
      and the available side holds exactly the participants with a covering
      row. */
  predicate IsSplit(ps: seq<HeatParticipant>, s: Instant, e: Instant, a: seq<nat>, u: seq<nat>) {
    && |a| + |u| == |ps|
    && StrictlyIncreasing(a) && StrictlyIncreasing(u)
    && (forall k :: 0 <= k < |a| ==> a[k] < |ps| && AnyCovers(ps[a[k]].rows, s, e))
    && (forall k :: 0 <= k < |u| ==> u[k] < |ps| && !AnyCovers(ps[u[k]].rows, s, e))
    && (forall i :: 0 <= i < |ps| && AnyCovers(ps[i].rows, s, e) ==> i in a)
    && (forall i :: 0 <= i < |ps| && !AnyCovers(ps[i].rows, s, e) ==> i in u)
  }

  lemma ExtendAvailable(ps: seq<HeatParticipant>, s: Instant, e: Instant, a: seq<nat>, u: seq<nat>)
    requires |ps| > 0 && AnyCovers(ps[|ps| - 1].rows, s, e)
    requires IsSplit(ps[..|ps| - 1], s, e, a, u)
    ensures IsSplit(ps, s, e, a + [|ps| - 1], u)
  {
    var last := |ps| - 1;
    assert forall i :: 0 <= i < last ==> ps[..last][i] == ps[i];
  }

  lemma ExtendUnavailable(ps: seq<HeatParticipant>, s: Instant, e: Instant, a: seq<nat>, u: seq<nat>)
    requires |ps| > 0 && !AnyCovers(ps[|ps| - 1].rows, s, e)
    requires IsSplit(ps[..|ps| - 1], s, e, a, u)
    ensures IsSplit(ps, s, e, a, u + [|ps| - 1])
  {
    var last := |ps| - 1;
    assert forall i :: 0 <= i < last ==> ps[..last][i] == ps[i];
  }

  /** The `forEach` that sorts participants into available and unavailable,
      kept as positions (pushing each participant in turn). */
  function Split(ps: seq<HeatParticipant>, s: Instant, e: Instant): (r: (seq<nat>, seq<nat>))
    ensures IsSplit(ps, s, e, r.0, r.1)
    decreases |ps|
  {
    if |ps| == 0 then ([], [])
    else
      var last := |ps| - 1;
      var rest := Split(ps[..last], s, e);
      if AnyCovers(ps[last].rows, s, e) then
        ExtendAvailable(ps, s, e, rest.0, rest.1);
        (rest.0 + [last], rest.1)
      else
        ExtendUnavailable(ps, s, e, rest.0, rest.1);
        (rest.0, rest.1 + [last])
  }

  /** The names of the participants at the given positions. */
  function NamesAt(ps: seq<HeatParticipant>, idx: seq<nat>): (r: seq<string>)
    requires forall k :: 0 <= k < |idx| ==> idx[k] < |ps|
    ensures |r| == |idx|
    ensures forall k :: 0 <= k < |idx| ==> r[k] == ps[idx[k]].name
  {
    seq(|idx|, k requires 0 <= k < |idx| => ps[idx[k]].name)
  }

  lemma StrictlyIncreasingDistinct(s: seq<nat>)
    requires StrictlyIncreasing(s)
    ensures Distinct(s)
  {
  }

  /** The available side of `Split` has one entry per covering participant. */
  lemma AvailableSideCount(ps: seq<HeatParticipant>, s: Instant, e: Instant)
    ensures |Split(ps, s, e).0| == |CoveringSet(ps, s, e)|
  {
    var a := Split(ps, s, e).0;
    StrictlyIncreasingDistinct(a);
    DistinctCardinality(a);
    forall x | x in a ensures x in CoveringSet(ps, s, e) {
      var k :| 0 <= k < |a| && a[k] == x;
    }
    forall x | x in CoveringSet(ps, s, e) ensures x in a {
      assert x < |ps| && AnyCovers(ps[x].rows, s, e);
    }
    assert Elements(a) == CoveringSet(ps, s, e);
  }

  /** The cell for the slot `[s, e)`: the participants sorted into the
      available and the unavailable side in participant order. */
  function CellAt(ps: seq<HeatParticipant>, s: Instant, e: Instant): (c: Cell)
    ensures c.start == s
    ensures c.availableCount == |c.availableNames|
    ensures c.availableCount + |c.unavailableNames| == |ps|
    ensures c.availableCount == |CoveringSet(ps, s, e)|
  {
    var sides := Split(ps, s, e);
    AvailableSideCount(ps, s, e);
    Cell(s, |sides.0|, NamesAt(ps, sides.0), NamesAt(ps, sides.1))
  }

  /** `heatmapData`: one cell per display slot of `[start, end)` with slots of
      `slotSize` minutes. */
  function Build(ps: seq<HeatParticipant>, start: Instant, end: Instant, slotSize: nat): (r: seq<Cell>)
    requires slotSize > 0
    ensures |r| == if end > start then CeilDiv(end - start, slotSize * MsPerMinute) else 0
    ensures forall i :: 0 <= i < |r| ==> r[i].start == start + i * (slotSize * MsPerMinute) && r[i].start < end
    ensures forall i :: 0 <= i < |r| ==>
      r[i] == CellAt(ps, r[i].start, r[i].start + slotSize * MsPerMinute)
  {
    var step := slotSize * MsPerMinute;
    var starts := SlotStarts(start, end, step);
    seq(|starts|, i requires 0 <= i < |starts| => CellAt(ps, starts[i], starts[i] + step))
  }

  /** The ratio of available participants; zero when there are none. */
  function Ratio(count: nat, total: nat): (r: Fraction)
    ensures r.den > 0
    ensures total == 0 ==> r.num == 0
    ensures total > 0 ==> r.num * total == count * r.den
  {
    if total > 0 then Fraction(count, total) else Fraction(0, 1)
  }

  /** A slot is highlighted when every participant is available and there is
      at least one participant. */
  predicate FullyAvailable(count: nat, total: nat) {
    count == total && total > 0
  }

  /** `getHeatmapColor` as a bucket index (0 lightest .. 4 darkest), with the
      thresholds 0, 1/4, 1/2 and 3/4 compared by cross-multiplication. */
  function ColorBucket(r: Fraction): (b: nat)
    requires r.den > 0
    ensures b <= 4
    ensures b == 0 <==> r.num == 0
    ensures b == 1 <==> 0 < r.num && 4 * r.num <= r.den
    ensures b <= 2 <==> 2 * r.num <= r.den
    ensures b <= 3 <==> 4 * r.num <= 3 * r.den
    ensures b == 4 <==> 4 * r.num > 3 * r.den
  {
    if r.num == 0 then 0
    else if 4 * r.num <= r.den then 1
    else if 2 * r.num <= r.den then 2
    else if 4 * r.num <= 3 * r.den then 3
    else 4
  }
}

=== FILE: heatmap_properties.dfy ===
/** Properties of the availability heatmap: which participants a cell counts,
    what the cell depends on, and how the ratio and colour behave. */
module HeatmapProperties {
  import opened DisplayGrid
  import opened Heatmap

  /** Two participant lists of equal length agree on who covers `[s, e)`. */
  predicate SameCoverage(ps: seq<HeatParticipant>, qs: seq<HeatParticipant>, s: Instant, e: Instant) {
    |ps| == |qs| &&
    forall i :: 0 <= i < |ps| ==> AnyCovers(ps[i].rows, s, e) == AnyCovers(qs[i].rows, s, e)
  }

  /** Two participant lists of equal length carry the same names. */
  predicate SameNames(ps: seq<HeatParticipant>, qs: seq<HeatParticipant>) {
    |ps| == |qs| && forall i :: 0 <= i < |ps| ==> ps[i].name == qs[i].name
  }

  /** The split depends on the participants only through whether they cover
      the slot. */
  lemma {:induction false} SplitDependsOnCoverage(ps: seq<HeatParticipant>, qs: seq<HeatParticipant>, s: Instant, e: Instant)
    requires SameCoverage(ps, qs, s, e)
    ensures Split(ps, s, e) == Split(qs, s, e)
    decreases |ps|
  {
    if |ps| > 0 {
      var last := |ps| - 1;
      assert forall i :: 0 <= i < last ==> ps[..last][i] == ps[i] && qs[..last][i] == qs[i];
      SplitDependsOnCoverage(ps[..last], qs[..last], s, e);
    }
  }

  /** A participant is counted available for a slot exactly when one of their
      rows is marked available and covers the whole slot. */
  lemma CountedIffCovering(ps: seq<HeatParticipant>, s: Instant, e: Instant, i: nat)
    requires i < |ps|
    ensures i in Split(ps, s, e).0 <==>
      exists j :: 0 <= j < |ps[i].rows| && Covers(ps[i].rows[j], s, e)
    ensures i in Split(ps, s, e).1 <==> i !in Split(ps, s, e).0
  {
  }

  lemma AnyCoversIgnoresUnavailable(rows: seq<Row>, extra: seq<Row>, s: Instant, e: Instant)
    requires forall k :: 0 <= k < |extra| ==> !extra[k].isAvailable
    ensures AnyCovers(rows + extra, s, e) == AnyCovers(rows, s, e)
  {
    var all := rows + extra;
    if AnyCovers(all, s, e) {
      var i :| 0 <= i < |all| && Covers(all[i], s, e);
      assert i < |rows|;
      assert all[i] == rows[i];
    }
    if AnyCovers(rows, s, e) {
      var i :| 0 <= i < |rows| && Covers(rows[i], s, e);
      assert all[i] == rows[i];
    }
  }

  /** Rows marked unavailable never contribute: appending any number of them
      to a participant leaves every cell unchanged. */
  lemma UnavailableRowsIgnored(ps: seq<HeatParticipant>, j: nat, extra: seq<Row>, s: Instant, e: Instant)
    requires j < |ps|
    requires forall k :: 0 <= k < |extra| ==> !extra[k].isAvailable
    ensures CellAt(ps[j := ps[j].(rows := ps[j].rows + extra)], s, e) == CellAt(ps, s, e)
  {
    var qs := ps[j := ps[j].(rows := ps[j].rows + extra)];
    forall i | 0 <= i < |ps| ensures AnyCovers(qs[i].rows, s, e) == AnyCovers(ps[i].rows, s, e) {
      if i == j {
        AnyCoversIgnoresUnavailable(ps[j].rows, extra, s, e);
      }
    }
    CellDependsOnCoverage(qs, ps, s, e);
  }

  /** Two participant lists with the same names and the same coverage of a
      slot give the same cell: nothing else about the rows matters. */
  lemma CellDependsOnCoverage(ps: seq<HeatParticipant>, qs: seq<HeatParticipant>, s: Instant, e: Instant)
    requires SameNames(ps, qs) && SameCoverage(ps, qs, s, e)
    ensures CellAt(ps, s, e) == CellAt(qs, s, e)
  {
    SplitDependsOnCoverage(ps, qs, s, e);
    SameSplitSameCell(ps, qs, s, e);
  }

  lemma SameSplitSameCell(ps: seq<HeatParticipant>, qs: seq<HeatParticipant>, s: Instant, e: Instant)
    requires SameNames(ps, qs)
    requires Split(ps, s, e) == Split(qs, s, e)
    ensures CellAt(ps, s, e) == CellAt(qs, s, e)
  {
    var r := Split(ps, s, e);
    NamesAgree(ps, qs, r.0);
    NamesAgree(ps, qs, r.1);
    CellUnfold(ps, s, e);
    CellUnfold(qs, s, e);
  }

  lemma CellUnfold(ps: seq<HeatParticipant>, s: Instant, e: Instant)
    ensures var r := Split(ps, s, e);
      CellAt(ps, s, e) == Cell(s, |r.0|, NamesAt(ps, r.0), NamesAt(ps, r.1))
  {
  }

  lemma NamesAgree(ps: seq<HeatParticipant>, qs: seq<HeatParticipant>, idx: seq<nat>)
    requires SameNames(ps, qs)
    requires forall k :: 0 <= k < |idx| ==> idx[k] < |ps|
    ensures NamesAt(ps, idx) == NamesAt(qs, idx)
  {
  }

  /** Adding a row to any participant never lowers the count of any slot. */
  lemma AddingRowNeverLowersCount(ps: seq<HeatParticipant>, j: nat, row: Row, s: Instant, e: Instant)
    requires j < |ps|
    ensures CellAt(ps, s, e).availableCount <=
      CellAt(ps[j := ps[j].(rows := ps[j].rows + [row])], s, e).availableCount
  {
    var qs := ps[j := ps[j].(rows := ps[j].rows + [row])];
    forall i | i in CoveringSet(ps, s, e) ensures i in CoveringSet(qs, s, e) {
      if i == j {
        var k :| 0 <= k < |ps[j].rows| && Covers(ps[j].rows[k], s, e);
        assert qs[j].rows[k] == ps[j].rows[k];
      }
    }
    SubsetCardinality(CoveringSet(ps, s, e), CoveringSet(qs, s, e));
  }

  lemma SubsetCardinality(a: set<nat>, b: set<nat>)
    requires a <= b
    ensures |a| <= |b|
  {
    assert b == a + (b - a);
  }

  /** Whoever is on the unavailable side of a split has no covering row. */
  lemma UnavailableWitness(ps: seq<HeatParticipant>, s: Instant, e: Instant, a: seq<nat>, u: seq<nat>)
    requires IsSplit(ps, s, e, a, u)
    ensures |u| > 0 ==> exists i :: 0 <= i < |ps| && !AnyCovers(ps[i].rows, s, e)
  {
    if |u| > 0 {
      assert u[0] < |ps| && !AnyCovers(ps[u[0]].rows, s, e);
    }
  }

  /** A slot is highlighted exactly when every participant has a covering
      row (and there is at least one participant); its ratio is then one and
      it gets the darkest colour. */
  lemma FullyAvailableMeansEveryone(ps: seq<HeatParticipant>, s: Instant, e: Instant)
    ensures var c := CellAt(ps, s, e);
      FullyAvailable(c.availableCount, |ps|) <==>
        |ps| > 0 && forall i :: 0 <= i < |ps| ==> AnyCovers(ps[i].rows, s, e)
    ensures var c := CellAt(ps, s, e);
      FullyAvailable(c.availableCount, |ps|) ==>
        Ratio(c.availableCount, |ps|).num == Ratio(c.availableCount, |ps|).den &&
        ColorBucket(Ratio(c.availableCount, |ps|)) == 4
  {
    var r := Split(ps, s, e);
    CellUnfold(ps, s, e);
    if FullyAvailable(|r.0|, |ps|) {
      assert |r.1| == 0;
      assert forall i :: 0 <= i < |ps| ==> AnyCovers(ps[i].rows, s, e);
    }
    if forall i :: 0 <= i < |ps| ==> AnyCovers(ps[i].rows, s, e) {
      UnavailableWitness(ps, s, e, r.0, r.1);
    }
  }

  /** The ratio never exceeds one. */
  lemma RatioAtMostOne(ps: seq<HeatParticipant>, s: Instant, e: Instant)
    ensures var c := CellAt(ps, s, e);
      Ratio(c.availableCount, |ps|).num <= Ratio(c.availableCount, |ps|).den
  {
  }

  lemma MulMono(k: nat, a: nat, b: nat)
    requires a <= b
    ensures k * a <= k * b
  {
  }

  lemma MulCancel(a: nat, b: nat, d: nat)
    requires d > 0 && a * d <= b * d
    ensures a <= b
  {
    if a > b {
      MulAtLeast(a - b, d);
    }
  }

  /** If x/y <= a/b and k*a <= m*b then k*x <= m*y (all denominators positive). */
  lemma CrossThreshold(x: nat, y: nat, a: nat, b: nat, k: nat, m: nat)
    requires y > 0 && b > 0
    requires x * b <= a * y
    requires k * a <= m * b
    ensures k * x <= m * y
  {
    MulMono(k, x * b, a * y);
    assert k * (x * b) == (k * x) * b;
    assert k * (a * y) == (k * a) * y;
    MulMono(y, k * a, m * b);
    assert y * (k * a) == (k * a) * y;
    assert y * (m * b) == (m * y) * b;
    MulCancel(k * x, m * y, b);
  }

  /** The colour is a non-decreasing step function of the ratio: a smaller or
      equal ratio never gets a darker bucket, whatever the denominators. */
  lemma ColorMonotone(r1: Fraction, r2: Fraction)
    requires r1.den > 0 && r2.den > 0
    requires r1.num * r2.den <= r2.num * r1.den
    ensures ColorBucket(r1) <= ColorBucket(r2)
  {
    var b2 := ColorBucket(r2);
    if b2 == 0 {
      MulCancel(r1.num, 0, r2.den);
    } else if b2 == 1 {
      CrossThreshold(r1.num, r1.den, r2.num, r2.den, 4, 1);
    } else if b2 == 2 {
      CrossThreshold(r1.num, r1.den, r2.num, r2.den, 2, 1);
    } else if b2 == 3 {
      CrossThreshold(r1.num, r1.den, r2.num, r2.den, 4, 3);
    }
  }

  /** Two participants, one available 09:00-10:00 and one 09:30-10:30: the
      slot 09:30-10:00 has both, the slot 09:00-09:30 only the first, because
      the second row only partly overlaps it. */
  lemma PartialOverlapScenario()
    ensures var hour := 60 * MsPerMinute;
      var half := 30 * MsPerMinute;
      var ps := [HeatParticipant("P1", [Row(9 * hour, 10 * hour, true)]),
                 HeatParticipant("P2", [Row(9 * hour + half, 10 * hour + half, true)])];
      CellAt(ps, 9 * hour + half, 10 * hour).availableNames == ["P1", "P2"] &&
      CellAt(ps, 9 * hour, 9 * hour + half).availableNames == ["P1"] &&
      CellAt(ps, 9 * hour, 9 * hour + half).unavailableNames == ["P2"]
  {
    var hour := 60 * MsPerMinute;
    var half := 30 * MsPerMinute;
    var p1 := HeatParticipant("P1", [Row(9 * hour, 10 * hour, true)]);
    var p2 := HeatParticipant("P2", [Row(9 * hour + half, 10 * hour + half, true)]);
    var ps := [p1, p2];
    assert ps[..1] == [p1];
    assert [p1][..0] == [];
    TwoParticipants(p1, p2, 9 * hour + half, 10 * hour);
    TwoParticipants(p1, p2, 9 * hour, 9 * hour + half);
  }

  /** Appending a participant puts their position on one side of the split
      and leaves the earlier positions where they were. */
  lemma SplitSnoc(ps: seq<HeatParticipant>, p: HeatParticipant, s: Instant, e: Instant)
    ensures Split(ps + [p], s, e) ==
      if AnyCovers(p.rows, s, e) then (Split(ps, s, e).0 + [|ps|], Split(ps, s, e).1)
      else (Split(ps, s, e).0, Split(ps, s, e).1 + [|ps|])
  {
    assert (ps + [p])[..|ps|] == ps;
  }

  /** The names at positions 0 and 1 of a two-participant list. */
  lemma NamesOfTwo(p1: HeatParticipant, p2: HeatParticipant, b1: bool, b2: bool)
    ensures NamesAt([p1, p2], (if b1 then [0] else []) + (if b2 then [1] else [])) ==
      (if b1 then [p1.name] else []) + (if b2 then [p2.name] else [])
  {
  }

  /** The cell of a two-participant list, read off their coverage. */
  lemma TwoParticipants(p1: HeatParticipant, p2: HeatParticipant, s: Instant, e: Instant)
    ensures var c := CellAt([p1, p2], s, e);
      var c1, c2 := AnyCovers(p1.rows, s, e), AnyCovers(p2.rows, s, e);
      c.availableNames == (if c1 then [p1.name] else []) + (if c2 then [p2.name] else []) &&
      c.unavailableNames == (if c1 then [] else [p1.name]) + (if c2 then [] else [p2.name])
  {
    var c1, c2 := AnyCovers(p1.rows, s, e), AnyCovers(p2.rows, s, e);
    SplitOfTwo(p1, p2, s, e);
    NamesOfTwo(p1, p2, c1, c2);
    NamesOfTwo(p1, p2, !c1, !c2);
    CellUnfold([p1, p2], s, e);
  }

  lemma SplitOfTwo(p1: HeatParticipant, p2: HeatParticipant, s: Instant, e: Instant)
    ensures var c1, c2 := AnyCovers(p1.rows, s, e), AnyCovers(p2.rows, s, e);
      Split([p1, p2], s, e).0 == (if c1 then [0] else []) + (if c2 then [1] else [])
    ensures var c1, c2 := AnyCovers(p1.rows, s, e), AnyCovers(p2.rows, s, e);
      Split([p1, p2], s, e).1 == (if c1 then [] else [0]) + (if c2 then [] else [1])
  {
    var r1 := SplitOfOne(p1, s, e);
    SplitSnoc([p1], p2, s, e);
    assert [p1] + [p2] == [p1, p2];
    SplitOfTwoSides(p1, p2, s, e, r1);
  }

  lemma SplitOfTwoSides(p1: HeatParticipant, p2: HeatParticipant, s: Instant, e: Instant, r1: (seq<nat>, seq<nat>))
    requires r1.0 == if AnyCovers(p1.rows, s, e) then [0] else []
    requires r1.1 == if AnyCovers(p1.rows, s, e) then [] else [0]
    requires Split([p1, p2], s, e) ==
      if AnyCovers(p2.rows, s, e) then (r1.0 + [1], r1.1) else (r1.0, r1.1 + [1])
    ensures var c1, c2 := AnyCovers(p1.rows, s, e), AnyCovers(p2.rows, s, e);
      Split([p1, p2], s, e).0 == (if c1 then [0] else []) + (if c2 then [1] else [])
    ensures var c1, c2 := AnyCovers(p1.rows, s, e), AnyCovers(p2.rows, s, e);
      Split([p1, p2], s, e).1 == (if c1 then [] else [0]) + (if c2 then [] else [1])
  {
  }

  lemma SplitOfOne(p1: HeatParticipant, s: Instant, e: Instant) returns (r: (seq<nat>, seq<nat>))
    ensures r == Split([p1], s, e)
    ensures r.0 == if AnyCovers(p1.rows, s, e) then [0] else []
    ensures r.1 == if AnyCovers(p1.rows, s, e) then [] else [0]
  {
    var none: seq<HeatParticipant> := [];
    assert Split(none, s, e) == ([], []);
    SplitSnoc(none, p1, s, e);
    assert none + [p1] == [p1];
    r := Split([p1], s, e);
  }
}

=== FILE: ics.dfy ===
/** The iCalendar export of a confirmed meeting, after RFC 5545: TEXT
    escaping (section 3.3.11 of RFC 5545), the UTC DATE-TIME form of an
    instant (section 3.3.5 of RFC 5545) and the content lines of one VEVENT
    joined by CRLF (section 3.1 of RFC 5545). The UID
    and the DTSTAMP clock reading are parameters, and so is
    `Date.prototype.toISOString`. No line folding is done. */
module Ics {
  import opened Wrappers
  import opened Seqs
  import opened Strings
  import opened DisplayGrid

  // ---------------------------------------------------------------------
  // TEXT escaping

  /** The characters `escapeICS` rewrites. */
  predicate NeedsEscape(c: char) {
    c == '\\' || c == ';' || c == ',' || c == '\n'
  }

  function EscapeChar(c: char): string {
    if c == '\n' then "\\n"
    else if NeedsEscape(c) then ['\\', c]
    else [c]
  }

  function EscapeCount(s: string): nat
    decreases |s|
  {
    if |s| == 0 then 0 else (if NeedsEscape(s[0]) then 1 else 0) + EscapeCount(s[1..])
  }

  /** `escapeICS`: backslash, semicolon and comma get a backslash in front, a
      newline becomes backslash-n, everything else is kept. The result has no
      newline and is one character longer per rewritten character. */
  function Escape(s: string): (r: string)
    ensures |r| == |s| + EscapeCount(s)
    ensures '\n' !in r
    ensures EscapeCount(s) == 0 ==> r == s
    decreases |s|
  {
    if |s| == 0 then ""
    else
      var rest := Escape(s[1..]);
      assert s == [s[0]] + s[1..];
      EscapeChar(s[0]) + rest
  }

  /** Reading TEXT back: a backslash takes the next character literally, and
      backslash-n stands for a newline. */
  function Unescape(t: string): string
    decreases |t|
  {
    if |t| == 0 then ""
    else if t[0] == '\\' && |t| >= 2 then
      (if t[1] == 'n' then "\n" else [t[1]]) + Unescape(t[2..])
    else [t[0]] + Unescape(t[1..])
  }

  /** Unescaping the escaped text gives the original back. */
  lemma {:induction false} UnescapeEscape(s: string)
    ensures Unescape(Escape(s)) == s
    decreases |s|
  {
    if |s| > 0 {
      var rest := Escape(s[1..]);
      var t := EscapeChar(s[0]) + rest;
      assert Escape(s) == t;
      UnescapeEscape(s[1..]);
      if NeedsEscape(s[0]) {
        assert t[2..] == rest;
      } else {
        assert t[1..] == rest;
      }
    }
  }

  // ---------------------------------------------------------------------
  // DATE-TIME form

  predicate IsSeparator(c: char) {
    c == '-' || c == ':'
  }

  /** `s.replace(/[-:]/g, '')`. */
  function DropSeparators(s: string): (r: string)
    ensures forall c :: c in r ==> c in s && !IsSeparator(c)
    decreases |s|
  {
    if |s| == 0 then ""
    else (if IsSeparator(s[0]) then "" else [s[0]]) + DropSeparators(s[1..])
  }

  lemma {:induction false} DropSeparatorsConcat(a: string, b: string)
    ensures DropSeparators(a + b) == DropSeparators(a) + DropSeparators(b)
    decreases |a|
  {
    if |a| > 0 {
      assert (a + b)[1..] == a[1..] + b;
      assert (a + b)[0] == a[0];
      DropSeparatorsConcat(a[1..], b);
      ConcatAssoc(if IsSeparator(a[0]) then "" else [a[0]], DropSeparators(a[1..]), DropSeparators(b));
    } else {
      assert a + b == b;
    }
  }

  /** A `.` followed by three digits starts at `i`. */
  predicate MillisAt(s: string, i: nat) {
    i + 4 <= |s| && s[i] == '.' && IsDigit(s[i + 1]) && IsDigit(s[i + 2]) && IsDigit(s[i + 3])
  }

  /** The leftmost match of `/\.\d{3}/` at or after `from`. */
  function FirstMillis(s: string, from: nat): (r: Option<nat>)
    ensures r.Some? ==> from <= r.value && MillisAt(s, r.value)
    ensures r.Some? ==> forall i :: from <= i < r.value ==> !MillisAt(s, i)
    ensures r.None? ==> forall i :: from <= i ==> !MillisAt(s, i)
    decreases |s| - from
  {
    if from + 4 > |s| then None
    else if MillisAt(s, from) then Some(from)
    else FirstMillis(s, from + 1)
  }

  /** `formatICSDate` on the ISO text of an instant: drop every `-` and `:`,
      then the first `.` with three digits. */
  function FormatIcsDate(iso: string): (r: string)
    ensures forall c :: c in r ==> c in iso && !IsSeparator(c)
  {
    var s := DropSeparators(iso);
    var m := FirstMillis(s, 0);
    if m.Some? then
      assert forall c :: c in s[..m.value] + s[m.value + 4..] ==> c in s;
      s[..m.value] + s[m.value + 4..]
    else s
  }

  /** `a`, the separator, `b`. */
  function Sep3(a: string, sep: char, b: string, c: string): string {
    a + [sep] + b + [sep] + c
  }

  /** The text `Date.prototype.toISOString` produces from its fields. */
  function IsoText(year: string, month: string, day: string, hour: string, minute: string,
                   second: string, millis: string): string
  {
    Sep3(year, '-', month, day) + "T" + Sep3(hour, ':', minute, second) + "." + millis + "Z"
  }

  predicate IsoFields(year: string, month: string, day: string, hour: string, minute: string,
                      second: string, millis: string)
  {
    && |year| == 4 && |month| == 2 && |day| == 2 && |hour| == 2 && |minute| == 2 && |second| == 2 && |millis| == 3
    && AllDigits(year) && AllDigits(month) && AllDigits(day) && AllDigits(hour)
    && AllDigits(minute) && AllDigits(second) && AllDigits(millis)
  }

  lemma {:induction false} KeepDigits(d: string)
    requires AllDigits(d)
    ensures DropSeparators(d) == d
    decreases |d|
  {
    if |d| > 0 {
      KeepDigits(d[1..]);
      assert [d[0]] + d[1..] == d;
    }
  }

  lemma StripSep3(a: string, sep: char, b: string, c: string)
    requires AllDigits(a) && AllDigits(b) && AllDigits(c) && IsSeparator(sep)
    ensures DropSeparators(Sep3(a, sep, b, c)) == a + b + c
  {
    KeepDigits(a); KeepDigits(b); KeepDigits(c);
    assert DropSeparators([sep]) == "";
    var x1 := a + [sep];
    DropSeparatorsConcat(a, [sep]);
    assert DropSeparators(x1) == a;
    var x2 := x1 + b;
    DropSeparatorsConcat(x1, b);
    assert DropSeparators(x2) == a + b;
    var x3 := x2 + [sep];
    DropSeparatorsConcat(x2, [sep]);
    assert DropSeparators(x3) == a + b;
    DropSeparatorsConcat(x3, c);
    assert Sep3(a, sep, b, c) == x3 + c;
  }

  /** Removing the separators from the ISO text leaves the fields, the `T`,
      the `.` and the `Z`. */
  lemma StripSeparators(year: string, month: string, day: string, hour: string, minute: string,
                        second: string, millis: string)
    requires IsoFields(year, month, day, hour, minute, second, millis)
    ensures DropSeparators(IsoText(year, month, day, hour, minute, second, millis)) ==
      year + month + day + "T" + hour + minute + second + "." + millis + "Z"
  {
    var d := Sep3(year, '-', month, day);
    var t := Sep3(hour, ':', minute, second);
    StripSep3(year, '-', month, day);
    StripSep3(hour, ':', minute, second);
    KeepDigits(millis);
    assert DropSeparators("T") == "T" && DropSeparators(".") == "." && DropSeparators("Z") == "Z";
    var x1 := d + "T";
    DropSeparatorsConcat(d, "T");
    var x2 := x1 + t;
    DropSeparatorsConcat(x1, t);
    assert DropSeparators(x2) == year + month + day + "T" + (hour + minute + second);
    var p := year + month + day + "T";
    ConcatAssoc(p, hour + minute, second);
    ConcatAssoc(p, hour, minute);
    var x3 := x2 + ".";
    DropSeparatorsConcat(x2, ".");
    var x4 := x3 + millis;
    DropSeparatorsConcat(x3, millis);
    DropSeparatorsConcat(x4, "Z");
  }

  /** The basic UTC form of section 3.3.5 of RFC 5545: `YYYYMMDDTHHMMSSZ`. */
  lemma FormatIsoText(year: string, month: string, day: string, hour: string, minute: string,
                      second: string, millis: string)
    requires IsoFields(year, month, day, hour, minute, second, millis)
    ensures FormatIcsDate(IsoText(year, month, day, hour, minute, second, millis)) ==
      year + month + day + "T" + hour + minute + second + "Z"
  {
    StripSeparators(year, month, day, hour, minute, second, millis);
    var head := year + month + day + "T" + hour + minute + second;
    var s := head + "." + millis + "Z";
    assert |head| == 15;
    assert forall i :: 0 <= i < 15 ==> s[i] == head[i] && s[i] != '.' by {
      forall i | 0 <= i < 15 ensures s[i] == head[i] && s[i] != '.' {
        assert s[i] == head[i];
        if i < 4 { assert head[i] == year[i]; }
        else if i < 6 { assert head[i] == month[i - 4]; }
        else if i < 8 { assert head[i] == day[i - 6]; }
        else if i == 8 { assert head[i] == 'T'; }
        else if i < 11 { assert head[i] == hour[i - 9]; }
        else if i < 13 { assert head[i] == minute[i - 11]; }
        else { assert head[i] == second[i - 13]; }
      }
    }
    assert s[15] == '.' && s[16] == millis[0] && s[17] == millis[1] && s[18] == millis[2];
    assert MillisAt(s, 15);
    assert FirstMillis(s, 0) == Some(15);
    assert s[..15] == head;
    assert s[19..] == "Z";
  }

  lemma ExampleIsoText()
    ensures IsoText("2024", "01", "01", "09", "00", "00", "000") == "2024-01-01T09:00:00.000Z"
  {
    assert Sep3("2024", '-', "01", "01") == "2024-01-01";
    assert Sep3("09", ':', "00", "00") == "09:00:00";
  }

  lemma ExampleFields()
    ensures IsoFields("2024", "01", "01", "09", "00", "00", "000")
  {
  }

  lemma ExampleBasicForm()
    ensures "2024" + "01" + "01" + "T" + "09" + "00" + "00" + "Z" == "20240101T090000Z"
  {
  }

  /** The example of the source's comment. */
  lemma FormatExample()
    ensures FormatIcsDate("2024-01-01T09:00:00.000Z") == "20240101T090000Z"
  {
    ExampleIsoText();
    ExampleFields();
    FormatIsoText("2024", "01", "01", "09", "00", "00", "000");
    ExampleBasicForm();
  }

  // ---------------------------------------------------------------------
  // The calendar document

  datatype IcsEvent = IcsEvent(
    title: string,
    description: Option<string>,
    location: Option<string>,
    start: Instant,
    duration: int,
    organizerName: string,
    organizerEmail: string)

  /** A JavaScript truthiness test on an optional string. */
  predicate Present(s: Option<string>) {
    s.Some? && s.value != ""
  }

  /** DTEND: the start plus the duration in minutes. */
  function EndTime(e: IcsEvent): Instant {
    e.start + e.duration * MsPerMinute
  }

  function OptionalLine(name: string, s: Option<string>): (r: seq<string>)
    ensures |r| == if Present(s) then 1 else 0
    ensures Present(s) ==> r[0] == name + ":" + Escape(s.value)
  {
    if Present(s) then [name + ":" + Escape(s.value)] else []
  }

  /** The fixed opening lines up to SUMMARY. */
  function HeadLines(e: IcsEvent, uid: string, iso: Instant -> string): (r: seq<string>)
    ensures |r| == 10
    ensures r[0] == "BEGIN:VCALENDAR" && r[5] == "BEGIN:VEVENT"
    ensures r[7] == "DTSTART:" + FormatIcsDate(iso(e.start))
    ensures r[8] == "DTEND:" + FormatIcsDate(iso(EndTime(e)))
    ensures r[9] == "SUMMARY:" + Escape(e.title)
  {
    ["BEGIN:VCALENDAR", "VERSION:2.0", "PRODID:-//Candidly Calendar//EN", "CALSCALE:GREGORIAN",
     "METHOD:PUBLISH", "BEGIN:VEVENT", "UID:" + uid,
     "DTSTART:" + FormatIcsDate(iso(e.start)),
     "DTEND:" + FormatIcsDate(iso(EndTime(e))),
     "SUMMARY:" + Escape(e.title)]
  }

  /** The closing lines from ORGANIZER on. */
  function TailLines(e: IcsEvent, now: Instant, iso: Instant -> string): (r: seq<string>)
    ensures |r| == 4
    ensures r[0] == "ORGANIZER;CN=" + Escape(e.organizerName) + ":mailto:" + e.organizerEmail
    ensures r[1] == "DTSTAMP:" + FormatIcsDate(iso(now))
    ensures r[2] == "END:VEVENT" && r[3] == "END:VCALENDAR"
  {
    ["ORGANIZER;CN=" + Escape(e.organizerName) + ":mailto:" + e.organizerEmail,
     "DTSTAMP:" + FormatIcsDate(iso(now)), "END:VEVENT", "END:VCALENDAR"]
  }

  /** The content lines, in order: the calendar wraps one event; the event
      starts with UID, DTSTART, DTEND and SUMMARY, then DESCRIPTION and
      LOCATION when they are non-empty, then ORGANIZER and DTSTAMP. `uid`
      and `now` stand for the generated UID and the DTSTAMP clock reading;
      `iso` is `toISOString`. */
  function IcsLines(e: IcsEvent, uid: string, now: Instant, iso: Instant -> string): (r: seq<string>)
    ensures |r| == 14 + (if Present(e.description) then 1 else 0) + (if Present(e.location) then 1 else 0)
    ensures r[0] == "BEGIN:VCALENDAR" && r[|r| - 1] == "END:VCALENDAR"
    ensures r[5] == "BEGIN:VEVENT" && r[|r| - 2] == "END:VEVENT"
    ensures r[7] == "DTSTART:" + FormatIcsDate(iso(e.start))
    ensures r[8] == "DTEND:" + FormatIcsDate(iso(EndTime(e)))
    ensures r[9] == "SUMMARY:" + Escape(e.title)
    ensures Present(e.description) ==> r[10] == "DESCRIPTION:" + Escape(e.description.value)
    ensures Present(e.location) ==>
      r[if Present(e.description) then 11 else 10] == "LOCATION:" + Escape(e.location.value)
    ensures r[|r| - 4] == "ORGANIZER;CN=" + Escape(e.organizerName) + ":mailto:" + e.organizerEmail
  {
    var h := HeadLines(e, uid, iso);
    var d := OptionalLine("DESCRIPTION", e.description);
    var l := OptionalLine("LOCATION", e.location);
    var t := TailLines(e, now, iso);
    FourParts(h, d, l, t);
    h + d + l + t
  }

  /** Where the lines of four consecutive parts sit in their concatenation. */
  lemma FourParts<T>(h: seq<T>, d: seq<T>, l: seq<T>, t: seq<T>)
    ensures |h + d + l + t| == |h| + |d| + |l| + |t|
    ensures forall k :: 0 <= k < |h| ==> (h + d + l + t)[k] == h[k]
    ensures forall k :: 0 <= k < |d| ==> (h + d + l + t)[|h| + k] == d[k]
    ensures forall k :: 0 <= k < |l| ==> (h + d + l + t)[|h| + |d| + k] == l[k]
    ensures forall k :: 0 <= k < |t| ==> (h + d + l + t)[|h| + |d| + |l| + k] == t[k]
  {
  }

  /** `generateICS`: the lines joined by CRLF. */
  function GenerateIcs(e: IcsEvent, uid: string, now: Instant, iso: Instant -> string): (r: string)
    ensures |r| > 17 && r[..17] == "BEGIN:VCALENDAR\r\n"
  {
    var lines := IcsLines(e, uid, now, iso);
    var rest := JoinWith(lines[1..], "\r\n");
    assert JoinWith(lines, "\r\n") == lines[0] + "\r\n" + rest;
    assert (lines[0] + "\r\n" + rest)[..17] == lines[0] + "\r\n";
    JoinWith(lines, "\r\n")
  }

  /** The lines with a carriage return after every one but the last. */
  function CrTerminated(lines: seq<string>): (r: seq<string>)
    ensures |r| == |lines|
    ensures forall k :: 0 <= k < |lines| ==> r[k] == if k < |lines| - 1 then lines[k] + "\r" else lines[k]
  {
    seq(|lines|, k requires 0 <= k < |lines| => if k < |lines| - 1 then lines[k] + "\r" else lines[k])
  }

  lemma {:induction false} CrlfJoin(lines: seq<string>)
    ensures JoinWith(lines, "\r\n") == JoinWith(CrTerminated(lines), "\n")
    decreases |lines|
  {
    if |lines| > 1 {
      CrlfJoin(lines[1..]);
      assert CrTerminated(lines)[1..] == CrTerminated(lines[1..]);
      assert lines[0] + "\r\n" + JoinWith(lines[1..], "\r\n") ==
        (lines[0] + "\r") + "\n" + JoinWith(CrTerminated(lines[1..]), "\n");
    }
  }

  lemma NoLineFeedConcat(a: string, b: string)
    requires '\n' !in a && '\n' !in b
    ensures '\n' !in a + b
  {
  }

  lemma HeadHasNoLineFeed(e: IcsEvent, uid: string, iso: Instant -> string)
    requires '\n' !in uid && '\n' !in iso(e.start) && '\n' !in iso(EndTime(e))
    ensures forall k :: 0 <= k < 10 ==> '\n' !in HeadLines(e, uid, iso)[k]
  {
    var h := HeadLines(e, uid, iso);
    forall k | 0 <= k < 10 ensures '\n' !in h[k] {
      if k == 6 { NoLineFeedConcat("UID:", uid); }
      else if k == 7 { NoLineFeedConcat("DTSTART:", FormatIcsDate(iso(e.start))); }
      else if k == 8 { NoLineFeedConcat("DTEND:", FormatIcsDate(iso(EndTime(e)))); }
      else if k == 9 { NoLineFeedConcat("SUMMARY:", Escape(e.title)); }
      else { FixedHeadLines(e, uid, iso, k); }
    }
  }

  lemma FixedHeadLines(e: IcsEvent, uid: string, iso: Instant -> string, k: nat)
    requires k < 6
    ensures '\n' !in HeadLines(e, uid, iso)[k]
  {
    var h := HeadLines(e, uid, iso);
    if k == 0 { assert h[k] == "BEGIN:VCALENDAR"; }
    else if k == 1 { assert h[k] == "VERSION:2.0"; }
    else if k == 2 { assert h[k] == "PRODID:-//Candidly Calendar//EN"; }
    else if k == 3 { assert h[k] == "CALSCALE:GREGORIAN"; }
    else if k == 4 { assert h[k] == "METHOD:PUBLISH"; }
    else { assert h[k] == "BEGIN:VEVENT"; }
  }

  lemma TailHasNoLineFeed(e: IcsEvent, now: Instant, iso: Instant -> string)
    requires '\n' !in e.organizerEmail && '\n' !in iso(now)
    ensures forall k :: 0 <= k < 4 ==> '\n' !in TailLines(e, now, iso)[k]
  {
    var who := "ORGANIZER;CN=" + Escape(e.organizerName);
    NoLineFeedConcat("ORGANIZER;CN=", Escape(e.organizerName));
    NoLineFeedConcat(who, ":mailto:");
    NoLineFeedConcat(who + ":mailto:", e.organizerEmail);
    NoLineFeedConcat("DTSTAMP:", FormatIcsDate(iso(now)));
  }

  lemma OptionalHasNoLineFeed(name: string, s: Option<string>)
    requires '\n' !in name + ":"
    ensures forall k :: 0 <= k < |OptionalLine(name, s)| ==> '\n' !in OptionalLine(name, s)[k]
  {
    if Present(s) {
      NoLineFeedConcat(name + ":", Escape(s.value));
    }
  }

  lemma LinesHaveNoLineFeed(e: IcsEvent, uid: string, now: Instant, iso: Instant -> string)
    requires '\n' !in uid && '\n' !in e.organizerEmail
    requires '\n' !in iso(e.start) && '\n' !in iso(EndTime(e)) && '\n' !in iso(now)
    ensures forall k :: 0 <= k < |IcsLines(e, uid, now, iso)| ==> '\n' !in IcsLines(e, uid, now, iso)[k]
  {
    var h := HeadLines(e, uid, iso);
    var t := TailLines(e, now, iso);
    var d := OptionalLine("DESCRIPTION", e.description);
    var l := OptionalLine("LOCATION", e.location);
    HeadHasNoLineFeed(e, uid, iso);
    TailHasNoLineFeed(e, now, iso);
    OptionalHasNoLineFeed("DESCRIPTION", e.description);
    OptionalHasNoLineFeed("LOCATION", e.location);
    var r := h + d + l + t;
    forall k | 0 <= k < |r| ensures '\n' !in r[k] {
      if k < 10 { assert r[k] == h[k]; }
      else if k < 10 + |d| { assert r[k] == d[k - 10]; }
      else if k < 10 + |d| + |l| { assert r[k] == l[k - 10 - |d|]; }
      else { assert r[k] == t[k - 10 - |d| - |l|]; }
    }
  }

  /** When the UID, the organizer e-mail and the ISO texts hold no newline,
      the document splits at its line feeds into exactly the content lines,
      each but the last ending in a carriage return: every line is delimited
      by CRLF (section 3.1 of RFC 5545). */
  lemma DocumentLines(e: IcsEvent, uid: string, now: Instant, iso: Instant -> string)
    requires '\n' !in uid && '\n' !in e.organizerEmail
    requires '\n' !in iso(e.start) && '\n' !in iso(EndTime(e)) && '\n' !in iso(now)
    ensures SplitOn(GenerateIcs(e, uid, now, iso), '\n') == CrTerminated(IcsLines(e, uid, now, iso))
  {
    var lines := IcsLines(e, uid, now, iso);
    CrlfJoin(lines);
    var cr := CrTerminated(lines);
    LinesHaveNoLineFeed(e, uid, now, iso);
    forall k | 0 <= k < |cr| ensures '\n' !in cr[k] {
      assert '\n' !in lines[k];
    }
    SplitJoin(cr, '\n');
  }
}

=== FILE: meeting_actions.dfy ===
/** The organizer's server actions on a meeting: `confirmMeeting`,
    `cancelMeeting` and `sendReminder`. The session is a parameter: `None`
    when nobody is signed in, otherwise the signed-in user's id. */
module MeetingActions {
  import opened Wrappers
  import opened Seqs
  import opened Tables
  import opened DisplayGrid
  import opened Store

  datatype ActionError = Unauthorized | NotAuthorized

  /** The guard both status actions share: a session, and a meeting whose
      creator is the signed-in user. The meeting's current status is not
      consulted. */
  function Authorize(db: Db, session: Option<nat>, meetingId: nat): (r: Result<Meeting, ActionError>)
    ensures r == Err(Unauthorized) <==> session.None?
    ensures r.Ok? ==> session.Some?
    ensures UniqueKeys(db.meetings, MeetingKey) && session.Some? ==>
      (r.Ok? <==> exists i :: 0 <= i < |db.meetings| &&
                    db.meetings[i].id == meetingId && db.meetings[i].creatorId == session.value)
    ensures r.Ok? ==> r.value in db.meetings && r.value.id == meetingId && r.value.creatorId == session.value
  {
    if session.None? then Err(Unauthorized)
    else
      var m := FindMeeting(db, meetingId);
      if m.None? || m.value.creatorId != session.value then Err(NotAuthorized)
      else Ok(m.value)
  }

  function SetConfirmed(t: Instant): Meeting -> Meeting {
    (m: Meeting) => m.(status := Confirmed, confirmedTime := Some(t))
  }

  function SetCancelled(): Meeting -> Meeting {
    (m: Meeting) => m.(status := Cancelled)
  }

  /** `confirmMeeting`: the meeting becomes CONFIRMED at `toInstant` of the
      chosen time, whatever its status was. */
  function Confirm(db: Db, session: Option<nat>, meetingId: nat, confirmedTime: string,
                   toInstant: string -> Instant): (r: Result<Db, ActionError>)
    ensures r.Err? <==> Authorize(db, session, meetingId).Err?
    ensures r.Err? ==> r.error == Authorize(db, session, meetingId).error
    ensures r.Ok? ==> r.value.(meetings := db.meetings) == db
    ensures r.Ok? ==> |r.value.meetings| == |db.meetings|
  {
    var a := Authorize(db, session, meetingId);
    if a.Err? then Err(a.error)
    else Ok(db.(meetings := Update(db.meetings, MeetingHasId(meetingId), SetConfirmed(toInstant(confirmedTime)))))
  }

  /** `cancelMeeting`: the meeting becomes CANCELLED, whatever its status was;
      the confirmed time is left as it is. */
  function Cancel(db: Db, session: Option<nat>, meetingId: nat): (r: Result<Db, ActionError>)
    ensures r.Err? <==> Authorize(db, session, meetingId).Err?
    ensures r.Err? ==> r.error == Authorize(db, session, meetingId).error
    ensures r.Ok? ==> r.value.(meetings := db.meetings) == db
    ensures r.Ok? ==> |r.value.meetings| == |db.meetings|
  {
    var a := Authorize(db, session, meetingId);
    if a.Err? then Err(a.error)
    else Ok(db.(meetings := Update(db.meetings, MeetingHasId(meetingId), SetCancelled())))
  }

  function PendingIn(meetingId: nat): Participant -> bool {
    (p: Participant) => p.meetingId == meetingId && p.status == Pending
  }

  /** The participants a reminder would go to. */
  function PendingOf(db: Db, meetingId: nat): (r: seq<Participant>)
    ensures forall p :: p in r <==> p in db.participants && p.meetingId == meetingId && p.status == Pending
  {
    Filter(db.participants, PendingIn(meetingId))
  }

  /** `sendReminder`: any signed-in user gets the number of PENDING
      participants of the meeting; nothing is written. */
  function SendReminder(db: Db, session: Option<nat>, meetingId: nat): (r: Result<nat, ActionError>)
    ensures r.Err? <==> session.None?
    ensures r.Err? ==> r.error == Unauthorized
    ensures r.Ok? ==> r.value == |PendingOf(db, meetingId)| && r.value <= |db.participants|
  {
    if session.None? then Err(Unauthorized)
    else Ok(|PendingOf(db, meetingId)|)
  }
}

=== FILE: meeting_card.dfy ===
/** The meeting card of the meetings page: the status badge, the duration
    pill, the participant count and the time shown. The status badge and the
    duration text are shared with the share page and the detail page. */
module MeetingCard {
  import opened Wrappers
  import opened Strings
  import opened Store

  /** The badge styles of the status badge component. */
  datatype BadgeVariant = CreatorBadge | ConfirmedBadge | PendingBadge | GuestBadge | RespondedBadge | UnavailableBadge

  /** The text the database stores for a meeting status. */
  function MeetingStatusName(s: MeetingStatus): string {
    match s
    case MeetingPending => "PENDING"
    case Confirmed => "CONFIRMED"
    case Cancelled => "CANCELLED"
  }

  /** `getMeetingStatusVariant`: any status text but the two final ones
      shows as pending. */
  function MeetingStatusVariant(status: string): (r: BadgeVariant)
    ensures r in {ConfirmedBadge, PendingBadge, UnavailableBadge}
    ensures r == ConfirmedBadge <==> status == "CONFIRMED"
    ensures r == UnavailableBadge <==> status == "CANCELLED"
  {
    if status == "CONFIRMED" then ConfirmedBadge
    else if status == "CANCELLED" then UnavailableBadge
    else PendingBadge
  }

  /** `getMeetingStatusLabel`. */
  function MeetingStatusLabel(status: string): (r: string)
    ensures r in {"Confirmed", "Cancelled", "Pending"}
  {
    if status == "CONFIRMED" then "Confirmed"
    else if status == "CANCELLED" then "Cancelled"
    else "Pending"
  }

  /** Label and badge always tell the same story, and the three stored
      statuses get three different badges. */
  lemma LabelMatchesVariant(status: string)
    ensures MeetingStatusLabel(status) == "Confirmed" <==> MeetingStatusVariant(status) == ConfirmedBadge
    ensures MeetingStatusLabel(status) == "Cancelled" <==> MeetingStatusVariant(status) == UnavailableBadge
    ensures MeetingStatusLabel(status) == "Pending" <==> MeetingStatusVariant(status) == PendingBadge
  {
  }

  lemma StoredStatusesDistinguished(a: MeetingStatus, b: MeetingStatus)
    requires a != b
    ensures MeetingStatusVariant(MeetingStatusName(a)) != MeetingStatusVariant(MeetingStatusName(b))
    ensures MeetingStatusLabel(MeetingStatusName(a)) != MeetingStatusLabel(MeetingStatusName(b))
  {
  }

  // ---------------------------------------------------------------------
  // Durations

  /** `formatDuration`: minutes under an hour as `{m}m`, otherwise whole
      hours as `{h}h`, with ` {m}m` added when minutes are left over. */
  function FormatDuration(minutes: nat): (r: string)
    ensures |r| >= 2
    ensures r[|r| - 1] == (if minutes >= 60 && minutes % 60 == 0 then 'h' else 'm')
  {
    if minutes < 60 then NatToString(minutes) + "m"
    else
      var h := minutes / 60;
      var m := minutes % 60;
      if m != 0 then NatToString(h) + "h " + NatToString(m) + "m" else NatToString(h) + "h"
  }

  /** Reads a `{m}m` text back. */
  function ReadMinutes(t: string): Option<nat> {
    if |t| >= 2 && t[|t| - 1] == 'm' && AllDigits(t[..|t| - 1]) then Some(ParseDigits(t[..|t| - 1])) else None
  }

  /** Reads a duration text back: `{m}m`, `{h}h` or `{h}h {m}m`. */
  function ReadDuration(t: string): Option<nat> {
    var i := IndexOf(t, 'h');
    if i == |t| then ReadMinutes(t)
    else if i == 0 || !AllDigits(t[..i]) then None
    else ReadAfterH(ParseDigits(t[..i]), t[i + 1..])
  }

  /** What may follow the `h`: nothing, or a space and `{m}m`. */
  function ReadAfterH(hours: nat, rest: string): Option<nat> {
    if rest == "" then Some(hours * 60)
    else if rest[0] == ' ' && ReadMinutes(rest[1..]).Some? then Some(hours * 60 + ReadMinutes(rest[1..]).value)
    else None
  }

  /** A digit string followed by `tail` has its first `h` in `tail`. */
  lemma IndexAfterDigits(d: string, tail: string)
    requires AllDigits(d)
    ensures IndexOf(d + tail, 'h') == |d| + IndexOf(tail, 'h')
    decreases |d|
  {
    if |d| > 0 {
      assert (d + tail)[0] == d[0] && d[0] != 'h';
      assert (d + tail)[1..] == d[1..] + tail;
      IndexAfterDigits(d[1..], tail);
    } else {
      assert d + tail == tail;
    }
  }

  lemma ReadMinutesText(d: string)
    requires |d| >= 1 && AllDigits(d)
    ensures ReadMinutes(d + "m") == Some(ParseDigits(d))
  {
    var t := d + "m";
    assert t[..|t| - 1] == d;
  }

  lemma ReadOnlyMinutesText(d: string)
    requires |d| >= 1 && AllDigits(d)
    ensures ReadDuration(d + "m") == Some(ParseDigits(d))
  {
    IndexAfterDigits(d, "m");
    ReadMinutesText(d);
  }

  lemma ReadHoursText(d: string)
    requires |d| >= 1 && AllDigits(d)
    ensures ReadDuration(d + "h") == Some(ParseDigits(d) * 60)
  {
    assert d + "h" == d + ("h" + "");
    ReadDurationAt(d + "h", d, "");
  }

  /** The hours branch of `ReadDuration`: digits, an `h`, then `rest`. */
  lemma ReadDurationAt(t: string, d: string, rest: string)
    requires |d| >= 1 && AllDigits(d) && t == d + ("h" + rest)
    ensures ReadDuration(t) == ReadAfterH(ParseDigits(d), rest)
  {
    IndexAfterDigits(d, "h" + rest);
    assert IndexOf("h" + rest, 'h') == 0;
    assert t[..|d|] == d;
    assert t[|d| + 1..] == rest;
  }

  lemma ReadAfterSpace(hours: nat, e: string, minutes: nat)
    requires |e| >= 1 && AllDigits(e) && ParseDigits(e) == minutes
    ensures ReadAfterH(hours, " " + e + "m") == Some(hours * 60 + minutes)
  {
    var rest := " " + e + "m";
    assert rest[1..] == e + "m";
    ReadMinutesText(e);
  }

  lemma ReadHoursMinutesText(d: string, e: string, hours: nat, minutes: nat)
    requires |d| >= 1 && AllDigits(d) && ParseDigits(d) == hours
    requires |e| >= 1 && AllDigits(e) && ParseDigits(e) == minutes
    ensures ReadDuration(d + "h " + e + "m") == Some(hours * 60 + minutes)
  {
    var rest := " " + e + "m";
    var t := d + "h " + e + "m";
    assert t == d + ("h" + rest);
    ReadDurationAt(t, d, rest);
    ReadAfterSpace(hours, e, minutes);
  }

  /** Every duration text reads back as the minutes it was made from. */
  lemma ReadFormatted(minutes: nat)
    ensures ReadDuration(FormatDuration(minutes)) == Some(minutes)
  {
    if minutes < 60 {
      ReadOnlyMinutesText(NatToString(minutes));
    } else {
      var h := minutes / 60;
      var m := minutes % 60;
      assert h * 60 + m == minutes;
      if m != 0 {
        ReadHoursMinutesText(NatToString(h), NatToString(m), h, m);
      } else {
        ReadHoursText(NatToString(h));
      }
    }
  }

  /** Different durations never print alike. */
  lemma FormatDurationInjective(a: nat, b: nat)
    requires FormatDuration(a) == FormatDuration(b)
    ensures a == b
  {
    ReadFormatted(a);
    ReadFormatted(b);
  }

  lemma FormatDurationExamples()
    ensures FormatDuration(45) == "45m"
    ensures FormatDuration(90) == "1h 30m"
    ensures FormatDuration(120) == "2h"
  {
    assert NatToString(4) == "4" && NatToString(1) == "1" && NatToString(3) == "3" && NatToString(2) == "2";
    assert NatToString(45) == "45";
    assert NatToString(30) == "30";
  }

  // ---------------------------------------------------------------------
  // The rest of the card

  /** `confirmedTime ?? proposedTime`: the confirmed time whenever there is
      one, even an empty text. */
  function CardDisplayTime(confirmedTime: Option<string>, proposedTime: Option<string>): (r: Option<string>)
    ensures confirmedTime.Some? ==> r == confirmedTime
    ensures confirmedTime.None? ==> r == proposedTime
  {
    if confirmedTime.Some? then confirmedTime else proposedTime
  }

  /** `{n} participant{n !== 1 ? 's' : ''}`. */
  function ParticipantCountText(n: nat): (r: string)
    ensures |r| > 0 && (r[|r| - 1] == 's' <==> n != 1)
  {
    NatToString(n) + " participant" + (if n != 1 then "s" else "")
  }

  lemma ParticipantCountReads(n: nat)
    ensures var r := ParticipantCountText(n); var d := NatToString(n);
      r[..|d|] == d && ParseDigits(r[..|d|]) == n && r[|d|] == ' '
  {
    var r := ParticipantCountText(n);
    var d := NatToString(n);
    assert r == d + (" participant" + (if n != 1 then "s" else ""));
  }
}

=== FILE: meeting_detail.dfy ===
/** The creator's detail page of a meeting: the responded and pending
    counts, the participant table, the confirm dialog and the action
    buttons. */
module MeetingDetail {
  import opened Wrappers
  import opened Seqs
  import opened Tables
  import opened Strings
  import opened DisplayGrid
  import opened Store
  import opened MeetingActions
  import opened MeetingProperties
  import opened MeetingCard
  import opened ParticipantList
  import opened MeetingShareView

  // ---------------------------------------------------------------------
  // Counts

  function HasResponded(): Participant -> bool {
    (p: Participant) => p.status == Responded || p.status == Available
  }

  function IsPending(): Participant -> bool {
    (p: Participant) => p.status == Pending
  }

  /** `respondedCount`: participants that answered RESPONDED or AVAILABLE. */
  function RespondedCount(participants: seq<Participant>): (r: nat)
    ensures r <= |participants|
    ensures r == 0 <==> forall i :: 0 <= i < |participants| ==>
      participants[i].status != Responded && participants[i].status != Available
  {
    var r := Filter(participants, HasResponded());
    assert forall i :: 0 <= i < |participants| && HasResponded()(participants[i]) ==> participants[i] in r;
    assert |r| > 0 ==> r[0] in r;
    |r|
  }

  /** `pendingCount`: participants still PENDING. */
  function PendingCount(participants: seq<Participant>): (r: nat)
    ensures r <= |participants|
    ensures r == 0 <==> forall i :: 0 <= i < |participants| ==> participants[i].status != Pending
  {
    var r := Filter(participants, IsPending());
    assert forall i :: 0 <= i < |participants| && IsPending()(participants[i]) ==> participants[i] in r;
    assert |r| > 0 ==> r[0] in r;
    |r|
  }

  /** No participant is counted twice: the two counts together never
      exceed the participant list, and they fill it exactly when nobody
      answered UNAVAILABLE. */
  lemma {:induction false} CountsDisjoint(participants: seq<Participant>)
    ensures RespondedCount(participants) + PendingCount(participants) <= |participants|
    ensures (forall i :: 0 <= i < |participants| ==> participants[i].status != Unavailable) <==>
      RespondedCount(participants) + PendingCount(participants) == |participants|
    decreases |participants|
  {
    if |participants| > 0 {
      var rest := participants[1..];
      CountsDisjoint(rest);
      assert forall i :: 1 <= i < |participants| ==> participants[i] == rest[i - 1];
      if (forall i :: 0 <= i < |participants| ==> participants[i].status != Unavailable) {
        assert forall i :: 0 <= i < |rest| ==> rest[i].status != Unavailable by {
          forall i | 0 <= i < |rest| ensures rest[i].status != Unavailable {
            assert rest[i] == participants[i + 1];
          }
        }
      } else if participants[0].status != Unavailable {
        var i :| 0 <= i < |participants| && participants[i].status == Unavailable;
        assert rest[i - 1].status == Unavailable;
      }
    }
  }

  /** The pending count the page shows is the number of people a reminder
      reaches. */
  lemma PendingCountIsReminderCount(db: Db, session: Option<nat>, meetingId: nat)
    requires session.Some?
    ensures SendReminder(db, session, meetingId) == Ok(PendingCount(MeetingParticipants(db, meetingId)))
  {
    FilterBoth(db.participants, InMeeting(meetingId), IsPending(), PendingIn(meetingId));
  }

  // ---------------------------------------------------------------------
  // The participant table

  /** The row variant uses the same precedence as the chips. */
  function RowVariant(p: Participant, creatorId: nat): (r: BadgeVariant)
    ensures r == ParticipantVariant(p, creatorId)
  {
    var isCreatorParticipant := p.userId == Some(creatorId);
    var status := ParticipantStatusName(p.status);
    if isCreatorParticipant then CreatorBadge
    else if p.isGuest then GuestBadge
    else if status == "RESPONDED" || status == "AVAILABLE" then RespondedBadge
    else if status == "UNAVAILABLE" then UnavailableBadge
    else PendingBadge
  }

  /** A registered row is counted as responded exactly when its badge says
      so, and as pending exactly when its badge says pending. */
  lemma RowBadgeMatchesCounts(p: Participant, creatorId: nat)
    requires p.userId != Some(creatorId) && !p.isGuest
    ensures HasResponded()(p) <==> RowVariant(p, creatorId) == RespondedBadge
    ensures IsPending()(p) <==> RowVariant(p, creatorId) == PendingBadge
  {
  }

  /** `replace('_', ' ')` on a string: only the first `a` is replaced. */
  function ReplaceFirst(s: string, a: char, b: char): (r: string)
    ensures |r| == |s|
    ensures a !in s ==> r == s
    ensures a in s ==> r[IndexOf(s, a)] == b
    ensures forall i :: 0 <= i < |s| && i != IndexOf(s, a) ==> r[i] == s[i]
  {
    var i := IndexOf(s, a);
    if i == |s| then s else s[..i] + [b] + s[i + 1..]
  }

  /** The table's badge text: the chip's text, since no stored status has
      an underscore to replace. */
  function RowBadgeText(p: Participant, creatorId: nat): (r: string)
    ensures r == BadgeText(p, creatorId)
  {
    var status := ParticipantStatusName(p.status);
    assert '_' !in Lower(status) by {
      forall i | 0 <= i < |status| ensures Lower(status)[i] != '_' {
        assert status[i] != '_';
      }
    }
    if p.userId == Some(creatorId) then "Creator"
    else if p.isGuest then "Guest"
    else ReplaceFirst(Lower(status), '_', ' ')
  }

  /** The table's avatar: a crown for the creator, otherwise only the first
      character of the name, upper-cased. */
  function RowAvatar(p: Participant, creatorId: nat, name: string): (r: Avatar)
    ensures r.Crown? <==> RowVariant(p, creatorId) == CreatorBadge
    ensures r.Letters? ==> |r.text| <= 1
    ensures r.Letters? ==> r.text == (if name == "" then "" else [UpperChar(name[0])])
  {
    if p.userId == Some(creatorId) then Crown
    else Letters(if name == "" then "" else [UpperChar(name[0])])
  }

  /** When the name does not start with a space, the table's letter is the
      first of the chip's initials. */
  lemma RowAvatarStartsInitials(p: Participant, creatorId: nat, name: string)
    requires p.userId != Some(creatorId)
    requires name != "" && name[0] != ' '
    ensures RowAvatar(p, creatorId, name) == Letters(Initials(name)[..1])
  {
    FirstWordStartsName(name);
  }

  // ---------------------------------------------------------------------
  // Confirming and the action buttons

  /** What pressing Confirm does: nothing without a chosen time, otherwise
      the `confirmMeeting` action. */
  datatype ConfirmOutcome = NothingSent | Sent(result: Result<Db, ActionError>)

  function HandleConfirm(db: Db, session: Option<nat>, meetingId: nat, selectedTime: Option<string>,
                         toInstant: string -> Instant): (r: ConfirmOutcome)
    ensures r.NothingSent? <==> !Truthy(selectedTime)
    ensures r.Sent? ==> (r.result.Err? <==> Authorize(db, session, meetingId).Err?)
    ensures r.Sent? && r.result.Ok? ==> |r.result.value.meetings| == |db.meetings|
    ensures r.Sent? && r.result.Ok? ==>
      forall i :: 0 <= i < |db.meetings| && db.meetings[i].id == meetingId ==>
        r.result.value.meetings[i].status == Confirmed &&
        r.result.value.meetings[i].confirmedTime == Some(toInstant(selectedTime.value))
  {
    if !Truthy(selectedTime) then NothingSent
    else
      var result := Confirm(db, session, meetingId, selectedTime.value, toInstant);
      if result.Ok? then
        ConfirmEffect(db, session, meetingId, selectedTime.value, toInstant);
        Sent(result)
      else Sent(result)
  }

  /** The dialog's Confirm button. */
  function ConfirmDisabled(selectedTime: Option<string>, loading: bool): (r: bool)
    ensures !Truthy(selectedTime) ==> r
    ensures loading ==> r
  {
    !Truthy(selectedTime) || loading
  }

  /** An enabled Confirm button always reaches the server action. */
  lemma EnabledConfirmSends(db: Db, session: Option<nat>, meetingId: nat, selectedTime: Option<string>,
                            loading: bool, toInstant: string -> Instant)
    requires !ConfirmDisabled(selectedTime, loading)
    ensures HandleConfirm(db, session, meetingId, selectedTime, toInstant).Sent?
  {
  }

  /** Confirm, reminder, share and cancel show for the creator of a
      pending meeting only. */
  function ActionsShown(isCreator: bool, status: string): (r: bool)
    ensures r <==> isCreator && status == "PENDING"
  {
    isCreator && status == "PENDING"
  }

  /** The "Download .ics" link as written: it asks for CONFIRMED inside the
      block that only renders for PENDING. */
  function IcsLinkShownAsWritten(isCreator: bool, status: string): (r: bool)
    ensures !r
  {
    ActionsShown(isCreator, status) && status == "CONFIRMED"
  }

  /** The link as evidently intended: for the creator of a confirmed
      meeting. */
  function IcsLinkShown(isCreator: bool, status: string): (r: bool)
    ensures r <==> isCreator && status == "CONFIRMED"
    ensures r ==> !ActionsShown(isCreator, status)
  {
    isCreator && status == "CONFIRMED"
  }

  /** After the creator confirms a meeting, the corrected page offers the
      calendar file and the page as written does not. */
  lemma ConfirmedMeetingOffersIcs(db: Db, session: Option<nat>, meetingId: nat, t: string, toInstant: string -> Instant)
    requires UniqueKeys(db.meetings, MeetingKey)
    requires Confirm(db, session, meetingId, t, toInstant).Ok?
    ensures var after := Confirm(db, session, meetingId, t, toInstant).value;
      forall i :: 0 <= i < |after.meetings| && after.meetings[i].id == meetingId ==>
        var status := MeetingStatusName(after.meetings[i].status);
        IcsLinkShown(session == Some(after.meetings[i].creatorId), status) &&
        !IcsLinkShownAsWritten(session == Some(after.meetings[i].creatorId), status)
  {
    var after := Confirm(db, session, meetingId, t, toInstant).value;
    ConfirmEffect(db, session, meetingId, t, toInstant);
    var m := Authorize(db, session, meetingId).value;
    forall i | 0 <= i < |after.meetings| && after.meetings[i].id == meetingId
      ensures session == Some(after.meetings[i].creatorId)
      ensures MeetingStatusName(after.meetings[i].status) == "CONFIRMED"
    {
      assert db.meetings[i].id == meetingId;
      assert db.meetings[i] == m;
    }
  }
}

=== FILE: meeting_properties.dfy ===
/** What the organizer actions do to the meeting table, and how a submission
    changes the set of participants a reminder would reach. */
module MeetingProperties {
  import opened Wrappers
  import opened Seqs
  import opened Tables
  import opened DisplayGrid
  import opened Validators
  import opened Store
  import opened AvailabilityAction
  import opened MeetingActions

  /** A successful confirmation sets status and time on the meeting with the
      given id and leaves every other meeting as it was. */
  lemma ConfirmEffect(db: Db, session: Option<nat>, meetingId: nat, confirmedTime: string, toInstant: string -> Instant)
    requires Confirm(db, session, meetingId, confirmedTime, toInstant).Ok?
    ensures var ms := Confirm(db, session, meetingId, confirmedTime, toInstant).value.meetings;
      forall i :: 0 <= i < |ms| ==>
        if db.meetings[i].id == meetingId then
          ms[i].status == Confirmed && ms[i].confirmedTime == Some(toInstant(confirmedTime)) &&
          ms[i].(status := db.meetings[i].status, confirmedTime := db.meetings[i].confirmedTime) == db.meetings[i]
        else ms[i] == db.meetings[i]
  {
  }

  /** A successful cancellation sets the status of the meeting with the given
      id and nothing else, so a confirmed time survives it. */
  lemma CancelEffect(db: Db, session: Option<nat>, meetingId: nat)
    requires Cancel(db, session, meetingId).Ok?
    ensures var ms := Cancel(db, session, meetingId).value.meetings;
      forall i :: 0 <= i < |ms| ==>
        if db.meetings[i].id == meetingId then
          ms[i] == db.meetings[i].(status := Cancelled)
        else ms[i] == db.meetings[i]
  {
  }

  /** Both actions keep the key constraints. */
  lemma StatusActionsKeepValid(db: Db, session: Option<nat>, meetingId: nat, confirmedTime: string, toInstant: string -> Instant)
    requires Valid(db)
    ensures var r := Confirm(db, session, meetingId, confirmedTime, toInstant); r.Ok? ==> Valid(r.value)
    ensures var r := Cancel(db, session, meetingId); r.Ok? ==> Valid(r.value)
  {
    UpdateUniqueKeys(db.meetings, MeetingHasId(meetingId), SetConfirmed(toInstant(confirmedTime)), MeetingKey);
    UpdateUniqueKeys(db.meetings, MeetingHasId(meetingId), SetCancelled(), MeetingKey);
  }

  /** The organizer may confirm a meeting that is already cancelled, and the
      cancellation of a confirmed meeting keeps its confirmed time: the
      actions check who calls, never the current status. */
  lemma StatusIsNeverChecked(m: Meeting, t: string, toInstant: string -> Instant)
    ensures var db := Db([], [m.(status := Cancelled)], [], [], [], m.id + 1);
      var r := Confirm(db, Some(m.creatorId), m.id, t, toInstant);
      r.Ok? && r.value.meetings[0].status == Confirmed
    ensures var db := Db([], [m.(status := Confirmed, confirmedTime := Some(toInstant(t)))], [], [], [], m.id + 1);
      var r := Cancel(db, Some(m.creatorId), m.id);
      r.Ok? && r.value.meetings[0].status == Cancelled && r.value.meetings[0].confirmedTime == Some(toInstant(t))
  {
    var db1 := Db([], [m.(status := Cancelled)], [], [], [], m.id + 1);
    assert UniqueKeys(db1.meetings, MeetingKey);
    assert db1.meetings[0].id == m.id && db1.meetings[0].creatorId == m.creatorId;
    var db2 := Db([], [m.(status := Confirmed, confirmedTime := Some(toInstant(t)))], [], [], [], m.id + 1);
    assert UniqueKeys(db2.meetings, MeetingKey);
    assert db2.meetings[0].id == m.id && db2.meetings[0].creatorId == m.creatorId;
  }

  /** Confirming twice at the same time is confirming once. */
  lemma ConfirmTwice(db: Db, session: Option<nat>, meetingId: nat, confirmedTime: string, toInstant: string -> Instant)
    requires Confirm(db, session, meetingId, confirmedTime, toInstant).Ok?
    ensures var once := Confirm(db, session, meetingId, confirmedTime, toInstant).value;
      Confirm(once, session, meetingId, confirmedTime, toInstant) == Ok(once)
  {
    var once := Confirm(db, session, meetingId, confirmedTime, toInstant).value;
    var f := SetConfirmed(toInstant(confirmedTime));
    var k := FindFirst(db.meetings, MeetingHasId(meetingId)).value;
    FindFirstAgree(db.meetings, MeetingHasId(meetingId), once.meetings, MeetingHasId(meetingId));
    assert once.meetings[k] == f(db.meetings[k]);
    assert Authorize(once, session, meetingId).Ok?;
    var again := Update(once.meetings, MeetingHasId(meetingId), f);
    assert again == once.meetings by {
      forall i | 0 <= i < |again| ensures again[i] == once.meetings[i] {
        if once.meetings[i].id == meetingId {
          assert once.meetings[i] == f(db.meetings[i]);
        }
      }
    }
  }

  function PendingOtherThan(meetingId: nat, pid: nat): Participant -> bool {
    (x: Participant) => x.meetingId == meetingId && x.status == Pending && x.id != pid
  }

  /** After a participant submits, the reminder list of any meeting is the
      old list without that participant. */
  lemma SubmissionLeavesReminderList(db: Db, p: Participant, input: SubmitInput, toInstant: string -> Instant,
                                     now: Instant, meetingId: nat)
    ensures PendingOf(Apply(db, p, input, toInstant, now), meetingId) ==
      Filter(PendingOf(db, meetingId), PendingOtherThan(meetingId, p.id))
  {
    FilterAfterUpdate(db.participants, HasId(p.id), MarkResponded(input.timezone, now),
                      PendingIn(meetingId), PendingOtherThan(meetingId, p.id));
    FilterFilter(db.participants, PendingIn(meetingId), PendingOtherThan(meetingId, p.id));
  }

  /** A pending participant's submission lowers the reminder count of its
      meeting; a submission by someone not pending there leaves it as is. */
  lemma SubmissionReminderCount(db: Db, p: Participant, input: SubmitInput, toInstant: string -> Instant,
                                now: Instant, meetingId: nat)
    ensures var after := PendingOf(Apply(db, p, input, toInstant, now), meetingId);
      && (p in db.participants && p.meetingId == meetingId && p.status == Pending ==>
            |after| < |PendingOf(db, meetingId)|)
      && ((forall x :: x in PendingOf(db, meetingId) ==> x.id != p.id) ==>
            after == PendingOf(db, meetingId))
  {
    var before := PendingOf(db, meetingId);
    SubmissionLeavesReminderList(db, p, input, toInstant, now, meetingId);
    if p in db.participants && p.meetingId == meetingId && p.status == Pending {
      FilterShrinks(before, PendingOtherThan(meetingId, p.id), p);
    }
    if forall x :: x in before ==> x.id != p.id {
      FilterAll(before, PendingOtherThan(meetingId, p.id));
    }
  }
}

=== FILE: meeting_share_view.dfy ===
/** The public share page of a meeting: the duration and time it shows,
    whether the visitor already takes part (as a signed-in user or through
    a guest token kept in the browser), the guest panel, and the response
    buttons of a fixed-time meeting. */
module MeetingShareView {
  import opened Wrappers
  import opened Seqs
  import opened Tables
  import opened Strings
  import opened Validators
  import opened Store
  import opened GuestAction
  import opened MeetingCard

  // ---------------------------------------------------------------------
  // Duration and time

  /** The page's own `formatDuration`: it tests `m > 0` where the card tests
      `m !== 0`, which is the same test on whole minutes. */
  function ShareFormatDuration(minutes: nat): (r: string)
    ensures r == FormatDuration(minutes)
    ensures ReadDuration(r) == Some(minutes)
  {
    ReadFormatted(minutes);
    if minutes < 60 then NatToString(minutes) + "m"
    else
      var h := minutes / 60;
      var m := minutes % 60;
      if m > 0 then NatToString(h) + "h " + NatToString(m) + "m" else NatToString(h) + "h"
  }

  /** A JavaScript string value is truthy when it is present and not empty. */
  predicate Truthy(t: Option<string>) {
    t.Some? && t.value != ""
  }

  /** `confirmedTime || proposedTime`: an empty confirmed time falls through
      to the proposed one, unlike the card's `??`. */
  function ShareDisplayTime(confirmedTime: Option<string>, proposedTime: Option<string>): (r: Option<string>)
    ensures Truthy(confirmedTime) ==> r == confirmedTime
    ensures !Truthy(confirmedTime) ==> r == proposedTime
  {
    if Truthy(confirmedTime) then confirmedTime else proposedTime
  }

  /** The page and the card show the same time unless the confirmed time is
      the empty text, and then they differ whenever a proposed time exists. */
  lemma DisplayTimesAgree(confirmedTime: Option<string>, proposedTime: Option<string>)
    ensures confirmedTime != Some("") ==>
      ShareDisplayTime(confirmedTime, proposedTime) == CardDisplayTime(confirmedTime, proposedTime)
    ensures confirmedTime == Some("") && proposedTime != Some("") ==>
      ShareDisplayTime(confirmedTime, proposedTime) != CardDisplayTime(confirmedTime, proposedTime)
  {
  }

  // ---------------------------------------------------------------------
  // Who is looking

  function HasUser(userId: nat): Participant -> bool {
    (p: Participant) => p.userId == Some(userId)
  }

  /** `isLoggedInParticipant`: a signed-in visitor whose user id some
      participant of the meeting carries. */
  function IsLoggedInParticipant(sessionUser: Option<nat>, participants: seq<Participant>): (r: bool)
    ensures r <==> sessionUser.Some? && exists i :: 0 <= i < |participants| && participants[i].userId == sessionUser
  {
    sessionUser.Some? && FindFirst(participants, HasUser(sessionUser.value)).Some?
  }

  /** What the page remembers about a guest: the token read from the
      browser or returned by the join, and the participant found for it. */
  datatype GuestState = GuestState(guestToken: Option<nat>, guestParticipant: Option<Participant>)

  /** `isAlreadyParticipant`: signed in as a participant, or holding a guest
      token, whether or not a participant carries that token. */
  function IsAlreadyParticipant(sessionUser: Option<nat>, participants: seq<Participant>, s: GuestState): (r: bool)
    ensures s.guestToken.Some? ==> r
    ensures IsLoggedInParticipant(sessionUser, participants) ==> r
    ensures r && s.guestToken.None? ==> exists i :: 0 <= i < |participants| && participants[i].userId == sessionUser
    ensures sessionUser.None? ==> (r <==> s.guestToken.Some?)
  {
    IsLoggedInParticipant(sessionUser, participants) || s.guestToken.Some?
  }

  function HasToken(token: nat): Participant -> bool {
    (p: Participant) => p.guestToken == token
  }

  /** The first participant, in list order, that `p` accepts. */
  function FindParticipant(participants: seq<Participant>, p: Participant -> bool): (r: Option<Participant>)
    ensures r.Some? ==> r.value in participants && p(r.value)
    ensures r.None? ==> forall i :: 0 <= i < |participants| ==> !p(participants[i])
  {
    var k := FindFirst(participants, p);
    if k.Some? then Some(participants[k.value]) else None
  }

  /** The mount effect: a token stored in the browser is kept, and the
      participant carrying it is looked up. Nothing stored leaves the page
      without a guest. */
  function Restore(stored: Option<nat>, participants: seq<Participant>): (r: GuestState)
    ensures r.guestToken == stored
    ensures stored.None? ==> r.guestParticipant.None?
    ensures r.guestParticipant.Some? ==> r.guestParticipant.value in participants && Some(r.guestParticipant.value.guestToken) == stored
    ensures stored.Some? && (exists i :: 0 <= i < |participants| && participants[i].guestToken == stored.value) ==> r.guestParticipant.Some?
  {
    if stored.None? then GuestState(None, None)
    else GuestState(stored, FindParticipant(participants, HasToken(stored.value)))
  }

  function IsJoined(token: nat, participantId: nat): Participant -> bool {
    (p: Participant) => p.id == participantId || p.guestToken == token
  }

  /** `handleJoined`: the returned token is kept; the guest participant is
      replaced only when one carries the new id or token. */
  function HandleJoined(s: GuestState, token: nat, participantId: nat, participants: seq<Participant>): (r: GuestState)
    ensures r.guestToken == Some(token)
    ensures r.guestParticipant.Some? && r.guestParticipant != s.guestParticipant ==>
      r.guestParticipant.value in participants &&
      (r.guestParticipant.value.id == participantId || r.guestParticipant.value.guestToken == token)
    ensures (forall i :: 0 <= i < |participants| ==> !IsJoined(token, participantId)(participants[i])) ==>
      r.guestParticipant == s.guestParticipant
  {
    var found := FindParticipant(participants, IsJoined(token, participantId));
    GuestState(Some(token), if found.Some? then found else s.guestParticipant)
  }

  function InMeeting(meetingId: nat): Participant -> bool {
    (p: Participant) => p.meetingId == meetingId
  }

  /** The participant list the page is given for a meeting. */
  function MeetingParticipants(db: Db, meetingId: nat): seq<Participant> {
    Filter(db.participants, InMeeting(meetingId))
  }

  /** Appending `x` after rows `p` rejects makes `x` the first match. */
  lemma FindAfterMisses(s: seq<Participant>, x: Participant, p: Participant -> bool)
    requires forall i :: 0 <= i < |s| ==> !p(s[i])
    requires p(x)
    ensures FindParticipant(s + [x], p) == Some(x)
  {
    assert (s + [x])[|s|] == x;
  }

  /** After a guest joins, the page reloaded with the stored token finds
      the new participant. `handleJoined`, however, runs with the list the
      page rendered before the join: it keeps the new token but finds no
      participant, so the guest is only found once the mount effect runs
      again with the new list. */
  lemma JoinThenRestore(db: Db, meetingId: nat, input: GuestJoinInput, fmt: Formats)
    requires Valid(db)
    requires JoinAsGuest(db, meetingId, input, fmt).Ok?
    requires JoinAsGuest(db, meetingId, input, fmt).value.1.Joined?
    ensures var (after, reply) := JoinAsGuest(db, meetingId, input, fmt).value;
      var newcomer := after.participants[|after.participants| - 1];
      && newcomer.id == reply.participantId && newcomer.guestToken == reply.guestToken
      && Restore(Some(reply.guestToken), MeetingParticipants(after, meetingId)) ==
           GuestState(Some(reply.guestToken), Some(newcomer))
      && HandleJoined(GuestState(None, None), reply.guestToken, reply.participantId, MeetingParticipants(db, meetingId)) ==
           GuestState(Some(reply.guestToken), None)
  {
    var (after, reply) := JoinAsGuest(db, meetingId, input, fmt).value;
    var newcomer := after.participants[|after.participants| - 1];
    assert after.participants == db.participants + [newcomer];
    FilterConcat(db.participants, [newcomer], InMeeting(meetingId));
    var before := Filter(db.participants, InMeeting(meetingId));
    assert Filter([newcomer], InMeeting(meetingId)) == [newcomer] by {
      assert [newcomer][1..] == [];
    }
    assert MeetingParticipants(after, meetingId) == before + [newcomer];
    forall i | 0 <= i < |before|
      ensures !HasToken(reply.guestToken)(before[i]) && !IsJoined(reply.guestToken, reply.participantId)(before[i])
    {
      assert before[i] in db.participants;
    }
    FindAfterMisses(before, newcomer, HasToken(reply.guestToken));
  }

  // ---------------------------------------------------------------------
  // What the page shows

  /** The panel below the participant list, which the creator never sees. */
  datatype GuestPanel = NoPanel | WelcomeBack(name: Option<string>) | JoinPrompt | ParticipantNote

  function Panel(isCreator: bool, s: GuestState, isAlready: bool): (r: GuestPanel)
    ensures r.NoPanel? <==> isCreator
    ensures r.WelcomeBack? <==> !isCreator && s.guestParticipant.Some?
    ensures r.JoinPrompt? <==> !isCreator && s.guestParticipant.None? && !isAlready
    ensures r.WelcomeBack? ==> r.name == s.guestParticipant.value.guestName
  {
    if isCreator then NoPanel
    else if s.guestParticipant.Some? then WelcomeBack(s.guestParticipant.value.guestName)
    else if !isAlready then JoinPrompt
    else ParticipantNote
  }

  /** A visitor with a stored token is never invited to join again. */
  lemma StoredTokenNoPrompt(sessionUser: Option<nat>, creatorId: nat, stored: nat, participants: seq<Participant>)
    ensures var s := Restore(Some(stored), participants);
      Panel(sessionUser == Some(creatorId), s, IsAlreadyParticipant(sessionUser, participants, s)) != JoinPrompt
  {
  }

  /** The Available and Unavailable buttons of a fixed-time meeting: shown
      with a time to answer, to a participant, until the meeting is
      confirmed. */
  function ResponseButtonsShown(kind: MeetingType, displayTime: Option<string>, isAlready: bool, status: string): (r: bool)
    ensures r ==> kind == Fixed && isAlready
    ensures status == "CONFIRMED" ==> !r
    ensures r <==> kind == Fixed && Truthy(displayTime) && isAlready && status != "CONFIRMED"
  {
    kind == Fixed && Truthy(displayTime) && isAlready && status != "CONFIRMED"
  }

  /** The status badge of the page uses the card's colouring, with the
      lower-cased status as its text. */
  function StatusBadge(status: string): (r: (BadgeVariant, string))
    ensures r.0 == MeetingStatusVariant(status)
    ensures |r.1| == |status| && Lower(r.1) == r.1
    ensures forall i :: 0 <= i < |status| ==> r.1[i] == LowerChar(status[i])
  {
    (if status == "CONFIRMED" then ConfirmedBadge else if status == "CANCELLED" then UnavailableBadge else PendingBadge,
     Lower(status))
  }
}

=== FILE: meetings_list.dfy ===
/** The meetings page: the meetings the user created and those they were
    invited to, merged newest first, and the three tabs over them. */
module MeetingsList {
  import opened Seqs

  /** Newest first: no element is followed by a newer one. */
  predicate NewestFirst<T>(s: seq<T>, createdAt: T -> int) {
    forall i, j :: 0 <= i < j < |s| ==> createdAt(s[i]) >= createdAt(s[j])
  }

  function CreatedAtIs<T>(createdAt: T -> int, v: int): T -> bool {
    x => createdAt(x) == v
  }

  /** Places `x` before the first element that is not newer than it, so
      that `x` precedes every element of the same age. */
  function Insert<T>(x: T, s: seq<T>, createdAt: T -> int): (r: seq<T>)
    ensures multiset(r) == multiset(s) + multiset{x}
    ensures |r| == |s| + 1
    decreases |s|
  {
    if |s| == 0 || createdAt(s[0]) <= createdAt(x) then
      [x] + s
    else
      assert s == [s[0]] + s[1..];
      [s[0]] + Insert(x, s[1..], createdAt)
  }

  lemma {:induction false} InsertSorted<T>(x: T, s: seq<T>, createdAt: T -> int)
    requires NewestFirst(s, createdAt)
    ensures NewestFirst(Insert(x, s, createdAt), createdAt)
    decreases |s|
  {
    if |s| > 0 && createdAt(s[0]) > createdAt(x) {
      var rest := Insert(x, s[1..], createdAt);
      InsertSorted(x, s[1..], createdAt);
      var r := [s[0]] + rest;
      assert s == [s[0]] + s[1..];
      forall j | 1 <= j < |r| ensures createdAt(r[0]) >= createdAt(r[j]) {
        assert r[j] in multiset(rest);
        assert r[j] == x || r[j] in s[1..];
      }
    }
  }

  /** `Array.prototype.sort` with the comparator `b.createdAt - a.createdAt`
      (a stable sort, as the language guarantees): an insertion sort. */
  function SortNewestFirst<T>(s: seq<T>, createdAt: T -> int): (r: seq<T>)
    ensures multiset(r) == multiset(s)
    ensures |r| == |s|
    ensures NewestFirst(r, createdAt)
    decreases |s|
  {
    if |s| == 0 then []
    else
      assert s == [s[0]] + s[1..];
      InsertSorted(s[0], SortNewestFirst(s[1..], createdAt), createdAt);
      Insert(s[0], SortNewestFirst(s[1..], createdAt), createdAt)
  }

  lemma {:induction false} InsertKeepsTies<T(!new)>(x: T, s: seq<T>, createdAt: T -> int, v: int)
    requires NewestFirst(s, createdAt)
    ensures Filter(Insert(x, s, createdAt), CreatedAtIs(createdAt, v)) ==
      (if createdAt(x) == v then [x] else []) + Filter(s, CreatedAtIs(createdAt, v))
    decreases |s|
  {
    var p := CreatedAtIs(createdAt, v);
    if |s| == 0 || createdAt(s[0]) <= createdAt(x) {
      assert ([x] + s)[1..] == s;
    } else {
      var rest := Insert(x, s[1..], createdAt);
      InsertKeepsTies(x, s[1..], createdAt, v);
      assert ([s[0]] + rest)[1..] == rest;
      if createdAt(s[0]) == v {
        assert Filter(s, p) == [s[0]] + Filter(s[1..], p);
      } else {
        assert Filter(s, p) == Filter(s[1..], p);
      }
    }
  }

  /** The sort is stable: the meetings created at any one instant appear in
      the order they had before sorting. */
  lemma {:induction false} SortKeepsTies<T(!new)>(s: seq<T>, createdAt: T -> int, v: int)
    ensures Filter(SortNewestFirst(s, createdAt), CreatedAtIs(createdAt, v)) == Filter(s, CreatedAtIs(createdAt, v))
    decreases |s|
  {
    if |s| > 0 {
      var p := CreatedAtIs(createdAt, v);
      SortKeepsTies(s[1..], createdAt, v);
      InsertKeepsTies(s[0], SortNewestFirst(s[1..], createdAt), createdAt, v);
      if createdAt(s[0]) == v {
        assert Filter(s, p) == [s[0]] + Filter(s[1..], p);
      } else {
        assert Filter(s, p) == Filter(s[1..], p);
      }
    }
  }

  /** `all`: both lists, created first, sorted newest first. Nothing is
      merged away, so a meeting in both lists shows twice. */
  function AllMeetings<T>(created: seq<T>, invited: seq<T>, createdAt: T -> int): (r: seq<T>)
    ensures multiset(r) == multiset(created) + multiset(invited)
    ensures |r| == |created| + |invited|
    ensures NewestFirst(r, createdAt)
  {
    SortNewestFirst(created + invited, createdAt)
  }

  /** Among meetings of the same age, created ones come first, each list in
      its own order. */
  lemma AllMeetingsTies<T(!new)>(created: seq<T>, invited: seq<T>, createdAt: T -> int, v: int)
    ensures Filter(AllMeetings(created, invited, createdAt), CreatedAtIs(createdAt, v)) ==
      Filter(created, CreatedAtIs(createdAt, v)) + Filter(invited, CreatedAtIs(createdAt, v))
  {
    SortKeepsTies(created + invited, createdAt, v);
    FilterConcat(created, invited, CreatedAtIs(createdAt, v));
  }

  datatype Tab = AllTab | CreatedTab | InvitedTab

  /** The meetings the grid shows for the active tab. */
  function Shown<T>(tab: Tab, created: seq<T>, invited: seq<T>, createdAt: T -> int): (r: seq<T>)
    ensures tab == CreatedTab ==> r == created
    ensures tab == InvitedTab ==> r == invited
    ensures tab == AllTab ==> r == AllMeetings(created, invited, createdAt)
  {
    match tab
    case AllTab => AllMeetings(created, invited, createdAt)
    case CreatedTab => created
    case InvitedTab => invited
  }

  /** The count printed on a tab button. */
  function TabCount<T>(tab: Tab, created: seq<T>, invited: seq<T>, createdAt: T -> int): nat {
    match tab
    case AllTab => |AllMeetings(created, invited, createdAt)|
    case CreatedTab => |created|
    case InvitedTab => |invited|
  }

  /** Each tab's count is the number of meetings that tab shows, and the
      All count is the sum of the other two. */
  lemma TabCountsMatch<T>(tab: Tab, created: seq<T>, invited: seq<T>, createdAt: T -> int)
    ensures TabCount(tab, created, invited, createdAt) == |Shown(tab, created, invited, createdAt)|
    ensures TabCount(AllTab, created, invited, createdAt) ==
      TabCount(CreatedTab, created, invited, createdAt) + TabCount(InvitedTab, created, invited, createdAt)
  {
  }
}

=== FILE: participant_list.dfy ===
/** The row of participant chips on the share page: each chip shows the
    participant's name, an avatar with initials (a crown for the creator)
    and a badge whose colour follows a fixed precedence. */
module ParticipantList {
  import opened Wrappers
  import opened Seqs
  import opened Strings
  import opened Store
  import opened MeetingCard

  // ---------------------------------------------------------------------
  // Names and initials

  /** `getParticipantName`: the user's full name, else a non-empty guest
      name, else "Unknown". */
  function ParticipantName(user: Option<User>, guestName: Option<string>): (r: string)
    ensures user.Some? ==> r == user.value.firstName + " " + user.value.lastName
    ensures user.None? && guestName.Some? && guestName.value != "" ==> r == guestName.value
    ensures user.None? && (guestName.None? || guestName.value == "") ==> r == "Unknown"
    ensures r != ""
  {
    if user.Some? then user.value.firstName + " " + user.value.lastName
    else if guestName.Some? && guestName.value != "" then guestName.value
    else "Unknown"
  }

  function IsWord(): string -> bool {
    (w: string) => w != ""
  }

  /** The words of a name: the pieces between single spaces that are not
      empty. */
  function Words(name: string): seq<string> {
    Filter(SplitOn(name, ' '), IsWord())
  }

  /** `map(n => n[0]).join('')`: the first character of every piece; an
      empty piece gives `undefined`, which joins as nothing. */
  function FirstLetters(pieces: seq<string>): (r: string)
    ensures |r| == |Filter(pieces, IsWord())|
    ensures forall k :: 0 <= k < |r| ==> |Filter(pieces, IsWord())[k]| > 0 && r[k] == Filter(pieces, IsWord())[k][0]
    decreases |pieces|
  {
    if |pieces| == 0 then ""
    else if pieces[0] == "" then FirstLetters(pieces[1..])
    else [pieces[0][0]] + FirstLetters(pieces[1..])
  }

  /** `getInitials`: the upper-cased first letters of the words, at most
      two of them. */
  function Initials(name: string): (r: string)
    ensures |r| <= 2
    ensures |r| == if |Words(name)| < 2 then |Words(name)| else 2
    ensures forall k :: 0 <= k < |r| ==> |Words(name)[k]| > 0 && r[k] == UpperChar(Words(name)[k][0])
  {
    var all := Upper(FirstLetters(SplitOn(name, ' ')));
    if |all| <= 2 then all else all[..2]
  }

  /** Two words without spaces, joined by one, are split back into exactly
      those words. */
  lemma TwoWords(first: string, last: string)
    requires first != "" && last != "" && ' ' !in first && ' ' !in last
    ensures Words(first + " " + last) == [first, last]
  {
    assert JoinWith([first, last], [' ']) == first + " " + last by {
      assert [first, last][1..] == [last];
    }
    SplitJoin([first, last], ' ');
    assert Filter([first, last], IsWord()) == [first, last] by {
      assert [first, last][1..] == [last];
      assert [last][1..] == [];
    }
  }

  /** A user whose first and last names are single words gets the
      initials of the two names. */
  lemma UserInitials(u: User, guestName: Option<string>)
    requires u.firstName != "" && u.lastName != "" && ' ' !in u.firstName && ' ' !in u.lastName
    ensures Initials(ParticipantName(Some(u), guestName)) == [UpperChar(u.firstName[0]), UpperChar(u.lastName[0])]
  {
    TwoWords(u.firstName, u.lastName);
  }

  lemma InitialsExample()
    ensures Initials(ParticipantName(Some(User(0, "ada@example.com", "Ada", "Lovelace")), None)) == "AL"
  {
    UserInitials(User(0, "ada@example.com", "Ada", "Lovelace"), None);
  }

  /** The first word of a name that does not start with a space begins
      with the name's first character. */
  lemma FirstWordStartsName(name: string)
    requires name != "" && name[0] != ' '
    ensures |Words(name)| >= 1 && Words(name)[0][0] == name[0]
  {
    var pieces := SplitOn(name, ' ');
    var i := IndexOf(name, ' ');
    assert i > 0;
    if i < |name| {
      assert pieces == [name[..i]] + SplitOn(name[i + 1..], ' ');
    }
    assert pieces[0] != "" && pieces[0][0] == name[0];
  }

  // ---------------------------------------------------------------------
  // Badge and avatar

  /** The participant statuses as stored. */
  function ParticipantStatusName(s: ParticipantStatus): string {
    match s
    case Pending => "PENDING"
    case Responded => "RESPONDED"
    case Available => "AVAILABLE"
    case Unavailable => "UNAVAILABLE"
  }

  /** The badge variant: creator first, then guest, then the response. */
  function ParticipantVariant(p: Participant, creatorId: nat): (r: BadgeVariant)
    ensures r != ConfirmedBadge
    ensures r == CreatorBadge <==> p.userId == Some(creatorId)
    ensures r == GuestBadge <==> p.userId != Some(creatorId) && p.isGuest
    ensures r == RespondedBadge <==> p.userId != Some(creatorId) && !p.isGuest && (p.status == Responded || p.status == Available)
    ensures r == UnavailableBadge <==> p.userId != Some(creatorId) && !p.isGuest && p.status == Unavailable
  {
    var status := ParticipantStatusName(p.status);
    if p.userId == Some(creatorId) then CreatorBadge
    else if p.isGuest then GuestBadge
    else if status == "RESPONDED" || status == "AVAILABLE" then RespondedBadge
    else if status == "UNAVAILABLE" then UnavailableBadge
    else PendingBadge
  }

  /** The creator and guests keep their badge whatever they answer. */
  lemma VariantIgnoresStatus(p: Participant, creatorId: nat, s: ParticipantStatus)
    requires p.userId == Some(creatorId) || p.isGuest
    ensures ParticipantVariant(p.(status := s), creatorId) == ParticipantVariant(p, creatorId)
  {
  }

  /** The badge text: "Creator", "Guest", or the lower-cased status. */
  function BadgeText(p: Participant, creatorId: nat): (r: string)
    ensures ParticipantVariant(p, creatorId) == CreatorBadge ==> r == "Creator"
    ensures ParticipantVariant(p, creatorId) == GuestBadge ==> r == "Guest"
    ensures ParticipantVariant(p, creatorId) != CreatorBadge && ParticipantVariant(p, creatorId) != GuestBadge ==>
      r == Lower(ParticipantStatusName(p.status))
  {
    var v := ParticipantVariant(p, creatorId);
    if v == CreatorBadge then "Creator" else if v == GuestBadge then "Guest" else Lower(ParticipantStatusName(p.status))
  }

  /** Registered participants other than the creator with different
      statuses get different badge texts. */
  lemma BadgeTextTellsStatus(p: Participant, q: Participant, creatorId: nat)
    requires p.userId != Some(creatorId) && !p.isGuest
    requires q.userId != Some(creatorId) && !q.isGuest
    requires p.status != q.status
    ensures BadgeText(p, creatorId) != BadgeText(q, creatorId)
  {
    var a := ParticipantStatusName(p.status);
    var b := ParticipantStatusName(q.status);
    assert a[0] != b[0];
    assert Lower(a)[0] == LowerChar(a[0]) && Lower(b)[0] == LowerChar(b[0]);
  }

  datatype Avatar = Crown | Letters(text: string)

  /** The avatar: a crown for the creator, the initials otherwise. */
  function AvatarOf(p: Participant, creatorId: nat, name: string): (r: Avatar)
    ensures r.Crown? <==> ParticipantVariant(p, creatorId) == CreatorBadge
    ensures r.Letters? ==> |r.text| <= 2
    ensures r.Letters? ==> r.text == Initials(name)
  {
    if ParticipantVariant(p, creatorId) == CreatorBadge then Crown else Letters(Initials(name))
  }
}

=== FILE: route_properties.dfy ===
/** Properties of meeting creation: the persisted poll slots tile the date
    range one day apart without overlapping, the organizer stays RESPONDED
    whoever is invited, every invitee ends up with exactly one participant
    row, and the key constraints survive the transaction. */
module RouteProperties {
  import opened Wrappers
  import opened Seqs
  import opened Tables
  import opened DisplayGrid
  import opened Validators
  import opened Store
  import opened CreateMeetingRoute

  lemma {:induction false} MulMonotone(a: nat, b: nat, c: nat)
    requires a <= b
    ensures a * c <= b * c
    decreases b - a
  {
    if a < b {
      MulMonotone(a, b - 1, c);
      assert b * c == (b - 1) * c + c;
    }
  }

  /** Every persisted slot starts inside `[start, end]`, the last one less
      than a day before `end`, so the slots reach the end of the range. */
  lemma DailySlotsSpanRange(start: Instant, end: Instant, hours: nat)
    requires start <= end
    ensures var r := DailySlots(start, end, hours);
      |r| > 0 && r[0].0 == start &&
      (forall k :: 0 <= k < |r| ==> start <= r[k].0 <= end) &&
      end < r[|r| - 1].0 + MsPerDay
  {
    var r := DailySlots(start, end, hours);
    var q := (end - start) / MsPerDay;
    assert |r| == q + 1;
    forall k | 0 <= k < |r| ensures start <= r[k].0 <= end {
      MulMonotone(k, q, MsPerDay);
      assert q * MsPerDay <= end - start;
    }
    assert r[|r| - 1].0 == start + q * MsPerDay;
  }

  /** With at most 24 hours per slot, a slot ends no later than the next one
      starts; every duration the route accepts (up to 480 minutes, so at most
      8 hours) qualifies. */
  lemma DailySlotsDisjoint(start: Instant, end: Instant, duration: nat)
    requires 5 <= duration <= 480
    ensures var r := DailySlots(start, end, CeilDiv(duration, 60));
      forall k :: 0 <= k < |r| - 1 ==> r[k].0 < r[k].1 <= r[k + 1].0
  {
    var h := CeilDiv(duration, 60);
    assert 1 <= h <= 8;
    MulMonotone(h, 8, MsPerHour);
    MulMonotone(1, h, MsPerHour);
    var r := DailySlots(start, end, h);
    forall k | 0 <= k < |r| - 1 ensures r[k].0 < r[k].1 <= r[k + 1].0 {
      assert r[k + 1].0 == start + k * MsPerDay + MsPerDay;
    }
  }

  /** The tables after the transaction: one new PENDING meeting owned by the
      caller; the daily slots for a poll with a date range and no new slots
      otherwise; the organizer's RESPONDED row directly after the old
      participants, followed only by PENDING rows of the new meeting. */
  lemma CreateMeetingTables(db: Db, creatorId: nat, d: RouteData, toInstant: string -> Instant)
    ensures var r := CreateMeeting(db, creatorId, d, toInstant);
      var m := db.nextId;
      var n := |db.participants|;
      && r.users == db.users && r.availabilities == db.availabilities
      && r.meetings == db.meetings + [NewMeeting(db, creatorId, d, toInstant)]
      && r.meetings[|db.meetings|].status == MeetingPending && r.meetings[|db.meetings|].creatorId == creatorId
      && r.meetings[|db.meetings|].confirmedTime.None?
      && (d.kind == Fixed ==> r.timeSlots == db.timeSlots)
      && |r.timeSlots| == |db.timeSlots| + |PollSlots(d, toInstant)|
      && (forall k :: |db.timeSlots| <= k < |r.timeSlots| ==> r.timeSlots[k].meetingId == m)
      && |r.participants| > n && r.participants[..n] == db.participants
      && r.participants[n].meetingId == m && r.participants[n].userId == Some(creatorId)
      && r.participants[n].status == Responded && !r.participants[n].isGuest
      && (forall i :: n < i < |r.participants| ==> r.participants[i].meetingId == m && r.participants[i].status == Pending)
  {
    var p := Prepared(db, creatorId, d, toInstant);
    var r := CreateMeeting(db, creatorId, d, toInstant);
    assert p.participants[..|db.participants|] == db.participants;
    assert r.participants[..|p.participants|] == p.participants;
    assert r.participants[|db.participants|] == p.participants[|db.participants|];
    assert r.participants[..|db.participants|] == p.participants[..|db.participants|];
  }

  /** Inviting an e-mail already represented in the meeting changes nothing;
      in particular an e-mail listed twice yields one participant. */
  lemma DuplicateInviteeIsIgnored(db: Db, meetingId: nat, email: string)
    ensures AddInvitees(db, meetingId, [email, email]) == AddInvitee(db, meetingId, email)
  {
    var once := AddInvitee(db, meetingId, email);
    assert [email, email][1..] == [email];
    assert [email][1..] == [];
    calc {
      AddInvitees(db, meetingId, [email, email]);
      AddInvitees(once, meetingId, [email]);
      AddInvitees(AddInvitee(once, meetingId, email), meetingId, []);
      { assert AddInvitee(once, meetingId, email) == once; }
      once;
    }
  }

  lemma AddInviteeKeepsValid(db: Db, meetingId: nat, email: string)
    requires Valid(db) && meetingId < db.nextId
    ensures Valid(AddInvitee(db, meetingId, email))
  {
    var u := FindUserByEmail(db, email);
    if u.Some? {
      if FindFirst(db.participants, HasUserIn(meetingId, u.value.id)).None? {
        EnrolKeepsValid(db, meetingId, Some(u.value.id), None, None, false, Pending, None);
      }
    } else {
      if FindFirst(db.participants, HasGuestEmail(meetingId, email)).None? {
        EnrolKeepsValid(db, meetingId, None, None, Some(email), true, Pending, None);
      }
    }
  }

  lemma {:induction false} AddInviteesKeepValid(db: Db, meetingId: nat, emails: seq<string>)
    requires Valid(db) && meetingId < db.nextId
    ensures Valid(AddInvitees(db, meetingId, emails))
    decreases |emails|
  {
    if |emails| > 0 {
      AddInviteeKeepsValid(db, meetingId, emails[0]);
      AddInviteesKeepValid(AddInvitee(db, meetingId, emails[0]), meetingId, emails[1..]);
    }
  }

  lemma AddMeetingKeepsValid(db: Db, m: Meeting)
    requires Valid(db) && m.id == db.nextId
    ensures Valid(db.(meetings := db.meetings + [m], nextId := db.nextId + 1))
  {
    var w := db.(meetings := db.meetings + [m], nextId := db.nextId + 1);
    AppendUniqueKeys(db.meetings, [m], MeetingKey);
    forall i | 0 <= i < |w.meetings| ensures w.meetings[i].id < w.nextId {
      if i < |db.meetings| { assert w.meetings[i] == db.meetings[i]; }
    }
  }

  lemma AddSlotsKeepsValid(db: Db, meetingId: nat, times: seq<(Instant, Instant)>)
    requires Valid(db)
    ensures Valid(AddSlots(db, meetingId, times))
  {
    var w := AddSlots(db, meetingId, times);
    var added := w.timeSlots[|db.timeSlots|..];
    assert w.timeSlots == db.timeSlots + added;
    assert forall k :: 0 <= k < |added| ==> added[k].id == db.nextId + k;
    AppendUniqueKeys(db.timeSlots, added, SlotKey);
    forall i | 0 <= i < |w.timeSlots| ensures w.timeSlots[i].id < w.nextId {
      if i >= |db.timeSlots| { assert w.timeSlots[i] == added[i - |db.timeSlots|]; }
      else { assert w.timeSlots[i] == db.timeSlots[i]; }
    }
  }

  /** The meeting and its slots, before the organizer's row: valid, with
      the participant table as it was. */
  lemma WithSlotsKeepsValid(db: Db, creatorId: nat, d: RouteData, toInstant: string -> Instant)
    requires Valid(db)
    ensures var w := WithSlots(db, creatorId, d, toInstant);
      && Valid(w) && w.participants == db.participants && db.nextId < w.nextId
      && forall i :: 0 <= i < |w.participants| ==> MeetingUserKey(w.participants[i]) != Some((db.nextId, creatorId))
  {
    var m := db.nextId;
    var w1 := db.(meetings := db.meetings + [NewMeeting(db, creatorId, d, toInstant)], nextId := m + 1);
    AddMeetingKeepsValid(db, NewMeeting(db, creatorId, d, toInstant));
    AddSlotsKeepsValid(w1, m, PollSlots(d, toInstant));
    assert forall i :: 0 <= i < |db.participants| ==> db.participants[i].meetingId < m;
  }

  lemma PreparedKeepsValid(db: Db, creatorId: nat, d: RouteData, toInstant: string -> Instant)
    requires Valid(db)
    ensures Valid(Prepared(db, creatorId, d, toInstant))
  {
    WithSlotsKeepsValid(db, creatorId, d, toInstant);
    EnrolKeepsValid(WithSlots(db, creatorId, d, toInstant), db.nextId, Some(creatorId), None, None, false, Responded, None);
  }

  /** The transaction keeps every key constraint: in particular the organizer
      has exactly one participant row in the new meeting, and every invitee
      at most one. */
  lemma CreateMeetingKeepsValid(db: Db, creatorId: nat, d: RouteData, toInstant: string -> Instant)
    requires Valid(db)
    ensures Valid(CreateMeeting(db, creatorId, d, toInstant))
  {
    PreparedKeepsValid(db, creatorId, d, toInstant);
    AddInviteesKeepValid(Prepared(db, creatorId, d, toInstant), db.nextId, d.invitees);
  }

  /** Whoever is invited, the organizer keeps one participant row in the new
      meeting, and it is RESPONDED; every invitee has a row. */
  lemma OrganizerStaysResponded(db: Db, creatorId: nat, d: RouteData, toInstant: string -> Instant)
    requires Valid(db)
    ensures var r := CreateMeeting(db, creatorId, d, toInstant);
      (forall i :: 0 <= i < |r.participants| && HasUserIn(db.nextId, creatorId)(r.participants[i]) ==>
         r.participants[i].status == Responded) &&
      (forall k :: 0 <= k < |d.invitees| ==> Represented(r, db.nextId, d.invitees[k]))
  {
    var r := CreateMeeting(db, creatorId, d, toInstant);
    var n := |db.participants|;
    CreateMeetingTables(db, creatorId, d, toInstant);
    CreateMeetingKeepsValid(db, creatorId, d, toInstant);
    assert forall i :: 0 <= i < n ==> r.participants[i] == db.participants[i] by {
      assert r.participants[..n] == db.participants;
    }
  }

  /** A `201` reply carries the created meeting, owned by the signed-in
      user and answering to the returned id, in a database that still
      keeps every key and uniqueness constraint. */
  lemma PostCreatesMeeting(db: Db, session: Option<nat>, body: Option<RouteInput>, fmt: Formats,
                           toInstant: string -> Instant)
    requires Valid(db)
    ensures var r := Post(db, session, body, fmt, toInstant);
      r.Created201? ==>
        && Valid(r.db)
        && |r.db.meetings| == |db.meetings| + 1
        && r.db.meetings[|db.meetings|].id == r.meetingId
        && r.db.meetings[|db.meetings|].creatorId == session.value
        && r.db.meetings[|db.meetings|].status == MeetingPending
        && r.db.users == db.users && r.db.availabilities == db.availabilities
  {
    var r := Post(db, session, body, fmt, toInstant);
    if r.Created201? {
      var d := ParseRoute(body.value, fmt).value;
      CreateMeetingKeepsValid(db, session.value, d, toInstant);
      CreateMeetingTables(db, session.value, d, toInstant);
    }
  }
}

=== FILE: seqs.dfy ===
/** Generic sequence helpers: order-preserving filtering, the subsequence
    relation and duplicate-freedom. */
module Seqs {

  /** `a` can be obtained from `b` by deleting elements (order kept). */
  predicate IsSubseq<T(==)>(a: seq<T>, b: seq<T>)
    decreases |b|
  {
    if |a| == 0 then true
    else if |b| == 0 then false
    else if a[0] == b[0] then IsSubseq(a[1..], b[1..])
    else IsSubseq(a, b[1..])
  }

  /** No element occurs twice. */
  predicate Distinct<T(==)>(s: seq<T>) {
    forall i, j :: 0 <= i < j < |s| ==> s[i] != s[j]
  }

  /** The elements of `s` that satisfy `p`, in their original order
      (JavaScript's `Array.prototype.filter`). */
  function Filter<T(!new)>(s: seq<T>, p: T -> bool): (r: seq<T>)
    ensures |r| <= |s|
    ensures forall x :: x in r <==> x in s && p(x)
    ensures IsSubseq(r, s)
    decreases |s|
  {
    if |s| == 0 then []
    else if p(s[0]) then
      var rest := Filter(s[1..], p);
      assert ([s[0]] + rest)[1..] == rest;
      [s[0]] + rest
    else
      Filter(s[1..], p)
  }

  /** Filtering distributes over concatenation. */
  lemma {:induction false} FilterConcat<T(!new)>(a: seq<T>, b: seq<T>, p: T -> bool)
    ensures Filter(a + b, p) == Filter(a, p) + Filter(b, p)
    decreases |a|
  {
    if |a| == 0 {
      assert a + b == b;
    } else {
      assert (a + b)[1..] == a[1..] + b;
      FilterConcat(a[1..], b, p);
    }
  }

  /** Concatenation is associative (stated once, so that long chains need
      not be rediscovered element by element). */
  lemma ConcatAssoc<T>(a: seq<T>, b: seq<T>, c: seq<T>)
    ensures a + (b + c) == a + b + c
  {
  }

  /** The set of elements of `s`. */
  function Elements<T>(s: seq<T>): set<T> {
    set x | x in s
  }

  /** A duplicate-free sequence has as many distinct elements as it is long. */
  lemma {:induction false} DistinctCardinality<T>(s: seq<T>)
    requires Distinct(s)
    ensures |Elements(s)| == |s|
    decreases |s|
  {
    if |s| > 0 {
      var tail := s[1..];
      assert Distinct(tail) by {
        forall i, j | 0 <= i < j < |tail| ensures tail[i] != tail[j] {
          assert tail[i] == s[i + 1] && tail[j] == s[j + 1];
        }
      }
      DistinctCardinality(tail);
      assert s[0] !in tail by {
        forall k | 0 <= k < |tail| ensures tail[k] != s[0] {
          assert tail[k] == s[k + 1];
        }
      }
      assert Elements(s) == Elements(tail) + {s[0]} by {
        assert s == [s[0]] + tail;
      }
    }
  }

  /** Filtering keeps a sequence duplicate-free. */
  lemma {:induction false} FilterDistinct<T(!new)>(s: seq<T>, p: T -> bool)
    requires Distinct(s)
    ensures Distinct(Filter(s, p))
    decreases |s|
  {
    if |s| > 0 {
      var tail := s[1..];
      assert Distinct(tail) by {
        forall i, j | 0 <= i < j < |tail| ensures tail[i] != tail[j] {
          assert tail[i] == s[i + 1] && tail[j] == s[j + 1];
        }
      }
      FilterDistinct(tail, p);
      if p(s[0]) {
        var rest := Filter(tail, p);
        assert s[0] !in tail by {
          forall k | 0 <= k < |tail| ensures tail[k] != s[0] {
            assert tail[k] == s[k + 1];
          }
        }
        var r := [s[0]] + rest;
        forall i, j | 0 <= i < j < |r| ensures r[i] != r[j] {
          if i == 0 {
            assert r[j] == rest[j - 1];
          } else {
            assert r[i] == rest[i - 1] && r[j] == rest[j - 1];
          }
        }
      }
    }
  }

  /** Filtering by `q` after `p` is filtering by `q` alone when `q` implies
      `p`. */
  lemma {:induction false} FilterFilter<T(!new)>(s: seq<T>, p: T -> bool, q: T -> bool)
    requires forall x :: q(x) ==> p(x)
    ensures Filter(Filter(s, p), q) == Filter(s, q)
    decreases |s|
  {
    if |s| > 0 {
      FilterFilter(s[1..], p, q);
      if p(s[0]) {
        var rest := Filter(s[1..], p);
        assert ([s[0]] + rest)[1..] == rest;
      }
    }
  }

  /** Filtering by `p` and then by `q` is filtering by both at once. */
  lemma {:induction false} FilterBoth<T(!new)>(s: seq<T>, p: T -> bool, q: T -> bool, pq: T -> bool)
    requires forall x :: pq(x) == (p(x) && q(x))
    ensures Filter(Filter(s, p), q) == Filter(s, pq)
    decreases |s|
  {
    if |s| > 0 {
      FilterBoth(s[1..], p, q, pq);
      if p(s[0]) {
        var rest := Filter(s[1..], p);
        assert ([s[0]] + rest)[1..] == rest;
      }
    }
  }

  /** Filtering keeps everything when every element passes. */
  lemma {:induction false} FilterAll<T(!new)>(s: seq<T>, p: T -> bool)
    requires forall i :: 0 <= i < |s| ==> p(s[i])
    ensures Filter(s, p) == s
    decreases |s|
  {
    if |s| > 0 {
      FilterAll(s[1..], p);
      assert [s[0]] + s[1..] == s;
    }
  }

  /** Filtering keeps nothing when no element passes. */
  lemma FilterNone<T(!new)>(s: seq<T>, p: T -> bool)
    requires forall i :: 0 <= i < |s| ==> !p(s[i])
    ensures Filter(s, p) == []
  {
    assert forall x :: x in s ==> !p(x);
  }

  /** Two predicates that agree on every element filter alike. */
  lemma {:induction false} FilterAgree<T(!new)>(s: seq<T>, p: T -> bool, q: T -> bool)
    requires forall i :: 0 <= i < |s| ==> p(s[i]) == q(s[i])
    ensures Filter(s, p) == Filter(s, q)
    decreases |s|
  {
    if |s| > 0 {
      FilterAgree(s[1..], p, q);
    }
  }

  /** Filtering out an element that is present makes the sequence shorter. */
  lemma {:induction false} FilterShrinks<T(!new)>(s: seq<T>, p: T -> bool, x: T)
    requires x in s && !p(x)
    ensures |Filter(s, p)| < |s|
    decreases |s|
  {
    if s[0] != x {
      assert x in s[1..];
      FilterShrinks(s[1..], p, x);
    }
  }

  /** Two duplicate-free sequences with no common element concatenate to a
      duplicate-free sequence. */
  lemma DistinctConcat<T>(a: seq<T>, b: seq<T>)
    requires Distinct(a) && Distinct(b)
    requires forall i, j :: 0 <= i < |a| && 0 <= j < |b| ==> a[i] != b[j]
    ensures Distinct(a + b)
  {
    var s := a + b;
    forall i, j | 0 <= i < j < |s| ensures s[i] != s[j] {
      if j < |a| {
        assert s[i] == a[i] && s[j] == a[j];
      } else if i >= |a| {
        assert s[i] == b[i - |a|] && s[j] == b[j - |a|];
      } else {
        assert s[i] == a[i] && s[j] == b[j - |a|];
      }
    }
  }
}

=== FILE: settings_form.dfy ===
/** The settings page: the profile form, the password form and the
    timezone card. The checks run in the browser before any server action
    is called; the actions themselves (password hashing, the user update)
    are outside this model, and their outcome is a parameter. */
module SettingsForm {
  import opened Wrappers
  import opened Strings
  import opened Validators
  import opened Timezone

  // ---------------------------------------------------------------------
  // Password

  datatype PasswordFields = PasswordFields(currentPassword: string, newPassword: string, confirmPassword: string)

  /** The first check that fails, in the order the handler tries them, or
      `SendPassword` when all pass. */
  datatype PasswordCheck = MissingPassword | TooShort | Mismatch | SendPassword

  predicate AllFilled(f: PasswordFields) {
    f.currentPassword != "" && f.newPassword != "" && f.confirmPassword != ""
  }

  function CheckPassword(f: PasswordFields): (r: PasswordCheck)
    ensures r == MissingPassword <==> !AllFilled(f)
    ensures r == TooShort <==> AllFilled(f) && |f.newPassword| < 8
    ensures r == Mismatch <==> AllFilled(f) && |f.newPassword| >= 8 && f.newPassword != f.confirmPassword
    ensures r == SendPassword <==> AllFilled(f) && |f.newPassword| >= 8 && f.newPassword == f.confirmPassword
  {
    if f.currentPassword == "" || f.newPassword == "" || f.confirmPassword == "" then MissingPassword
    else if |f.newPassword| < 8 then TooShort
    else if f.newPassword != f.confirmPassword then Mismatch
    else SendPassword
  }

  /** A new password that passes the form also passes the signup schema's
      password rules. */
  lemma SentPasswordMeetsSignupRules(f: PasswordFields, u: SignupInput, fmt: Formats)
    requires CheckPassword(f) == SendPassword
    requires u.password == f.newPassword && u.confirmPassword == f.confirmPassword
    ensures Password !in SignupIssues(u, fmt) && ConfirmPassword !in SignupIssues(u, fmt)
  {
  }

  /** `handleChangePassword`: the checks, then `changePassword`, whose
      verdict (`accepted`) is decided by the server. The fields are cleared
      only after the server accepts. */
  function SubmitPassword(f: PasswordFields, accepted: bool): (r: (PasswordCheck, PasswordFields))
    ensures r.0 == CheckPassword(f)
    ensures r.0 == SendPassword && accepted ==> r.1 == PasswordFields("", "", "")
    ensures !(r.0 == SendPassword && accepted) ==> r.1 == f
    ensures r.1 != f ==> r.0 == SendPassword
  {
    var check := CheckPassword(f);
    if check == SendPassword && accepted then (check, PasswordFields("", "", "")) else (check, f)
  }

  /** After a password change succeeds, pressing the button again stops at
      the first check, and the server is not asked twice. */
  lemma SecondSubmitStops(f: PasswordFields, accepted: bool, again: bool)
    requires SubmitPassword(f, accepted).0 == SendPassword && accepted
    ensures var next := SubmitPassword(SubmitPassword(f, accepted).1, again);
      next.0 == MissingPassword && next.1 == PasswordFields("", "", "")
  {
  }

  // ---------------------------------------------------------------------
  // Profile

  datatype ProfileOutcome = MissingProfile | SendProfile(firstName: string, lastName: string, email: string)

  predicate Blank(s: string) {
    forall i :: 0 <= i < |s| ==> IsSpace(s[i])
  }

  /** `handleSaveProfile`: every field must have something besides white
      space; what is sent is the text as typed, untrimmed. */
  function SaveProfile(firstName: string, lastName: string, email: string): (r: ProfileOutcome)
    ensures r.MissingProfile? <==> Blank(firstName) || Blank(lastName) || Blank(email)
    ensures r.SendProfile? ==> r == SendProfile(firstName, lastName, email)
  {
    if Trim(firstName) == "" || Trim(lastName) == "" || Trim(email) == "" then MissingProfile
    else SendProfile(firstName, lastName, email)
  }

  /** Padding a field with spaces neither rescues an empty field nor
      changes whether a filled one passes. */
  lemma PaddingDoesNotMatter(firstName: string, lastName: string, email: string)
    ensures SaveProfile(" " + firstName + " ", lastName, email).MissingProfile? ==
            SaveProfile(firstName, lastName, email).MissingProfile?
  {
    var padded := " " + firstName + " ";
    assert Blank(padded) <==> Blank(firstName) by {
      assert forall i :: 0 <= i < |firstName| ==> padded[i + 1] == firstName[i];
      if Blank(firstName) {
        forall i | 0 <= i < |padded| ensures IsSpace(padded[i]) {
          if 0 < i < |padded| - 1 {
            assert padded[i] == firstName[i - 1];
          }
        }
      }
    }
  }

  // ---------------------------------------------------------------------
  // Timezone

  datatype TimezoneCard = TimezoneCard(city: string, autoDetected: bool, badge: string)

  /** The timezone card: the city of the zone in use, and whether that zone
      is the one stored for the user. */
  function ShowTimezone(timezone: string, storedTimezone: string): (r: TimezoneCard)
    ensures r.autoDetected <==> timezone == storedTimezone
    ensures r.badge == (if timezone == storedTimezone then "Auto-detected" else "Manually set")
    ensures r.city == CityName(timezone) && '/' !in r.city
  {
    var auto := timezone == storedTimezone;
    TimezoneCard(CityName(timezone), auto, if auto then "Auto-detected" else "Manually set")
  }

  /** `updateTimezone` stores the zone in use; the page shown after it calls
      the zone auto-detected. */
  lemma SavedTimezoneIsAutoDetected(timezone: string, storedTimezone: string)
    ensures ShowTimezone(timezone, timezone).autoDetected
    ensures timezone != storedTimezone ==> ShowTimezone(timezone, storedTimezone).badge == "Manually set"
  {
  }
}

=== FILE: store.dfy ===
/** The database the server actions work on: users, meetings, participants,
    proposed time slots and availability rows, each a table in row order, plus
    the fresh-value oracle that stands in for the generated ids and guest
    tokens. `Valid` collects the key constraints the actions rely on. */
module Store {
  import opened Wrappers
  import opened Seqs
  import opened Tables
  import opened DisplayGrid

  datatype MeetingType = Fixed | Poll
  datatype MeetingStatus = MeetingPending | Confirmed | Cancelled
  datatype ParticipantStatus = Pending | Responded | Available | Unavailable

  datatype User = User(id: nat, email: string, firstName: string, lastName: string)

  datatype Meeting = Meeting(
    id: nat,
    title: string,
    description: Option<string>,
    location: Option<string>,
    duration: nat,
    kind: MeetingType,
    status: MeetingStatus,
    proposedTime: Option<Instant>,
    dateRangeStart: Option<Instant>,
    dateRangeEnd: Option<Instant>,
    confirmedTime: Option<Instant>,
    creatorId: nat)

  /** A participant of a meeting: a registered user (`userId`) or a guest.
      `timezone` is `None` while it still holds the column default. */
  datatype Participant = Participant(
    id: nat,
    meetingId: nat,
    userId: Option<nat>,
    guestName: Option<string>,
    guestEmail: Option<string>,
    guestToken: nat,
    isGuest: bool,
    status: ParticipantStatus,
    timezone: Option<string>,
    respondedAt: Option<Instant>)

  datatype TimeSlot = TimeSlot(id: nat, meetingId: nat, start: Instant, end: Instant)

  datatype Availability = Availability(
    id: nat,
    participantId: nat,
    userId: Option<nat>,
    start: Instant,
    end: Instant,
    isAvailable: bool)

  /** The whole database. `nextId` is the fresh-value oracle: every id and
      token handed out so far is below it. */
  datatype Db = Db(
    users: seq<User>,
    meetings: seq<Meeting>,
    participants: seq<Participant>,
    timeSlots: seq<TimeSlot>,
    availabilities: seq<Availability>,
    nextId: nat)

  // Keys

  function UserKey(u: User): Option<nat> { Some(u.id) }
  function UserEmailKey(u: User): Option<string> { Some(u.email) }
  function MeetingKey(m: Meeting): Option<nat> { Some(m.id) }
  function ParticipantKey(p: Participant): Option<nat> { Some(p.id) }
  function TokenKey(p: Participant): Option<nat> { Some(p.guestToken) }
  function AvailabilityKey(a: Availability): Option<nat> { Some(a.id) }
  function SlotKey(t: TimeSlot): Option<nat> { Some(t.id) }

  /** The `(meetingId, userId)` unique constraint; guests are not
      constrained. */
  function MeetingUserKey(p: Participant): Option<(nat, nat)> {
    if p.userId.Some? then Some((p.meetingId, p.userId.value)) else None
  }

  /** The `(meetingId, guestEmail)` unique constraint; rows without a guest
      email are not constrained. */
  function MeetingEmailKey(p: Participant): Option<(nat, string)> {
    if p.guestEmail.Some? then Some((p.meetingId, p.guestEmail.value)) else None
  }

  /** Every id and token in the database was handed out by the oracle, and
      so was the meeting id every participant refers to. */
  predicate AllBelow(db: Db) {
    && (forall i :: 0 <= i < |db.users| ==> db.users[i].id < db.nextId)
    && (forall i :: 0 <= i < |db.meetings| ==> db.meetings[i].id < db.nextId)
    && (forall i :: 0 <= i < |db.participants| ==>
          db.participants[i].id < db.nextId && db.participants[i].guestToken < db.nextId &&
          db.participants[i].meetingId < db.nextId)
    && (forall i :: 0 <= i < |db.timeSlots| ==> db.timeSlots[i].id < db.nextId)
    && (forall i :: 0 <= i < |db.availabilities| ==> db.availabilities[i].id < db.nextId)
  }

  /** The key and uniqueness constraints of the schema. */
  predicate Valid(db: Db) {
    && AllBelow(db)
    && UniqueKeys(db.users, UserKey)
    && UniqueKeys(db.users, UserEmailKey)
    && UniqueKeys(db.meetings, MeetingKey)
    && UniqueKeys(db.participants, ParticipantKey)
    && UniqueKeys(db.participants, TokenKey)
    && UniqueKeys(db.participants, MeetingUserKey)
    && UniqueKeys(db.participants, MeetingEmailKey)
    && UniqueKeys(db.timeSlots, SlotKey)
    && UniqueKeys(db.availabilities, AvailabilityKey)
  }

  function MeetingHasId(id: nat): Meeting -> bool {
    (m: Meeting) => m.id == id
  }

  function FindMeeting(db: Db, id: nat): (r: Option<Meeting>)
    ensures r.Some? ==> r.value in db.meetings && r.value.id == id
    ensures r.None? ==> forall i :: 0 <= i < |db.meetings| ==> db.meetings[i].id != id
  {
    var k := FindFirst(db.meetings, MeetingHasId(id));
    if k.Some? then Some(db.meetings[k.value]) else None
  }

  function FindUserByEmail(db: Db, email: string): (r: Option<User>)
    ensures r.Some? ==> r.value in db.users && r.value.email == email
    ensures r.None? ==> forall i :: 0 <= i < |db.users| ==> db.users[i].email != email
  {
    var k := FindFirst(db.users, (u: User) => u.email == email);
    if k.Some? then Some(db.users[k.value]) else None
  }

  function HasGuestEmail(meetingId: nat, email: string): Participant -> bool {
    (p: Participant) => p.meetingId == meetingId && p.guestEmail == Some(email)
  }

  function HasUserIn(meetingId: nat, userId: nat): Participant -> bool {
    (p: Participant) => p.meetingId == meetingId && p.userId == Some(userId)
  }

  function OwnedBy(pid: nat): Availability -> bool {
    (a: Availability) => a.participantId == pid
  }

  function NotOwnedBy(pid: nat): Availability -> bool {
    (a: Availability) => a.participantId != pid
  }

  /** The availability rows of one participant, in table order. */
  function RowsOf(db: Db, participantId: nat): seq<Availability> {
    Filter(db.availabilities, OwnedBy(participantId))
  }

  /** `participant.create`: a new participant whose id and guest token are
      the next fresh value; not yet responded. */
  function Enrol(db: Db, meetingId: nat, userId: Option<nat>, guestName: Option<string>, guestEmail: Option<string>,
                 isGuest: bool, status: ParticipantStatus, timezone: Option<string>): Db
  {
    var p := Participant(db.nextId, meetingId, userId, guestName, guestEmail, db.nextId, isGuest, status, timezone, None);
    db.(participants := db.participants + [p], nextId := db.nextId + 1)
  }

  /** A new participant keeps the key constraints as long as its meeting has
      no participant yet for the same user or the same guest e-mail. */
  lemma EnrolKeepsValid(db: Db, meetingId: nat, userId: Option<nat>, guestName: Option<string>, guestEmail: Option<string>,
                        isGuest: bool, status: ParticipantStatus, timezone: Option<string>)
    requires Valid(db)
    requires meetingId < db.nextId
    requires userId.Some? ==>
      forall i :: 0 <= i < |db.participants| ==> MeetingUserKey(db.participants[i]) != Some((meetingId, userId.value))
    requires guestEmail.Some? ==>
      forall i :: 0 <= i < |db.participants| ==> MeetingEmailKey(db.participants[i]) != Some((meetingId, guestEmail.value))
    ensures Valid(Enrol(db, meetingId, userId, guestName, guestEmail, isGuest, status, timezone))
  {
    var r := Enrol(db, meetingId, userId, guestName, guestEmail, isGuest, status, timezone);
    var t := [r.participants[|db.participants|]];
    assert r.participants == db.participants + t;
    AppendUniqueKeys(db.participants, t, ParticipantKey);
    AppendUniqueKeys(db.participants, t, TokenKey);
    AppendUniqueKeys(db.participants, t, MeetingUserKey);
    AppendUniqueKeys(db.participants, t, MeetingEmailKey);
  }
}

=== FILE: strings.dfy ===
/** String helpers standing in for the JavaScript built-ins the source calls:
    `trim`, `toLowerCase`/`toUpperCase`, `includes`, `split`, `join`,
    `replace` of one character, and decimal rendering of numbers. Case mapping
    is ASCII only and `trim` strips the common white-space characters. */
module Strings {

  // ---------------------------------------------------------------------
  // Characters

  predicate IsDigit(c: char) {
    '0' <= c <= '9'
  }

  /** The white space `String.prototype.trim` removes (ASCII controls, space,
      no-break space and the byte-order mark). */
  predicate IsSpace(c: char) {
    c == ' ' || c == '\t' || c == '\n' || c == '\r' || c == '\U{000B}' ||
    c == '\U{000C}' || c == '\U{00A0}' || c == '\U{FEFF}'
  }

  function LowerChar(c: char): char {
    if 'A' <= c <= 'Z' then (c as int + 32) as char else c
  }

  function UpperChar(c: char): char {
    if 'a' <= c <= 'z' then (c as int - 32) as char else c
  }

  /** `toLowerCase`, character by character. */
  function Lower(s: string): (r: string)
    ensures |r| == |s|
    ensures forall i :: 0 <= i < |s| ==> r[i] == LowerChar(s[i])
  {
    seq(|s|, i requires 0 <= i < |s| => LowerChar(s[i]))
  }

  /** `toUpperCase`, character by character. */
  function Upper(s: string): (r: string)
    ensures |r| == |s|
    ensures forall i :: 0 <= i < |s| ==> r[i] == UpperChar(s[i])
  {
    seq(|s|, i requires 0 <= i < |s| => UpperChar(s[i]))
  }

  // ---------------------------------------------------------------------
  // Trimming

  /** `s` without its leading white space. */
  function TrimStart(s: string): (r: string)
    ensures |r| <= |s| && r == s[|s| - |r|..]
    ensures forall i :: 0 <= i < |s| - |r| ==> IsSpace(s[i])
    ensures |r| == 0 || !IsSpace(r[0])
    decreases |s|
  {
    if |s| > 0 && IsSpace(s[0]) then TrimStart(s[1..]) else s
  }

  /** `s` without its trailing white space. */
  function TrimEnd(s: string): (r: string)
    ensures |r| <= |s| && r == s[..|r|]
    ensures forall i :: |r| <= i < |s| ==> IsSpace(s[i])
    ensures |r| == 0 || !IsSpace(r[|r| - 1])
    decreases |s|
  {
    if |s| > 0 && IsSpace(s[|s| - 1]) then TrimEnd(s[..|s| - 1]) else s
  }

  /** `String.prototype.trim`. The result is empty exactly when `s` is blank. */
  function Trim(s: string): (r: string)
    ensures |r| == 0 <==> forall i :: 0 <= i < |s| ==> IsSpace(s[i])
    ensures |r| > 0 ==> !IsSpace(r[0]) && !IsSpace(r[|r| - 1])
  {
    var left := TrimStart(s);
    var r := TrimEnd(left);
    r
  }

  /** A string that neither starts nor ends with white space is its own
      trim. */
  lemma TrimmedAlready(s: string)
    requires |s| == 0 || (!IsSpace(s[0]) && !IsSpace(s[|s| - 1]))
    ensures Trim(s) == s
  {
    assert TrimStart(s) == s;
  }

  /** Lowercasing keeps white space where it is, so it keeps a trimmed string
      trimmed; lowercasing twice is lowercasing once. */
  lemma LowerOfTrimmed(s: string)
    requires Trim(s) == s
    ensures Trim(Lower(s)) == Lower(s) && Lower(Lower(s)) == Lower(s)
  {
    TrimmedAlready(Lower(s));
  }

  // ---------------------------------------------------------------------
  // Searching

  /** `sub` occurs in `s` starting at offset `i`. */
  predicate OccursAt(s: string, sub: string, i: int) {
    0 <= i <= |s| - |sub| && s[i..i + |sub|] == sub
  }

  /** `String.prototype.includes`: `sub` occurs in `s` at some offset. */
  function Contains(s: string, sub: string): (r: bool)
    ensures r <==> exists i :: OccursAt(s, sub, i)
    decreases |s|
  {
    if |sub| <= |s| && s[..|sub|] == sub then
      assert OccursAt(s, sub, 0);
      true
    else if |s| == 0 then
      false
    else
      var rest := Contains(s[1..], sub);
      assert rest ==> exists i :: OccursAt(s, sub, i) by {
        if rest {
          var j :| OccursAt(s[1..], sub, j);
          assert s[j + 1..j + 1 + |sub|] == s[1..][j..j + |sub|];
          assert OccursAt(s, sub, j + 1);
        }
      }
      assert (exists i :: OccursAt(s, sub, i)) ==> rest by {
        if exists i :: OccursAt(s, sub, i) {
          var i :| OccursAt(s, sub, i);
          assert i != 0;
          assert s[1..][i - 1..i - 1 + |sub|] == s[i..i + |sub|];
          assert OccursAt(s[1..], sub, i - 1);
        }
      }
      rest
  }

  /** Index of the first `c` in `s`, or `|s|` when there is none. */
  function IndexOf(s: string, c: char): (r: nat)
    ensures r <= |s|
    ensures r < |s| ==> s[r] == c
    ensures forall i :: 0 <= i < r ==> s[i] != c
    decreases |s|
  {
    if |s| == 0 then 0
    else if s[0] == c then 0
    else 1 + IndexOf(s[1..], c)
  }

  // ---------------------------------------------------------------------
  // Splitting and joining

  /** `parts.join(sep)`. */
  function JoinWith(parts: seq<string>, sep: string): string
    decreases |parts|
  {
    if |parts| == 0 then ""
    else if |parts| == 1 then parts[0]
    else parts[0] + sep + JoinWith(parts[1..], sep)
  }

  /** `s.split(c)` for a one-character separator: the pieces between
      successive occurrences of `c`. */
  function SplitOn(s: string, c: char): (r: seq<string>)
    ensures |r| >= 1
    ensures forall k :: 0 <= k < |r| ==> c !in r[k]
    decreases |s|
  {
    var i := IndexOf(s, c);
    if i == |s| then
      [s]
    else
      var rest := SplitOn(s[i + 1..], c);
      assert c !in s[..i] by {
        forall k | 0 <= k < i ensures s[..i][k] != c { }
      }
      [s[..i]] + rest
  }

  /** Joining the pieces back with `c` restores `s`. */
  lemma {:induction false} JoinSplit(s: string, c: char)
    ensures JoinWith(SplitOn(s, c), [c]) == s
    decreases |s|
  {
    var i := IndexOf(s, c);
    if i < |s| {
      var rest := SplitOn(s[i + 1..], c);
      JoinSplit(s[i + 1..], c);
      assert SplitOn(s, c) == [s[..i]] + rest;
      assert ([s[..i]] + rest)[1..] == rest;
      assert s == s[..i] + [c] + s[i + 1..];
    }
  }

  /** Splitting undoes joining when no part contains the separator. */
  lemma {:induction false} SplitJoin(parts: seq<string>, c: char)
    requires |parts| >= 1
    requires forall k :: 0 <= k < |parts| ==> c !in parts[k]
    ensures SplitOn(JoinWith(parts, [c]), c) == parts
    decreases |parts|
  {
    var s := JoinWith(parts, [c]);
    if |parts| == 1 {
      assert IndexOf(s, c) == |s|;
    } else {
      var tail := JoinWith(parts[1..], [c]);
      assert s == parts[0] + [c] + tail;
      var i := |parts[0]|;
      assert s[i] == c;
      assert forall k :: 0 <= k < i ==> s[k] == parts[0][k];
      assert IndexOf(s, c) == i;
      assert s[..i] == parts[0];
      assert s[i + 1..] == tail;
      SplitJoin(parts[1..], c);
      assert [parts[0]] + parts[1..] == parts;
    }
  }

  /** The offset just after the last `c` in `s`, or 0 when `s` has none: the
      start of the text after the last separator. */
  function AfterLast(s: string, c: char): (k: nat)
    ensures k <= |s|
    ensures k > 0 ==> s[k - 1] == c
    ensures forall i :: k <= i < |s| ==> s[i] != c
    decreases |s|
  {
    if |s| == 0 then 0
    else if s[|s| - 1] == c then |s|
    else AfterLast(s[..|s| - 1], c)
  }

  /** The two properties of `AfterLast` determine it. */
  lemma AfterLastUnique(s: string, c: char, k: nat)
    requires k <= |s| && (k > 0 ==> s[k - 1] == c)
    requires forall i :: k <= i < |s| ==> s[i] != c
    ensures AfterLast(s, c) == k
  {
  }

  /** The text after the last `c` of `s`, when `s` has a `c` at `i`, lies
      in the text after `i`. */
  lemma AfterLastStep(s: string, c: char, i: nat)
    requires i < |s| && s[i] == c
    ensures AfterLast(s, c) == i + 1 + AfterLast(s[i + 1..], c)
  {
    var t := s[i + 1..];
    var j := AfterLast(t, c);
    assert j > 0 ==> s[i + j] == t[j - 1];
    assert forall m :: i + 1 + j <= m < |s| ==> s[m] == t[m - i - 1];
    AfterLastUnique(s, c, i + 1 + j);
  }

  /** Past the first `c`, the pieces are the text before it and the pieces
      of the rest. */
  lemma SplitStep(s: string, c: char)
    requires IndexOf(s, c) < |s|
    ensures SplitOn(s, c) == [s[..IndexOf(s, c)]] + SplitOn(s[IndexOf(s, c) + 1..], c)
  {
  }

  /** The last element, as `Array.prototype.pop` returns it. */
  function Last<T>(s: seq<T>): T
    requires |s| >= 1
  {
    s[|s| - 1]
  }

  lemma LastOfCons<T>(whole: seq<T>, a: T, rest: seq<T>)
    requires |rest| >= 1 && whole == [a] + rest
    ensures Last(whole) == Last(rest)
  {
  }

  /** Past the first `c`, the last piece is the last piece of the rest. */
  lemma SplitLastOfRest(s: string, c: char, i: nat)
    requires i == IndexOf(s, c) && i < |s|
    ensures Last(SplitOn(s, c)) == Last(SplitOn(s[i + 1..], c))
  {
    SplitStep(s, c);
    LastOfCons(SplitOn(s, c), s[..i], SplitOn(s[i + 1..], c));
  }

  lemma DropDrop(s: string, i: nat, j: nat)
    requires i + j <= |s|
    ensures s[i..][j..] == s[i + j..]
  {
  }

  /** One step of `SplitLast`: from the rest after the first `c` to `s`. */
  lemma SplitLastStep(s: string, c: char, i: nat)
    requires i == IndexOf(s, c) && i < |s|
    requires Last(SplitOn(s[i + 1..], c)) == s[i + 1..][AfterLast(s[i + 1..], c)..]
    ensures Last(SplitOn(s, c)) == s[AfterLast(s, c)..]
  {
    SplitLastOfRest(s, c, i);
    AfterLastStep(s, c, i);
    DropDrop(s, i + 1, AfterLast(s[i + 1..], c));
  }

  /** The last piece of `s.split(c)` is the text after the last `c`. */
  lemma {:induction false} SplitLast(s: string, c: char)
    ensures Last(SplitOn(s, c)) == s[AfterLast(s, c)..]
    decreases |s|
  {
    var i := IndexOf(s, c);
    if i == |s| {
      assert SplitOn(s, c) == [s];
      AfterLastUnique(s, c, 0);
      assert s[0..] == s;
    } else {
      SplitLast(s[i + 1..], c);
      SplitLastStep(s, c, i);
    }
  }

  /** `s.replace(/a/g, b)` for single characters `a` and `b`. */
  function ReplaceChar(s: string, a: char, b: char): (r: string)
    ensures |r| == |s|
    ensures forall i :: 0 <= i < |s| ==> r[i] == (if s[i] == a then b else s[i])
    ensures a != b ==> a !in r
  {
    seq(|s|, i requires 0 <= i < |s| => if s[i] == a then b else s[i])
  }

  // ---------------------------------------------------------------------
  // Decimal numbers

  function DigitChar(d: nat): (c: char)
    requires d < 10
    ensures IsDigit(c)
  {
    (48 + d) as char
  }

  function DigitValue(c: char): nat
    requires IsDigit(c)
  {
    c as int - 48
  }

  predicate AllDigits(s: string) {
    forall i :: 0 <= i < |s| ==> IsDigit(s[i])
  }

  /** The number a string of decimal digits denotes. */
  function ParseDigits(s: string): nat
    requires AllDigits(s)
    decreases |s|
  {
    if |s| == 0 then 0
    else ParseDigits(s[..|s| - 1]) * 10 + DigitValue(s[|s| - 1])
  }

  /** The decimal rendering of `n` (template-literal interpolation of a
      non-negative integer): digits only, no leading zero, and it reads back
      as `n`. */
  function NatToString(n: nat): (r: string)
    ensures |r| >= 1 && AllDigits(r)
    ensures |r| > 1 ==> r[0] != '0'
    ensures ParseDigits(r) == n
    decreases n
  {
    if n < 10 then
      [DigitChar(n)]
    else
      var prefix := NatToString(n / 10);
      var r := prefix + [DigitChar(n % 10)];
      assert r[..|r| - 1] == prefix;
      r
  }
}

=== FILE: tables.dfy ===
/** Database tables as sequences of rows in table order, with the generic
    facts the server actions need: a unique key stays unique under deletion,
    in-place update and appending rows with fresh keys. A key is partial
    (`None` for rows it does not constrain), so one predicate covers primary
    keys and the nullable composite unique constraints alike. */
module Tables {
  import opened Wrappers
  import opened Seqs

  /** No two rows share a present key. */
  predicate UniqueKeys<T, K(==)>(s: seq<T>, key: T -> Option<K>) {
    forall i, j :: 0 <= i < j < |s| && key(s[i]).Some? ==> key(s[i]) != key(s[j])
  }

  /** Every present key of `s` is different from every present key of `t`. */
  predicate DisjointKeys<T, K(==)>(s: seq<T>, t: seq<T>, key: T -> Option<K>) {
    forall i, j :: 0 <= i < |s| && 0 <= j < |t| && key(s[i]).Some? ==> key(s[i]) != key(t[j])
  }

  /** Index of the first row satisfying `p` (Prisma's `findFirst` in table
      order), or `None`. */
  function FindFirst<T>(s: seq<T>, p: T -> bool): (r: Option<nat>)
    ensures r.Some? ==> r.value < |s| && p(s[r.value])
    ensures r.Some? ==> forall i :: 0 <= i < r.value ==> !p(s[i])
    ensures r.None? ==> forall i :: 0 <= i < |s| ==> !p(s[i])
    decreases |s|
  {
    if |s| == 0 then None
    else if p(s[0]) then Some(0)
    else
      var rest := FindFirst(s[1..], p);
      if rest.Some? then Some(rest.value + 1) else None
  }

  /** Rows satisfying `sel` replaced by `f` of themselves, in place. */
  function Update<T>(s: seq<T>, sel: T -> bool, f: T -> T): (r: seq<T>)
    ensures |r| == |s|
    ensures forall i :: 0 <= i < |s| ==> r[i] == if sel(s[i]) then f(s[i]) else s[i]
  {
    seq(|s|, i requires 0 <= i < |s| => if sel(s[i]) then f(s[i]) else s[i])
  }

  lemma {:induction false} FilterUniqueKeys<T(!new), K>(s: seq<T>, p: T -> bool, key: T -> Option<K>)
    requires UniqueKeys(s, key)
    ensures UniqueKeys(Filter(s, p), key)
    decreases |s|
  {
    if |s| > 0 {
      var tail := s[1..];
      assert UniqueKeys(tail, key) by {
        forall i, j | 0 <= i < j < |tail| && key(tail[i]).Some? ensures key(tail[i]) != key(tail[j]) {
          assert tail[i] == s[i + 1] && tail[j] == s[j + 1];
        }
      }
      FilterUniqueKeys(tail, p, key);
      if p(s[0]) {
        var rest := Filter(tail, p);
        var r := [s[0]] + rest;
        forall i, j | 0 <= i < j < |r| && key(r[i]).Some? ensures key(r[i]) != key(r[j]) {
          if i == 0 {
            assert r[j] == rest[j - 1];
            assert rest[j - 1] in tail;
            var k :| 0 <= k < |tail| && tail[k] == rest[j - 1];
            assert tail[k] == s[k + 1];
          } else {
            assert r[i] == rest[i - 1] && r[j] == rest[j - 1];
          }
        }
      }
    }
  }

  lemma AppendUniqueKeys<T, K>(s: seq<T>, t: seq<T>, key: T -> Option<K>)
    requires UniqueKeys(s, key) && UniqueKeys(t, key)
    requires DisjointKeys(s, t, key)
    ensures UniqueKeys(s + t, key)
  {
    var r := s + t;
    forall i, j | 0 <= i < j < |r| && key(r[i]).Some? ensures key(r[i]) != key(r[j]) {
      if j < |s| {
        assert r[i] == s[i] && r[j] == s[j];
      } else if i < |s| {
        assert r[i] == s[i] && r[j] == t[j - |s|];
      } else {
        assert r[i] == t[i - |s|] && r[j] == t[j - |s|];
      }
    }
  }

  lemma UpdateUniqueKeys<T, K>(s: seq<T>, sel: T -> bool, f: T -> T, key: T -> Option<K>)
    requires UniqueKeys(s, key)
    requires forall i :: 0 <= i < |s| && sel(s[i]) ==> key(f(s[i])) == key(s[i])
    ensures UniqueKeys(Update(s, sel, f), key)
  {
    var r := Update(s, sel, f);
    forall i, j | 0 <= i < j < |r| && key(r[i]).Some? ensures key(r[i]) != key(r[j]) {
      assert key(r[i]) == key(s[i]) && key(r[j]) == key(s[j]);
    }
  }

  /** `FindFirst` gives the same answer on two tables whose rows agree
      position by position on the searched property. */
  lemma {:induction false} FindFirstAgree<T, U>(s: seq<T>, p: T -> bool, t: seq<U>, q: U -> bool)
    requires |s| == |t|
    requires forall i :: 0 <= i < |s| ==> p(s[i]) == q(t[i])
    ensures FindFirst(s, p) == FindFirst(t, q)
    decreases |s|
  {
    if |s| > 0 {
      FindFirstAgree(s[1..], p, t[1..], q);
    }
  }

  /** The rows an update moves out of `q` leave the filtered view, and the
      rest of it is unchanged: filtering after the update is filtering by
      "`q` and not selected". */
  lemma {:induction false} FilterAfterUpdate<T(!new)>(s: seq<T>, sel: T -> bool, f: T -> T, q: T -> bool, r: T -> bool)
    requires forall x :: sel(x) ==> !q(f(x))
    requires forall x :: r(x) == (q(x) && !sel(x))
    ensures Filter(Update(s, sel, f), q) == Filter(s, r)
    decreases |s|
  {
    if |s| > 0 {
      var u := Update(s, sel, f);
      assert u[1..] == Update(s[1..], sel, f);
      FilterAfterUpdate(s[1..], sel, f, q, r);
    }
  }
}

=== FILE: timezone.dfy ===
/** The time-zone helpers the selector and the settings page are built on:
    the city name shown for an IANA zone, the fixed list of zones grouped by
    region, and the flat option list. Offsets and abbreviations come from
    the time-zone database and are parameters here. */
module Timezone {
  import opened Seqs
  import opened Strings

  /** `getTimezoneCityName`: the last `/`-separated segment with every `_`
      replaced by a space. Splitting always yields at least one piece, so the
      fallback to the whole zone is never taken. The result is the text after
      the last `/` of the zone, and holds neither `/` nor `_`. */
  function CityName(tz: string): (r: string)
    ensures r == ReplaceChar(tz[AfterLast(tz, '/')..], '_', ' ')
    ensures '/' !in r && '_' !in r
  {
    SplitLast(tz, '/');
    ReplaceChar(Last(SplitOn(tz, '/')), '_', ' ')
  }

  /** When the zone is `prefix/segment` and the segment has no `/`, the city
      is the segment with spaces for underscores. */
  lemma CityOfSegment(prefix: string, segment: string)
    requires '/' !in segment
    ensures CityName(prefix + "/" + segment) == ReplaceChar(segment, '_', ' ')
  {
    var tz := prefix + "/" + segment;
    assert tz[|prefix|] == '/';
    assert forall i :: |prefix| + 1 <= i < |tz| ==> tz[i] == segment[i - |prefix| - 1];
    AfterLastUnique(tz, '/', |prefix| + 1);
    assert tz[|prefix| + 1..] == segment;
  }

  /** A zone without `/` is its own city, with spaces for underscores. */
  lemma CityWithoutSlash(tz: string)
    requires '/' !in tz
    ensures CityName(tz) == ReplaceChar(tz, '_', ' ')
  {
    AfterLastUnique(tz, '/', 0);
    assert tz[0..] == tz;
  }

  /** The examples of the helper's documentation, and a zone with two
      slashes. */
  lemma NewYorkExample()
    ensures CityName("America/New_York") == "New York"
  {
    assert "America/New_York" == "America" + "/" + "New_York";
    CityOfSegment("America", "New_York");
    assert ReplaceChar("New_York", '_', ' ') == "New York";
  }

  lemma HoChiMinhExample()
    ensures CityName("Asia/Ho_Chi_Minh") == "Ho Chi Minh"
  {
    assert "Asia/Ho_Chi_Minh" == "Asia" + "/" + "Ho_Chi_Minh";
    CityOfSegment("Asia", "Ho_Chi_Minh");
    assert ReplaceChar("Ho_Chi_Minh", '_', ' ') == "Ho Chi Minh";
  }

  lemma BuenosAiresSpaced()
    ensures ReplaceChar("Buenos_Aires", '_', ' ') == "Buenos Aires"
  {
  }

  lemma BuenosAiresExample()
    ensures CityName("America/Argentina/Buenos_Aires") == "Buenos Aires"
  {
    BuenosAiresSpaced();
    var prefix := "America/Argentina";
    assert "America/Argentina/Buenos_Aires" == prefix + "/" + "Buenos_Aires";
    CityOfSegment(prefix, "Buenos_Aires");
  }

  // ---------------------------------------------------------------------
  // The zone list

  /** One entry of `TIMEZONE_GROUPS`: a region heading and its zones. */
  datatype Group = Group(region: string, zones: seq<string>)

  const Americas: seq<string> := [
    "America/New_York", "America/Chicago", "America/Denver", "America/Los_Angeles",
    "America/Anchorage", "Pacific/Honolulu", "America/Toronto", "America/Vancouver",
    "America/Mexico_City", "America/Sao_Paulo", "America/Argentina/Buenos_Aires",
    "America/Bogota", "America/Lima"]

  const EuropeAfrica: seq<string> := [
    "Europe/London", "Europe/Paris", "Europe/Berlin", "Europe/Amsterdam", "Europe/Madrid",
    "Europe/Rome", "Europe/Stockholm", "Europe/Zurich", "Europe/Moscow", "Europe/Istanbul",
    "Africa/Cairo", "Africa/Lagos", "Africa/Johannesburg"]

  const AsiaPacific: seq<string> := [
    "Asia/Dubai", "Asia/Kolkata", "Asia/Dhaka", "Asia/Bangkok", "Asia/Ho_Chi_Minh",
    "Asia/Jakarta", "Asia/Singapore", "Asia/Shanghai", "Asia/Hong_Kong", "Asia/Seoul",
    "Asia/Tokyo", "Australia/Sydney", "Australia/Melbourne", "Pacific/Auckland"]

  /** `TIMEZONE_GROUPS`, in the order `Object.entries` lists its keys. */
  const TimezoneGroups: seq<Group> := [
    Group("Americas", Americas),
    Group("Europe & Africa", EuropeAfrica),
    Group("Asia & Pacific", AsiaPacific)]

  /** One selector option; `labelText` is the `label` field. */
  datatype TimezoneOption = TimezoneOption(
    value: string, labelText: string, city: string, offset: string, abbreviation: string, region: string)

  /** What an option says about its zone: the city derived from it, the
      zone's offset and abbreviation, and the label `city (offset)`. */
  predicate Describes(o: TimezoneOption, offsetOf: string -> string, abbreviationOf: string -> string) {
    && o.city == CityName(o.value)
    && o.offset == offsetOf(o.value)
    && o.abbreviation == abbreviationOf(o.value)
    && o.labelText == o.city + " (" + o.offset + ")"
  }

  /** The zones of all groups, group after group. */
  function Zones(groups: seq<Group>): seq<string>
    decreases |groups|
  {
    if |groups| == 0 then [] else groups[0].zones + Zones(groups[1..])
  }

  /** The values of a list of options, in order. */
  function Values(options: seq<TimezoneOption>): (r: seq<string>)
    ensures |r| == |options| && forall k :: 0 <= k < |r| ==> r[k] == options[k].value
  {
    seq(|options|, k requires 0 <= k < |options| => options[k].value)
  }

  /** The inner loop: one option per zone of a region. */
  function RegionOptions(region: string, zones: seq<string>, offsetOf: string -> string,
                         abbreviationOf: string -> string): (r: seq<TimezoneOption>)
    ensures Values(r) == zones
    ensures forall k :: 0 <= k < |r| ==> r[k].region == region && Describes(r[k], offsetOf, abbreviationOf)
  {
    var city := k requires 0 <= k < |zones| => CityName(zones[k]);
    seq(|zones|, k requires 0 <= k < |zones| =>
      TimezoneOption(zones[k], city(k) + " (" + offsetOf(zones[k]) + ")", city(k),
                     offsetOf(zones[k]), abbreviationOf(zones[k]), region))
  }

  /** `getAllTimezoneOptions` over any groups: the options list the zones in
      group order, each option describing its zone. */
  function Options(groups: seq<Group>, offsetOf: string -> string, abbreviationOf: string -> string)
    : (r: seq<TimezoneOption>)
    ensures Values(r) == Zones(groups)
    ensures forall k :: 0 <= k < |r| ==> Describes(r[k], offsetOf, abbreviationOf)
    decreases |groups|
  {
    if |groups| == 0 then []
    else
      var head := RegionOptions(groups[0].region, groups[0].zones, offsetOf, abbreviationOf);
      var rest := Options(groups[1..], offsetOf, abbreviationOf);
      ValuesConcat(head, rest);
      DescribesConcat(head, rest, offsetOf, abbreviationOf);
      head + rest
  }

  lemma ValuesConcat(a: seq<TimezoneOption>, b: seq<TimezoneOption>)
    ensures Values(a + b) == Values(a) + Values(b)
  {
  }

  lemma DescribesConcat(a: seq<TimezoneOption>, b: seq<TimezoneOption>, offsetOf: string -> string,
                        abbreviationOf: string -> string)
    requires forall k :: 0 <= k < |a| ==> Describes(a[k], offsetOf, abbreviationOf)
    requires forall k :: 0 <= k < |b| ==> Describes(b[k], offsetOf, abbreviationOf)
    ensures forall k :: 0 <= k < |a + b| ==> Describes((a + b)[k], offsetOf, abbreviationOf)
  {
    forall k | 0 <= k < |a + b| ensures Describes((a + b)[k], offsetOf, abbreviationOf) {
      if k < |a| { assert (a + b)[k] == a[k]; } else { assert (a + b)[k] == b[k - |a|]; }
    }
  }

  /** `getAllTimezoneOptions`: every group's options, group after group. */
  function AllTimezoneOptions(offsetOf: string -> string, abbreviationOf: string -> string)
    : (r: seq<TimezoneOption>)
    ensures Values(r) == Zones(TimezoneGroups)
    ensures forall k :: 0 <= k < |r| ==> Describes(r[k], offsetOf, abbreviationOf)
  {
    Options(TimezoneGroups, offsetOf, abbreviationOf)
  }

  /** Forty options: the thirteen American zones first, then the thirteen
      of Europe and Africa, then the fourteen of Asia and the Pacific, each
      tagged with its region. */
  lemma AllOptionsLayout(offsetOf: string -> string, abbreviationOf: string -> string)
    ensures var r := AllTimezoneOptions(offsetOf, abbreviationOf);
      && |r| == 40
      && Values(r) == Americas + EuropeAfrica + AsiaPacific
      && (forall k :: 0 <= k < 13 ==> r[k].region == "Americas")
      && (forall k :: 13 <= k < 26 ==> r[k].region == "Europe & Africa")
      && (forall k :: 26 <= k < 40 ==> r[k].region == "Asia & Pacific")
  {
    var g := TimezoneGroups;
    var a := RegionOptions("Americas", Americas, offsetOf, abbreviationOf);
    var e := RegionOptions("Europe & Africa", EuropeAfrica, offsetOf, abbreviationOf);
    var p := RegionOptions("Asia & Pacific", AsiaPacific, offsetOf, abbreviationOf);
    assert g[1..][1..][1..] == [];
    assert Options(g[1..][1..], offsetOf, abbreviationOf) == p + [];
    assert Options(g[1..], offsetOf, abbreviationOf) == e + (p + []);
    assert AllTimezoneOptions(offsetOf, abbreviationOf) == a + (e + (p + []));
    assert Zones(g) == Americas + (EuropeAfrica + (AsiaPacific + []));
  }

  lemma AmericasDistinct() ensures Distinct(Americas) { }
  lemma EuropeAfricaDistinct() ensures Distinct(EuropeAfrica) { }
  lemma AsiaPacificDistinct() ensures Distinct(AsiaPacific) { }

  lemma AmericasNotInEurope()
    ensures forall i, j :: 0 <= i < |Americas| && 0 <= j < |EuropeAfrica| ==> Americas[i] != EuropeAfrica[j]
  { }

  lemma AmericasNotInAsia()
    ensures forall i, j :: 0 <= i < |Americas| && 0 <= j < |AsiaPacific| ==> Americas[i] != AsiaPacific[j]
  { }

  lemma EuropeNotInAsia()
    ensures forall i, j :: 0 <= i < |EuropeAfrica| && 0 <= j < |AsiaPacific| ==> EuropeAfrica[i] != AsiaPacific[j]
  { }

  lemma AmericasApart()
    ensures forall i, j :: 0 <= i < |Americas| && 0 <= j < |EuropeAfrica| + |AsiaPacific| ==>
      Americas[i] != (EuropeAfrica + AsiaPacific)[j]
  {
    AmericasNotInEurope();
    AmericasNotInAsia();
  }

  /** No zone is listed twice, so option values identify options. */
  lemma OptionValuesDistinct(offsetOf: string -> string, abbreviationOf: string -> string)
    ensures Distinct(Values(AllTimezoneOptions(offsetOf, abbreviationOf)))
  {
    AllOptionsLayout(offsetOf, abbreviationOf);
    AmericasDistinct();
    EuropeAfricaDistinct();
    AsiaPacificDistinct();
    EuropeNotInAsia();
    DistinctConcat(EuropeAfrica, AsiaPacific);
    AmericasApart();
    DistinctConcat(Americas, EuropeAfrica + AsiaPacific);
    ConcatAssoc(Americas, EuropeAfrica, AsiaPacific);
  }
}

=== FILE: timezone_selector.dfy ===
/** The header time-zone picker: a case-insensitive search over the option
    list, and the handler that applies a picked option. */
module TimezoneSelector {
  import opened Wrappers
  import opened Seqs
  import opened Strings
  import opened Timezone

  /** The search test: the lowercased query occurs in the lowercased city,
      zone or offset of the option. */
  predicate Matches(o: TimezoneOption, search: string) {
    var q := Lower(search);
    Contains(Lower(o.city), q) || Contains(Lower(o.value), q) || Contains(Lower(o.offset), q)
  }

  function MatchesSearch(search: string): TimezoneOption -> bool {
    o => Matches(o, search)
  }

  /** `filtered`: no list (the grouped view) while the search is empty;
      otherwise the matching options, in list order. */
  function Filtered(options: seq<TimezoneOption>, search: string): (r: Option<seq<TimezoneOption>>)
    ensures r.None? <==> search == ""
    ensures r.Some? ==> IsSubseq(r.value, options)
    ensures r.Some? ==> forall o :: o in r.value <==> o in options && Matches(o, search)
  {
    if search == "" then None else Some(Filter(options, MatchesSearch(search)))
  }

  lemma LowerIdempotent(s: string)
    ensures Lower(Lower(s)) == Lower(s)
  {
  }

  /** Queries that agree once lowercased find the same options; in
      particular typing the query in any case gives the same results. */
  lemma SearchIgnoresCase(options: seq<TimezoneOption>, a: string, b: string)
    requires Lower(a) == Lower(b) && a != "" && b != ""
    ensures Filtered(options, a) == Filtered(options, b)
  {
    FilterAgree(options, MatchesSearch(a), MatchesSearch(b));
  }

  lemma SearchLowercased(options: seq<TimezoneOption>, search: string)
    requires search != ""
    ensures Filtered(options, Lower(search)) == Filtered(options, search)
  {
    LowerIdempotent(search);
    SearchIgnoresCase(options, Lower(search), search);
  }

  /** The picker's state: the chosen zone, whether the popover is open and
      the search text. */
  datatype SelectorState = SelectorState(timezone: string, open: bool, search: string)

  /** Picking a search result. */
  function Select(st: SelectorState, o: TimezoneOption): (r: SelectorState)
    ensures r.timezone == o.value && !r.open && r.search == ""
  {
    SelectorState(o.value, false, "")
  }

  /** After a pick, the picked option is the selected one, and reopening the
      popover shows the grouped view again. */
  lemma SelectResets(options: seq<TimezoneOption>, st: SelectorState, o: TimezoneOption)
    ensures Filtered(options, Select(st, o).search).None?
    ensures Select(st, o).timezone == o.value
  {
  }
}

=== FILE: validators.dfy ===
/** The request schemas of `src/lib/validators.ts`, stated as predicates over
    typed inputs. The e-mail and ISO date-time format checks belong to the
    validation library and are parameters (`Formats`). String lengths are
    counted in characters. A failing schema reports the fields at fault, in
    the order the schema checks them. */
module Validators {
  import opened Wrappers

  /** The library's format checks. */
  datatype Formats = Formats(isEmail: string -> bool, isDateTime: string -> bool)

  datatype Field =
    | FirstName | LastName | Email | Password | ConfirmPassword
    | Name | Title | Description | Location | Duration | Type
    | ProposedTime | DateRangeStart | DateRangeEnd | TimeSlots | Invitees
    | Availabilities | Message

  /** `when` then `[f]`, else nothing: one schema check's issue list. */
  function IssueIf(when: bool, f: Field): (r: seq<Field>)
    ensures f in r <==> when
    ensures |r| <= 1
  {
    if when then [f] else []
  }

  predicate LengthIn(s: string, lo: nat, hi: nat) {
    lo <= |s| <= hi
  }

  /** An optional string that is valid when absent. */
  predicate OptionalOk(s: Option<string>, ok: string -> bool) {
    s.None? || ok(s.value)
  }

  // ---------------------------------------------------------------------
  // signupSchema

  datatype SignupInput = SignupInput(
    firstName: string, lastName: string, email: string,
    password: string, confirmPassword: string, timezone: Option<string>)

  datatype SignupData = SignupData(
    firstName: string, lastName: string, email: string, password: string, timezone: string)

  /** What a valid signup satisfies, field by field. */
  predicate SignupValid(i: SignupInput, fmt: Formats) {
    && LengthIn(i.firstName, 1, 50)
    && LengthIn(i.lastName, 1, 50)
    && fmt.isEmail(i.email)
    && |i.password| >= 8
    && i.password == i.confirmPassword
  }

  /** The issues of a signup: the field checks first, then the password
      match, reported on `confirmPassword`. */
  function SignupIssues(i: SignupInput, fmt: Formats): (r: seq<Field>)
    ensures |r| == 0 <==> SignupValid(i, fmt)
    ensures ConfirmPassword in r <==> i.password != i.confirmPassword
    ensures Password in r <==> |i.password| < 8
  {
    IssueIf(!LengthIn(i.firstName, 1, 50), FirstName)
    + IssueIf(!LengthIn(i.lastName, 1, 50), LastName)
    + IssueIf(!fmt.isEmail(i.email), Email)
    + IssueIf(|i.password| < 8, Password)
    + IssueIf(i.password != i.confirmPassword, ConfirmPassword)
  }

  /** `signupSchema.safeParse`: the data with the time zone defaulted to
      "UTC", or the issues. */
  function ParseSignup(i: SignupInput, fmt: Formats): (r: Result<SignupData, seq<Field>>)
    ensures r.Ok? <==> SignupValid(i, fmt)
    ensures r.Ok? ==> r.value.timezone == i.timezone.GetOr("UTC")
    ensures r.Ok? ==> r.value.password == i.confirmPassword
    ensures r.Err? ==> |r.error| > 0
  {
    var issues := SignupIssues(i, fmt);
    if |issues| > 0 then Err(issues)
    else Ok(SignupData(i.firstName, i.lastName, i.email, i.password, i.timezone.GetOr("UTC")))
  }

  // ---------------------------------------------------------------------
  // guestJoinSchema

  datatype GuestJoinInput = GuestJoinInput(name: string, email: Option<string>)

  /** A guest needs a name of 1 to 100 characters; the e-mail may be absent,
      empty, or a valid address. */
  predicate GuestJoinValid(i: GuestJoinInput, fmt: Formats) {
    LengthIn(i.name, 1, 100) && (i.email.None? || i.email.value == "" || fmt.isEmail(i.email.value))
  }

  function GuestJoinIssues(i: GuestJoinInput, fmt: Formats): (r: seq<Field>)
    ensures |r| == 0 <==> GuestJoinValid(i, fmt)
    ensures Email in r ==> i.email.Some? && i.email.value != ""
  {
    IssueIf(!LengthIn(i.name, 1, 100), Name)
    + IssueIf(i.email.Some? && i.email.value != "" && !fmt.isEmail(i.email.value), Email)
  }

  // ---------------------------------------------------------------------
  // submitAvailabilitySchema

  datatype AvailabilityInput = AvailabilityInput(startTime: string, endTime: string, isAvailable: bool)
  datatype SubmitInput = SubmitInput(timezone: string, availabilities: seq<AvailabilityInput>)

  /** Both instants of every row are date-time strings. The schema does not
      require the start to come before the end. */
  predicate SubmitValid(i: SubmitInput, fmt: Formats) {
    forall k :: 0 <= k < |i.availabilities| ==>
      fmt.isDateTime(i.availabilities[k].startTime) && fmt.isDateTime(i.availabilities[k].endTime)
  }

  /** A row whose end precedes its start passes the schema as long as both
      strings are date-times. */
  lemma SubmitAcceptsReversedRow(fmt: Formats, a: string, b: string)
    requires fmt.isDateTime(a) && fmt.isDateTime(b)
    ensures SubmitValid(SubmitInput("UTC", [AvailabilityInput(b, a, true), AvailabilityInput(a, b, false)]), fmt)
  {
  }

  // ---------------------------------------------------------------------
  // createMeetingSchema of src/lib/validators.ts

  datatype SlotInput = SlotInput(startTime: string, endTime: string)
  datatype InviteeInput = InviteeInput(email: string, name: Option<string>)

  /** The form-level meeting input. `duration` is a JSON number, so a real;
      `kind` is the raw `type` string, absent when not sent. */
  datatype MeetingFormInput = MeetingFormInput(
    title: string,
    description: Option<string>,
    location: Option<string>,
    duration: real,
    kind: Option<string>,
    proposedTime: Option<string>,
    dateRangeStart: Option<string>,
    dateRangeEnd: Option<string>,
    timeSlots: Option<seq<SlotInput>>,
    invitees: seq<InviteeInput>)

  predicate IsMeetingType(s: string) {
    s == "FIXED" || s == "POLL"
  }

  /** This schema takes any duration from 15 to 480 minutes, fractional ones
      included, and requires the type; invitees are objects with an e-mail. */
  predicate MeetingFormValid(i: MeetingFormInput, fmt: Formats) {
    && LengthIn(i.title, 1, 200)
    && OptionalOk(i.description, s => |s| <= 2000)
    && OptionalOk(i.location, s => |s| <= 500)
    && 15.0 <= i.duration <= 480.0
    && i.kind.Some? && IsMeetingType(i.kind.value)
    && OptionalOk(i.proposedTime, fmt.isDateTime)
    && OptionalOk(i.dateRangeStart, fmt.isDateTime)
    && OptionalOk(i.dateRangeEnd, fmt.isDateTime)
    && (i.timeSlots.None? || forall k :: 0 <= k < |i.timeSlots.value| ==>
          fmt.isDateTime(i.timeSlots.value[k].startTime) && fmt.isDateTime(i.timeSlots.value[k].endTime))
    && (forall k :: 0 <= k < |i.invitees| ==> fmt.isEmail(i.invitees[k].email))
  }

  /** A quarter-hour-and-a-half duration passes, and a type must be given. */
  lemma MeetingFormDurationAndType(i: MeetingFormInput, fmt: Formats)
    requires MeetingFormValid(i, fmt)
    ensures MeetingFormValid(i.(duration := 22.5), fmt)
    ensures !MeetingFormValid(i.(kind := None), fmt)
    ensures !MeetingFormValid(i.(duration := 10.0), fmt)
  {
  }

  // ---------------------------------------------------------------------
  // fixedResponseSchema

  datatype FixedResponseInput = FixedResponseInput(available: bool, timezone: string, message: Option<string>)

  predicate FixedResponseValid(i: FixedResponseInput) {
    OptionalOk(i.message, s => |s| <= 500)
  }

  /** The message is the only constrained field: at most 500 characters
      when present. */
  lemma FixedResponseMessageLimit(available: bool, timezone: string, message: string)
    ensures FixedResponseValid(FixedResponseInput(available, timezone, None))
    ensures FixedResponseValid(FixedResponseInput(available, timezone, Some(message))) <==> |message| <= 500
  {
  }
}

=== FILE: wrappers.dfy ===
/** Option and Result, the shapes used throughout the model for absent values
    (`null`/`undefined` in the source) and for operations that can fail. */
module Wrappers {

  /** A value that may be absent: the source's `T | null | undefined`. */
  datatype Option<+T> = None | Some(value: T) {

    /** The value, or `default` when absent (the source's `??`). */
    function GetOr(default: T): T {
      match this
      case Some(v) => v
      case None => default
    }
  }

  /** The outcome of an operation that either succeeds with a value or fails
      with an error (a thrown `Error` or an error response in the source). */
  datatype Result<+T, +E> = Ok(value: T) | Err(error: E)
}
